=== FILE: README.md ===
# FROGS job orchestration, modelled in Dafny

This project models the core of an MCP server that drives the FROGS
amplicon-metagenomics tools. The server keeps a catalogue of 28 FROGS
tools. It turns a tool name and a parameter dictionary into a command
line. It starts that command as a background job, and a poller records
each job's end in a SQLite store. On top of this it runs projects: a
project tracks one status row per pipeline step. Outputs of completed
jobs are wired into the inputs of the next step through a table of flow
rules, and the server recommends which step to run next.

The model is a set of pure functions over immutable values:

- `Catalogue`, `CatalogueFacts` and `CatalogueChecks` hold the tool catalogue (`tools_registry.py`):
  - every entry is written out in full;
  - each entry is proved well formed;
  - the two step lists are proved to partition the catalogue.
- `Command` models `build_command`: defaults are merged, output paths are rebased into the job directory, and the flags are emitted.
- `Store` models `database.py`. The three tables are sequences of rows in insertion order, and each store operation is a function from the old store to the new one. The SQL constraints are the predicate `Store.Valid`, and every operation is proved to preserve it.
- `Jobs` models `job_manager.py`:
  - the environment;
  - `submit_job`;
  - one pass of the poller;
  - `cancel_job`.

  All of these act on a `World`: the store, the poller's registry, the created directories and the launched command lines.
- `Pipeline` and `FlowRules` model `pipeline.py`:
  - the flow rules;
  - input resolution from completed jobs;
  - the status summary;
  - the recommendation, without its markdown.
- `Server` models the helpers and tools of `server.py` that combine the above:
  - `_all_steps_ordered`;
  - `create_project`;
  - `submit_pipeline_step`;
  - `list_tools`;
  - `list_projects`.
- `Values`, `Paths`, `Sorting` and `Wrappers` are support modules:
  - Python values and truthiness, `str`, `str.split` and ASCII `lower`;
  - POSIX `os.path`;
  - an insertion sort standing in for `ORDER BY` and `sorted`;
  - `Option` and `Result`.

Effects the model cannot perform are parameters:

- the fresh job and project ids (`uuid4`);
- the current time;
- the process id of a started job;
- the set of existing files seen by the poller's scan;
- the exit codes of finished processes;
- the outcome of sending `SIGTERM`.

The catalogue, the flow rules and the step lists are passed to the operations as values. `Server.Deployed` builds the values the server actually runs with.

The code and its description disagree in a few places. In each case the model follows the code:

- A job's status is not monotone. A job cancelled while the poller still has it registered is overwritten with `failed` or `completed` once its process exits, as `Jobs.CancelledJobOverwrittenByTick` shows. `cancel_job` does not remove the job from the poller's registry.
- `submit_job` checks only that the positional argument is present. `build_command` also rejects an empty one, but only after the job directory has been created (`Jobs.EmptyPositionalFailsAfterDir`).
- `list_jobs("")` lists every job, like `list_jobs(None)`.
- A job without a step name contributes full-index keys of the form `None.<key>`, because Python formats `None` as `"None"`.
- For the main steps, both the status summary and the recommendation treat a step without a row as still to run. The summary defaults to `"unknown"` and the recommendation to `"pending"`, but both values count as open. For optional steps, the recommendation lists those that are pending or have no row.

## Model

| member | source | states |
|---|---|---|
| Values.Split | mcp_server/job_manager.py:129 | `str.split()` yields only words: non-empty and free of whitespace |
| Values.SplitOfRuns | mcp_server/job_manager.py:129 | a string laid out as whitespace runs around words, with at least one whitespace character between neighbouring words, splits into exactly those words |
| Values.SplitRuns | mcp_server/job_manager.py:129 | every string is such a layout of the words `str.split()` returns, so the split drops only whitespace and keeps every word whole and in order |
| Values.SplitJoinWords | mcp_server/job_manager.py:124-132 | splitting the space-joined words gives back exactly those words, so a list value and its space-separated string form carry the same items |
| Values.StrAll | mcp_server/job_manager.py:132 | every list item becomes its `str`, in order and one for one |
| Values.Lower | mcp_server/server.py:408 | lower-casing keeps the length, maps `A`-`Z` to `a`-`z` and leaves every other character alone |
| Paths.Join | mcp_server/job_manager.py:101 | an absolute second part replaces the first; otherwise a `/` is inserted exactly when the first part is non-empty and does not already end in one; an absolute base stays absolute |
| Sorting.SortBy | mcp_server/database.py:112 | the result is ascending in the key and is a permutation of the input |
| Sorting.Insert | mcp_server/database.py:112 | inserting into a sorted sequence keeps it sorted and adds exactly the one element |
| Catalogue.ScriptPath | mcp_server/tools_registry.py:46-50 | the script sits at `<tools dir>/<tool name>/<script name>` for every tool, `phyloseq_import` included |
| Catalogue.LogParam | mcp_server/tools_registry.py:57-60 | the log parameter is an output file under key `log` that defaults to `frogs.log` |
| Catalogue.HtmlParam | mcp_server/tools_registry.py:62-65 | the HTML parameter is an output file under key `html` with the given default name |
| Catalogue.NbCpusParam | mcp_server/tools_registry.py:67-69 | `nb_cpus` is an integer parameter, not an output, with the given default |
| Catalogue.DebugParam | mcp_server/tools_registry.py:71-73 | `debug` is a boolean flag that is off by default and is not an output |
| Catalogue.GetTool | mcp_server/tools_registry.py:1078-1079 | a tool is found exactly when its name is a catalogue key, and it is the entry stored under that key |
| Catalogue.FindTool | mcp_server/tools_registry.py:1078-1079 | a lookup in a catalogue given as a list of entries: none exactly when no entry has that name, else an entry with that name |
| Catalogue.FindToolFirst | mcp_server/tools_registry.py:1078-1079 | the entry found is the first one of that name: no earlier entry has it |
| CatalogueChecks.ToolNamesAreSteps | mcp_server/tools_registry.py:1043-1083 | the catalogue keys in insertion order are `PIPELINE_ORDER` followed by `OPTIONAL_STEPS` |
| CatalogueChecks.PipelineOrderDistinct | mcp_server/tools_registry.py:1043-1056 | `PIPELINE_ORDER` has twelve steps and none appears twice |
| CatalogueChecks.OptionalStepsDistinct | mcp_server/tools_registry.py:1058-1075 | `OPTIONAL_STEPS` has sixteen steps and none appears twice |
| CatalogueChecks.StepListsDisjoint | mcp_server/tools_registry.py:1043-1075 | no step is both mandatory and optional |
| CatalogueChecks.StepListsPartitionCatalogue | mcp_server/tools_registry.py:1043-1083 | the two step lists are disjoint, together list the catalogue keys in order, and no key repeats |
| Command.MergeContents | mcp_server/job_manager.py:84-92 | `merged` holds exactly the declared non-positional names that were given or are output files with a default; given values are copied and the others are the non-null default of an output-file parameter |
| Command.MergeKeys | mcp_server/job_manager.py:84-92 | the names in `merged` are exactly the declared non-positional names that were given or are output files with a default |
| Command.MergeGiven | mcp_server/job_manager.py:88-89 | a given value is copied into `merged` unchanged |
| Command.MergeDefaults | mcp_server/job_manager.py:90-92 | an entry that was not given is the non-null default of an output-file parameter of that name |
| Command.MergeRelevant | mcp_server/job_manager.py:84-92 | the merge reads only names the tool declares |
| Command.Rebase | mcp_server/job_manager.py:100-102 | an absolute path is kept, a relative one is joined under the job directory, and under an absolute job directory the result is absolute |
| Command.ResolveStep | mcp_server/job_manager.py:96-104 | one output parameter: skipped when it is not an output or not merged, rebased when its value is a truthy string (and recorded under its output key), left alone when falsy, and an error when truthy but not a string |
| Command.ResolveOutputs | mcp_server/job_manager.py:94-104 | fails exactly when some merged output value is truthy but not a string; otherwise every resolved output is a non-empty path under a declared output key, absolute under an absolute job directory, and non-string values are untouched |
| Command.ResolvedOutputKey | mcp_server/job_manager.py:96-104 | a key is in the output map exactly when some output-file parameter with that non-empty key has a truthy value |
| Command.ResolvedOutputValue | mcp_server/job_manager.py:96-104 | the output loop leaves under a key the rebased value of the last parameter that records a truthy path there |
| Command.OutputPathRebased | mcp_server/job_manager.py:99-104 | a non-empty string output is resolved, and its output key maps to the rebased path |
| Command.BuildCommand | mcp_server/job_manager.py:62-137 | fails with the missing-positional error exactly when the positional value is absent or falsy; otherwise fails exactly when output resolution does; the command starts with the interpreter, the script path and the positional value, and every resolved output sits under a declared output key |
| Command.BuildCommandOutputs | mcp_server/job_manager.py:94-104 | with distinct parameter names, an output key is in the built output map exactly when some non-positional output-file parameter with that non-empty key has a truthy given or default value, and it maps to the last such value rebased under the job directory |
| Command.BuildCommandArgv | mcp_server/job_manager.py:71-135 | a built command line is the interpreter, the script, the positional value when there is one, then the flag tokens of every declared parameter in declaration order, read from the merged, rebased map with the CPU default |
| Command.Flags | mcp_server/job_manager.py:110-135 | the flag tokens of the first parameters are a prefix of those of any longer run of the loop |
| Command.FlagsLayout | mcp_server/job_manager.py:110-135 | the tokens of parameter `j` sit between those of the parameters before it and those after it, and are exactly what that parameter contributes |
| Command.Emitted | mcp_server/job_manager.py:110-135 | the slice of the built command line that belongs to parameter `j` is that parameter's tokens for the value the loop reads |
| Command.ArgvGiven | mcp_server/job_manager.py:88-135 | a given parameter that is not an output file appears on the command line as: nothing for `None`; a truthy boolean's flag alone; a list's flag and items unless empty; otherwise the flag and `str` of the value |
| Command.ArgvOutputRebased | mcp_server/job_manager.py:88-135 | a truthy string output, given or defaulted, appears as its flag followed by its path rebased into the job directory |
| Command.ArgvSkipped | mcp_server/job_manager.py:112-115 | the positional parameter and a parameter without a flag contribute no flag tokens |
| Command.ArgvNbCpus | mcp_server/job_manager.py:106-135 | a declared `nb_cpus` that was not given appears as its flag followed by `4`, or the flag alone when it is boolean |
| Command.ResolveKeepsOthers | mcp_server/job_manager.py:94-104 | output resolution changes only the values of output-file parameters |
| Command.ResolveRebasesOutput | mcp_server/job_manager.py:99-102 | output resolution stores a truthy string output value rebased into the job directory |
| Command.UndeclaredParamsIgnored | mcp_server/job_manager.py:84-135 | parameters the tool does not declare never change the command or the resolved outputs |
| Command.ListAndJoinedStringAgree | mcp_server/job_manager.py:124-132 | a list of words and the space-joined string of them emit the same tokens |
| Command.EmptyListEmitsNothing | mcp_server/job_manager.py:130-132 | an empty list emits not even its flag |
| Command.BoolFlagOnce | mcp_server/job_manager.py:121-123 | a boolean flag appears once when its value is truthy and never otherwise |
| Command.NonOutputDefaultNotEmitted | mcp_server/job_manager.py:88-119 | a parameter that is neither given, nor an output file with a default, nor `nb_cpus`, reaches the flag loop as `None` and leaves no token on the command line |
| Command.NbCpusDefaulted | mcp_server/job_manager.py:106-108 | a declared `nb_cpus` that was not given reaches the flag loop as `DEFAULT_NB_CPUS` |
| Store.Empty | mcp_server/database.py:28-67 | the freshly created tables are empty and meet every schema constraint |
| Store.GetProject | mcp_server/database.py:95-105 | none exactly when no project has the id, else a stored project with that id |
| Store.CreateProject | mcp_server/database.py:78-92 | a taken id is a primary-key error; otherwise exactly the new project is appended, read back by `get_project`, and the constraints are kept |
| Store.ListProjects | mcp_server/database.py:108-116 | every project exactly once, newest first |
| Store.GetJob | mcp_server/database.py:172-190 | none exactly when no job has the id, else a stored job with that id |
| Store.InsertJob | mcp_server/database.py:123-143 | a taken id or an unknown project is an integrity error (a primary-key error exactly for the taken id); otherwise one `running` job with the given fields, started and created now, is appended and read back, and the constraints are kept |
| Store.UpdateJobStatus | mcp_server/database.py:146-157 | the rows of that id get the status, exit code and end time, all other rows stay; an unknown id changes nothing |
| Store.UpdateJobOutputFiles | mcp_server/database.py:160-169 | the rows of that id get the new output map as a whole, all other rows stay; an unknown id changes nothing |
| Store.StatusReadBack | mcp_server/database.py:146-157 | `get_job` after a status update returns the old row with the new status, exit code and end time |
| Store.OutputFilesReadBack | mcp_server/database.py:160-169 | `get_job` after an output update returns the old row with the new output map |
| Store.ListJobs | mcp_server/database.py:193-217 | with a non-empty project id, exactly that project's jobs; with none or an empty one, every job; newest first in both cases |
| Store.InsertSteps | mcp_server/database.py:230-236 | `INSERT OR IGNORE`: existing rows are kept as a prefix; every listed step ends up present; each new row is a pending, job-less row built from one listed step, and no new row repeats an earlier (project, step) key |
| Store.InitializePipelineSteps | mcp_server/database.py:224-239 | fails (foreign key) exactly when steps are given for a project that does not exist; otherwise existing rows are kept, every listed step is present, new rows are pending and job-less, and the constraints are kept |
| Store.InsertPresentSteps | mcp_server/database.py:230-236 | inserting steps that are all present changes nothing |
| Store.InitializeIdempotent | mcp_server/database.py:224-239 | a second identical call leaves the store as the first left it |
| Store.UpdatePipelineStep | mcp_server/database.py:242-260 | the matching row gets the status, and the job id only when a non-empty one is given; no row is created; an unknown job id on an existing row is a foreign-key error; the constraints are kept |
| Store.Joined | mcp_server/database.py:267-269 | the left join: the job's status, times and exit code exactly when the row names an existing job, and nothing otherwise |
| Store.GetPipelineSteps | mcp_server/database.py:263-276 | exactly the project's rows, in ascending step order, each joined with its job |
| Jobs.BuildEnv | mcp_server/job_manager.py:33-52 | the copied environment gains `PATH` prefixed with the bin directory and `PYTHONPATH` prefixed with the lib directory (or set to it when empty or absent); all other variables are kept |
| Jobs.EnvKeepsOldPaths | mcp_server/job_manager.py:41-50 | removing the new prefix gives back the previous search path |
| Jobs.Register | mcp_server/job_manager.py:157-160 | the registry stays a dictionary: the new entry is present, any other entry with its id is dropped, and every other entry stays |
| Jobs.FirstMissing | mcp_server/job_manager.py:223-228 | the first required parameter, other than the positional one, that is not given (no earlier parameter qualifies); none exactly when there is no such parameter |
| Jobs.Validate | mcp_server/job_manager.py:218-233 | accepts exactly a known tool with every required parameter and the positional key given; otherwise reports an unknown tool, the first missing parameter, or the missing positional key, in that order |
| Jobs.StoreOutputs | mcp_server/job_manager.py:274-276 | the new job's outputs are stored only when there are any, and `get_job` then returns the row with exactly that map |
| Jobs.RecordJob | mcp_server/job_manager.py:259-281 | fails exactly on the store's integrity errors and then changes nothing; otherwise a `running` job with the command, pid, times, directory, log file and outputs (only when non-empty) is stored and registered with the poller; nothing else changes: one job row is appended after the existing ones, projects and step rows stay, and a registry without repeated ids gains the entry in place of any entry with its id, and the world's invariants are kept |
| Jobs.StartJob | mcp_server/job_manager.py:235-281 | the job directory is created first; a failed build stops there with its error; a non-string positional value makes the launch fail with nothing launched or stored; otherwise exactly the built command is launched and, on success, a running job is recorded with that command, the tool, parameters, project, step and directory; nothing else changes: one job row is appended after the existing ones, projects and step rows stay, and a registry without repeated ids gains the entry in place of any entry with its id |
| Jobs.LaunchJob | mcp_server/job_manager.py:249-281 | starting the process appends exactly the built command to the launched commands; a recorded job is running in the job directory with that command and the submitted tool, parameters, project and step; nothing else changes: one job row is appended after the existing ones, projects and step rows stay, and a registry without repeated ids gains the entry in place of any entry with its id |
| Jobs.SubmitJob | mcp_server/job_manager.py:203-281 | a failed validation changes nothing; after validation the directory exists even if a later step fails, and a failure is a build, launch or insert error; success returns the new id, launches one command, registers the job and stores it as running with the submitted tool, parameters, project and step; nothing else changes: one job row is appended after the existing ones, projects and step rows stay, and a registry without repeated ids gains the entry in place of any entry with its id |
| Jobs.EmptyPositionalFailsAfterDir | mcp_server/job_manager.py:229-240 | an empty positional value passes validation but fails the build after the job directory was created, with no job stored, launched or registered |
| Jobs.NonStringPositionalNotLaunched | mcp_server/job_manager.py:229-257 | a truthy non-string positional value passes validation and the build, then fails the launch, leaving the directory behind and nothing launched, stored or registered |
| Jobs.ExitStatus | mcp_server/job_manager.py:176 | `completed` exactly for exit code 0, else `failed` |
| Jobs.Existing | mcp_server/job_manager.py:182-185 | exactly the outputs whose path is an existing file, with their paths |
| Jobs.ShrinkOutputs | mcp_server/job_manager.py:180-187 | only the job's own row changes, and only its output map, which is cut down to existing files |
| Jobs.ReportStep | mcp_server/job_manager.py:189-192 | with a project id and a step name, the rows of that step get the status and the job id, every other row and every other table stays, and a refused update leaves the store as it was; without both ids nothing changes |
| Jobs.Finish | mcp_server/job_manager.py:174-192 | only the finished job's row and, when both ids are set, its step rows change, the step rows getting the exit status and the job id; no other step row changes; the constraints are kept |
| Jobs.RecordExit | mcp_server/job_manager.py:176-187 | recording an exit changes only the job's own row, keeps every id in its place, and keeps the constraints |
| Jobs.FinishRow | mcp_server/job_manager.py:176-187 | the finished job's row gets the exit status, the exit code, the end time and the shrunk output map |
| Jobs.Select | mcp_server/job_manager.py:165-172 | exactly the registry entries whose process has (or has not) exited |
| Jobs.FinishAll | mcp_server/job_manager.py:174-192 | only the jobs of finished entries change, and only the step rows some finished entry names; ids and lengths are kept |
| Jobs.Tick | mcp_server/job_manager.py:162-192 | the registry keeps exactly the entries still running; jobs not in the registry, and jobs whose process has not exited, are untouched; a step row no exited, reporting entry names is untouched; the world's invariants are kept |
| Jobs.FinishAllRecords | mcp_server/job_manager.py:174-187 | each finished entry's job row, after the whole batch, holds its own exit status, exit code and end time and the existence-scanned output map, and is otherwise unchanged |
| Jobs.TickRecordsExit | mcp_server/job_manager.py:162-192 | after a pass, a registered job whose process exited has the matching status and exit code, its existence-scanned output map, and is no longer registered |
| Jobs.Cancel | mcp_server/job_manager.py:284-305 | an unknown job is an error; no or zero pid gives false; a signalled process gives true and records `cancelled` with code -15; a vanished process gives false; a refused signal is an error; only success changes the store, and never the registry |
| Jobs.CancelledJobOverwrittenByTick | mcp_server/job_manager.py:162-192 | a job cancelled while still registered is later overwritten by the poller with the exit status of its process |
| Pipeline.RulesByTarget | mcp_server/pipeline.py:82-85 | the feeds of a target are exactly its rules, in table order |
| Pipeline.RulesByTargetAppend | mcp_server/pipeline.py:82-85 | the feeds of a concatenated table are the feeds of each part, in order |
| Pipeline.Filter | mcp_server/pipeline.py:102-103 | exactly the completed jobs with a non-empty output map, each as often as before |
| Pipeline.Contributors | mcp_server/pipeline.py:99-103 | the completed jobs with outputs of the project, or of every project when the id is empty |
| Pipeline.FullKeyInjective | mcp_server/pipeline.py:134 | for one step, different output keys give different full keys |
| Pipeline.Good | mcp_server/pipeline.py:132-133 | exactly the outputs of a job whose path is non-empty |
| Pipeline.GoodFull | mcp_server/pipeline.py:134 | the same paths, keyed `<step>.<key>` |
| Pipeline.OverlayLastWriter | mcp_server/pipeline.py:129-135 | a key is indexed exactly when some job wrote it, and its value is the one from the last job that wrote it |
| Pipeline.LatestStartWins | mcp_server/pipeline.py:129-135 | with jobs sorted by start time, a bare key's path comes from a job with the latest start among the jobs that wrote it |
| Pipeline.LookupFromJobs | mcp_server/pipeline.py:129-149 | a rule finds a path exactly when some job wrote its step-qualified or bare key; the last job that wrote the step-qualified key supplies the path, and only when none did does the last job that wrote the bare key |
| Pipeline.ApplyRules | mcp_server/pipeline.py:141-149 | only input-file parameters are set, and each value is an index entry |
| Pipeline.LastSuccessfulRuleWins | mcp_server/pipeline.py:141-149 | a parameter is set exactly when some rule for it finds a path, and then it gets the path of the last such rule |
| Pipeline.GenericFor | mcp_server/pipeline.py:155-158 | the path under the first generic entry for the parameter whose output key is indexed, with no earlier entry applying; none exactly when no entry applies |
| Pipeline.Fallback | mcp_server/pipeline.py:152-158 | values set by rules are kept; exactly the unset input parameters that have a generic source are filled, with that source's path |
| Pipeline.ResolveInputs | mcp_server/pipeline.py:106-160 | an unknown step or a project without completed outputs resolves nothing; otherwise only the step's input-file parameters are resolved |
| Pipeline.IndexValuesFromJobs | mcp_server/pipeline.py:129-135 | every indexed path is a non-empty output path of one of the jobs |
| Pipeline.ResolvedFromContributors | mcp_server/pipeline.py:106-160 | every resolved value is a non-empty output path of a completed job of the project |
| Pipeline.StatusOf | mcp_server/pipeline.py:168 | a step's status is that of its last row; none exactly when it has no row |
| Pipeline.NextStep | mcp_server/pipeline.py:182-189 | the first step of the order that is pending or has no row; none exactly when there is no such step |
| Pipeline.CountsBounded | mcp_server/pipeline.py:173-177 | the four status counts add up to at most the number of rows |
| Pipeline.StatusSummary | mcp_server/pipeline.py:163-191 | the project's rows and their count; each of the four counts is the number of rows with that status; the next step is the first open step of the order, none exactly when every main step is done |
| Pipeline.OpenSteps | mcp_server/pipeline.py:242-245 | exactly the listed steps that are pending or have no row |
| Pipeline.StillRequired | mcp_server/pipeline.py:262-265 | exactly the required, non-output parameters that were not resolved |
| Pipeline.Recommend | mcp_server/pipeline.py:194-288 | an unknown project; a project without steps; a complete main pipeline with exactly the open optional steps; or the first open main step, the same one the status summary names, with its advice |
| Pipeline.Advise | mcp_server/pipeline.py:250-273 | the advice's resolved inputs are those of `resolve_inputs_for_step`, and nothing still required is among them |
| FlowRules.AffiliationPostprocessFeeds | mcp_server/pipeline.py:31-38 | `affiliation_postprocess` is fed by three rules: `cluster_filters` fasta and biom, then `taxonomic_affiliation` biom, in that order |
| FlowRules.ClusterFiltersFeedPostprocess | mcp_server/pipeline.py:31-35 | the `cluster_filters` block feeds `affiliation_postprocess` with its fasta and biom |
| Server.AllStepsOrdered | mcp_server/server.py:48-55 | one row per step, the main steps first, numbered from 1 in list order, optional exactly after the main ones |
| Server.AllStepsOrderedCoversCatalogue | mcp_server/server.py:48-55 | for the deployed lists: 28 rows in catalogue order with distinct names, increasing order numbers, and the last sixteen optional |
| Server.CreateProjectWithSteps | mcp_server/server.py:240-283 | fails exactly on a taken id; the directory is created either way; on success the project is stored with that directory, every step of the lists is present, jobs are unchanged, and the world's invariants are kept |
| Server.NewProjectRowsPending | mcp_server/server.py:261-270 | every step row of a newly created project is pending |
| Server.InitFreshPending | mcp_server/database.py:224-239 | initialising a project that had no rows leaves only pending rows for it |
| Server.NewProjectStartsAtFirstStep | mcp_server/server.py:240-283 | a new project's next step is the first main step |
| Server.ViewsPending | mcp_server/database.py:263-276 | when every row of a project is pending, every joined row is pending |
| Server.MergeResolved | mcp_server/server.py:325 | the merged parameters hold the keys of both maps; the caller's values win and resolved paths fill the rest |
| Server.SubmitPipelineStep | mcp_server/server.py:291-345 | an unknown project or an unknown step changes nothing and reports which; otherwise the merged parameters are submitted |
| Server.SubmitStepJob | mcp_server/server.py:324-345 | success returns the job id and the resolved inputs, with the job registered for the project and step, running, and stored with the merged parameters; nothing else changes: one job row is appended after the existing ones, projects and step rows stay, and a registry without repeated ids gains the entry in place of any entry with its id; failure is a submission error; the world's invariants are kept |
| Server.ListTools | mcp_server/server.py:395-418 | without a category, every tool; with one, exactly the tools whose category matches it ignoring case |
| Server.ListToolsIgnoresCase | mcp_server/server.py:408 | asking with a category or with its lower-case form lists the same tools |
| Server.Listing | mcp_server/server.py:482-493 | a project's entry counts its step rows and its completed ones, and the completed count never exceeds the total |
| Server.ListProjectsWithSteps | mcp_server/server.py:473-495 | one entry per project, the listed projects being the stored ones counted with multiplicity, newest first, each with its own step counts |
| CatalogueFacts.ReadsProcessingWellFormed | mcp_server/tools_registry.py:84-161 | this entry is well formed: output keys sit exactly on output-file parameters and are pairwise distinct, the pipeline step is the tool's own name, the optional flag agrees with `OPTIONAL_STEPS`, only `reads_processing` has a positional argument; and its input-file names and output keys are exactly the listed ones |
| CatalogueFacts.RemoveChimeraWellFormed | mcp_server/tools_registry.py:165-189 | this entry is well formed: output keys sit exactly on output-file parameters and are pairwise distinct, the pipeline step is the tool's own name, the optional flag agrees with `OPTIONAL_STEPS`, only `reads_processing` has a positional argument; and its input-file names and output keys are exactly the listed ones |
| CatalogueFacts.ClusterFiltersWellFormed | mcp_server/tools_registry.py:193-230 | this entry is well formed: output keys sit exactly on output-file parameters and are pairwise distinct, the pipeline step is the tool's own name, the optional flag agrees with `OPTIONAL_STEPS`, only `reads_processing` has a positional argument; and its input-file names and output keys are exactly the listed ones |
| CatalogueFacts.TaxonomicAffiliationWellFormed | mcp_server/tools_registry.py:234-273 | this entry is well formed: output keys sit exactly on output-file parameters and are pairwise distinct, the pipeline step is the tool's own name, the optional flag agrees with `OPTIONAL_STEPS`, only `reads_processing` has a positional argument; and its input-file names and output keys are exactly the listed ones |
| CatalogueFacts.AffiliationPostprocessWellFormed | mcp_server/tools_registry.py:277-308 | this entry is well formed: output keys sit exactly on output-file parameters and are pairwise distinct, the pipeline step is the tool's own name, the optional flag agrees with `OPTIONAL_STEPS`, only `reads_processing` has a positional argument; and its input-file names and output keys are exactly the listed ones |
| CatalogueFacts.AffiliationFiltersWellFormed | mcp_server/tools_registry.py:312-368 | this entry is well formed: output keys sit exactly on output-file parameters and are pairwise distinct, the pipeline step is the tool's own name, the optional flag agrees with `OPTIONAL_STEPS`, only `reads_processing` has a positional argument; and its input-file names and output keys are exactly the listed ones |
| CatalogueFacts.AffiliationReportWellFormed | mcp_server/tools_registry.py:372-401 | this entry is well formed: output keys sit exactly on output-file parameters and are pairwise distinct, the pipeline step is the tool's own name, the optional flag agrees with `OPTIONAL_STEPS`, only `reads_processing` has a positional argument; and its input-file names and output keys are exactly the listed ones |
| CatalogueFacts.TreeWellFormed | mcp_server/tools_registry.py:405-424 | this entry is well formed: output keys sit exactly on output-file parameters and are pairwise distinct, the pipeline step is the tool's own name, the optional flag agrees with `OPTIONAL_STEPS`, only `reads_processing` has a positional argument; and its input-file names and output keys are exactly the listed ones |
| CatalogueFacts.NormalisationWellFormed | mcp_server/tools_registry.py:428-455 | this entry is well formed: output keys sit exactly on output-file parameters and are pairwise distinct, the pipeline step is the tool's own name, the optional flag agrees with `OPTIONAL_STEPS`, only `reads_processing` has a positional argument; and its input-file names and output keys are exactly the listed ones |
| CatalogueFacts.PhyloseqImportWellFormed | mcp_server/tools_registry.py:459-485 | this entry is well formed: output keys sit exactly on output-file parameters and are pairwise distinct, the pipeline step is the tool's own name, the optional flag agrees with `OPTIONAL_STEPS`, only `reads_processing` has a positional argument; and its input-file names and output keys are exactly the listed ones |
| CatalogueFacts.PhyloseqCompositionWellFormed | mcp_server/tools_registry.py:489-512 | this entry is well formed: output keys sit exactly on output-file parameters and are pairwise distinct, the pipeline step is the tool's own name, the optional flag agrees with `OPTIONAL_STEPS`, only `reads_processing` has a positional argument; and its input-file names and output keys are exactly the listed ones |
| CatalogueFacts.PhyloseqAlphaDiversityWellFormed | mcp_server/tools_registry.py:516-538 | this entry is well formed: output keys sit exactly on output-file parameters and are pairwise distinct, the pipeline step is the tool's own name, the optional flag agrees with `OPTIONAL_STEPS`, only `reads_processing` has a positional argument; and its input-file names and output keys are exactly the listed ones |
| CatalogueFacts.DemultiplexWellFormed | mcp_server/tools_registry.py:546-578 | this entry is well formed: output keys sit exactly on output-file parameters and are pairwise distinct, the pipeline step is the tool's own name, the optional flag agrees with `OPTIONAL_STEPS`, only `reads_processing` has a positional argument; and its input-file names and output keys are exactly the listed ones |
| CatalogueFacts.ClusteringWellFormed | mcp_server/tools_registry.py:582-613 | this entry is well formed: output keys sit exactly on output-file parameters and are pairwise distinct, the pipeline step is the tool's own name, the optional flag agrees with `OPTIONAL_STEPS`, only `reads_processing` has a positional argument; and its input-file names and output keys are exactly the listed ones |
| CatalogueFacts.ItsxWellFormed | mcp_server/tools_registry.py:617-650 | this entry is well formed: output keys sit exactly on output-file parameters and are pairwise distinct, the pipeline step is the tool's own name, the optional flag agrees with `OPTIONAL_STEPS`, only `reads_processing` has a positional argument; and its input-file names and output keys are exactly the listed ones |
| CatalogueFacts.BiomToTsvWellFormed | mcp_server/tools_registry.py:654-677 | this entry is well formed: output keys sit exactly on output-file parameters and are pairwise distinct, the pipeline step is the tool's own name, the optional flag agrees with `OPTIONAL_STEPS`, only `reads_processing` has a positional argument; and its input-file names and output keys are exactly the listed ones |
| CatalogueFacts.TsvToBiomWellFormed | mcp_server/tools_registry.py:681-701 | this entry is well formed: output keys sit exactly on output-file parameters and are pairwise distinct, the pipeline step is the tool's own name, the optional flag agrees with `OPTIONAL_STEPS`, only `reads_processing` has a positional argument; and its input-file names and output keys are exactly the listed ones |
| CatalogueFacts.BiomToStdBiomWellFormed | mcp_server/tools_registry.py:705-724 | this entry is well formed: output keys sit exactly on output-file parameters and are pairwise distinct, the pipeline step is the tool's own name, the optional flag agrees with `OPTIONAL_STEPS`, only `reads_processing` has a positional argument; and its input-file names and output keys are exactly the listed ones |
| CatalogueFacts.ClusterAsvReportWellFormed | mcp_server/tools_registry.py:728-748 | this entry is well formed: output keys sit exactly on output-file parameters and are pairwise distinct, the pipeline step is the tool's own name, the optional flag agrees with `OPTIONAL_STEPS`, only `reads_processing` has a positional argument; and its input-file names and output keys are exactly the listed ones |
| CatalogueFacts.PhyloseqBetaDiversityWellFormed | mcp_server/tools_registry.py:752-774 | this entry is well formed: output keys sit exactly on output-file parameters and are pairwise distinct, the pipeline step is the tool's own name, the optional flag agrees with `OPTIONAL_STEPS`, only `reads_processing` has a positional argument; and its input-file names and output keys are exactly the listed ones |
| CatalogueFacts.PhyloseqClusteringWellFormed | mcp_server/tools_registry.py:778-796 | this entry is well formed: output keys sit exactly on output-file parameters and are pairwise distinct, the pipeline step is the tool's own name, the optional flag agrees with `OPTIONAL_STEPS`, only `reads_processing` has a positional argument; and its input-file names and output keys are exactly the listed ones |
| CatalogueFacts.PhyloseqStructureWellFormed | mcp_server/tools_registry.py:800-820 | this entry is well formed: output keys sit exactly on output-file parameters and are pairwise distinct, the pipeline step is the tool's own name, the optional flag agrees with `OPTIONAL_STEPS`, only `reads_processing` has a positional argument; and its input-file names and output keys are exactly the listed ones |
| CatalogueFacts.PhyloseqManovaWellFormed | mcp_server/tools_registry.py:824-842 | this entry is well formed: output keys sit exactly on output-file parameters and are pairwise distinct, the pipeline step is the tool's own name, the optional flag agrees with `OPTIONAL_STEPS`, only `reads_processing` has a positional argument; and its input-file names and output keys are exactly the listed ones |
| CatalogueFacts.Deseq2PreprocessWellFormed | mcp_server/tools_registry.py:846-875 | this entry is well formed: output keys sit exactly on output-file parameters and are pairwise distinct, the pipeline step is the tool's own name, the optional flag agrees with `OPTIONAL_STEPS`, only `reads_processing` has a positional argument; and its input-file names and output keys are exactly the listed ones |
| CatalogueFacts.Deseq2VisualisationWellFormed | mcp_server/tools_registry.py:879-911 | this entry is well formed: output keys sit exactly on output-file parameters and are pairwise distinct, the pipeline step is the tool's own name, the optional flag agrees with `OPTIONAL_STEPS`, only `reads_processing` has a positional argument; and its input-file names and output keys are exactly the listed ones |
| CatalogueFacts.FrogsfuncPlaceseqsWellFormed | mcp_server/tools_registry.py:915-956 | this entry is well formed: output keys sit exactly on output-file parameters and are pairwise distinct, the pipeline step is the tool's own name, the optional flag agrees with `OPTIONAL_STEPS`, only `reads_processing` has a positional argument; and its input-file names and output keys are exactly the listed ones |
| CatalogueFacts.FrogsfuncFunctionsWellFormed | mcp_server/tools_registry.py:960-1005 | this entry is well formed: output keys sit exactly on output-file parameters and are pairwise distinct, the pipeline step is the tool's own name, the optional flag agrees with `OPTIONAL_STEPS`, only `reads_processing` has a positional argument; and its input-file names and output keys are exactly the listed ones |
| CatalogueFacts.FrogsfuncPathwaysWellFormed | mcp_server/tools_registry.py:1009-1036 | this entry is well formed: output keys sit exactly on output-file parameters and are pairwise distinct, the pipeline step is the tool's own name, the optional flag agrees with `OPTIONAL_STEPS`, only `reads_processing` has a positional argument; and its input-file names and output keys are exactly the listed ones |
| FlowRules.ReadsProcessingToRemoveChimeraFits | mcp_server/pipeline.py:24-25 | each of these flow rules reads an output key its source tool declares and feeds an input-file parameter of its target tool |
| FlowRules.RemoveChimeraToClusterFiltersFits | mcp_server/pipeline.py:28-29 | each of these flow rules reads an output key its source tool declares and feeds an input-file parameter of its target tool |
| FlowRules.ClusterFiltersToTaxonomicAffiliationFits | mcp_server/pipeline.py:32-33 | each of these flow rules reads an output key its source tool declares and feeds an input-file parameter of its target tool |
| FlowRules.ClusterFiltersToAffiliationPostprocessFits | mcp_server/pipeline.py:34-35 | each of these flow rules reads an output key its source tool declares and feeds an input-file parameter of its target tool |
| FlowRules.TaxonomicAffiliationToAffiliationPostprocessFits | mcp_server/pipeline.py:38 | each of these flow rules reads an output key its source tool declares and feeds an input-file parameter of its target tool |
| FlowRules.AffiliationPostprocessToAffiliationFiltersFits | mcp_server/pipeline.py:41-42 | each of these flow rules reads an output key its source tool declares and feeds an input-file parameter of its target tool |
| FlowRules.AffiliationFiltersToAffiliationReportFits | mcp_server/pipeline.py:45 | each of these flow rules reads an output key its source tool declares and feeds an input-file parameter of its target tool |
| FlowRules.AffiliationFiltersToTreeFits | mcp_server/pipeline.py:46-47 | each of these flow rules reads an output key its source tool declares and feeds an input-file parameter of its target tool |
| FlowRules.AffiliationFiltersToNormalisationFits | mcp_server/pipeline.py:48-49 | each of these flow rules reads an output key its source tool declares and feeds an input-file parameter of its target tool |
| FlowRules.TreeToPhyloseqImportFits | mcp_server/pipeline.py:52 | each of these flow rules reads an output key its source tool declares and feeds an input-file parameter of its target tool |
| FlowRules.NormalisationToPhyloseqImportFits | mcp_server/pipeline.py:55 | each of these flow rules reads an output key its source tool declares and feeds an input-file parameter of its target tool |
| FlowRules.PhyloseqImportToPhyloseqCompositionFits | mcp_server/pipeline.py:58 | each of these flow rules reads an output key its source tool declares and feeds an input-file parameter of its target tool |
| FlowRules.PhyloseqImportToPhyloseqAlphaDiversityFits | mcp_server/pipeline.py:59 | each of these flow rules reads an output key its source tool declares and feeds an input-file parameter of its target tool |
| FlowRules.PhyloseqImportToPhyloseqBetaDiversityFits | mcp_server/pipeline.py:60 | each of these flow rules reads an output key its source tool declares and feeds an input-file parameter of its target tool |
| FlowRules.PhyloseqImportToPhyloseqClusteringFits | mcp_server/pipeline.py:61 | each of these flow rules reads an output key its source tool declares and feeds an input-file parameter of its target tool |
| FlowRules.PhyloseqImportToPhyloseqStructureFits | mcp_server/pipeline.py:62 | each of these flow rules reads an output key its source tool declares and feeds an input-file parameter of its target tool |
| FlowRules.PhyloseqImportToPhyloseqManovaFits | mcp_server/pipeline.py:63 | each of these flow rules reads an output key its source tool declares and feeds an input-file parameter of its target tool |
| FlowRules.PhyloseqImportToDeseq2PreprocessFits | mcp_server/pipeline.py:64 | each of these flow rules reads an output key its source tool declares and feeds an input-file parameter of its target tool |
| FlowRules.PhyloseqBetaDiversityToPhyloseqClusteringFits | mcp_server/pipeline.py:67 | each of these flow rules reads an output key its source tool declares and feeds an input-file parameter of its target tool |
| FlowRules.PhyloseqBetaDiversityToPhyloseqStructureFits | mcp_server/pipeline.py:68 | each of these flow rules reads an output key its source tool declares and feeds an input-file parameter of its target tool |
| FlowRules.PhyloseqBetaDiversityToPhyloseqManovaFits | mcp_server/pipeline.py:69 | each of these flow rules reads an output key its source tool declares and feeds an input-file parameter of its target tool |
| FlowRules.Deseq2PreprocessToDeseq2VisualisationFits | mcp_server/pipeline.py:72-73 | each of these flow rules reads an output key its source tool declares and feeds an input-file parameter of its target tool |
| FlowRules.FrogsfuncPlaceseqsToFrogsfuncFunctionsFits | mcp_server/pipeline.py:76-77 | each of these flow rules reads an output key its source tool declares and feeds an input-file parameter of its target tool |
| FlowRules.FrogsfuncPlaceseqsToFrogsfuncFunctionsFitsMore | mcp_server/pipeline.py:78-79 | each of these flow rules reads an output key its source tool declares and feeds an input-file parameter of its target tool |

## Left out

- SQLite itself is not modelled: connections, WAL mode and the JSON encoding of `params`, `command` and `output_files`. Stored maps and lists are kept as values, so JSON decoding always succeeds.
- Tie order in sorting is not modelled. `ORDER BY` and `sorted` are modelled by a sort whose order among equal keys is unspecified, and the contracts speak only of the key order and the multiset of rows.
- Operating-system effects are parameters or recorded values:
  - `os.makedirs` adds to a set of directories;
  - `Popen` appends the command line to a list and its pid is given;
  - `os.kill` is a given outcome;
  - `os.path.isfile` is membership in a given set of files.
- A `Popen` that raises is modelled only for a positional value that is not a string (`Launch`). A missing interpreter or script is not modelled, because the file system is not.
- The poller thread, its sleep and its lock are not modelled. One pass of the loop is `Jobs.Tick`, and the exit codes it observes are given.
- `uuid4`, the clock and `_elapsed` are not modelled: ids and times are parameters, and times are natural numbers ordered like the ISO strings they stand for.
- `_read_tail`, `read_log`, `read_report` and the other tools that only read files or format replies are left out, because they return text and change nothing.
- The markdown text of the recommendation is not modelled. `Pipeline.Recommend` returns the choices the text is built from.
- The FastMCP wiring, `config.py`, help texts and tool descriptions are left out.
- Floating-point parameter defaults are recorded as `None`. No float default is an output-file default, so no command line depends on them.
- Values.StrOf: inside a list, a string item is always wrapped in single quotes with nothing escaped. Python's `repr` switches to double quotes for a string holding `'` and escapes backslashes and control characters.
- Values.Value: there is no float value, so a float the caller passes cannot be represented, and its `str` on the command line is not modelled.
- Command.ArgvOutputRebased: it assumes the tool's parameter names are distinct. With a repeated name, `param_map` and `merged` keep only the last one.
- Command.BuildCommandOutputs: it assumes distinct parameter names, for the same reason.
- Command.ResolvedOutputKey: it assumes distinct parameter names, for the same reason.
- Command.ResolvedOutputValue: it assumes distinct parameter names, for the same reason.
- Values.Lower: case mapping covers ASCII letters only; Unicode `str.lower` is not modelled.
- Paths are always strings in the model, so the `isinstance(path, str)` tests in the index and the existence scan always hold.
- Well-formedness of the flow-rule table is proved one source-and-target pair at a time (the `FlowRules.*Fits` lemmas), not as one quantified statement over the whole table.
- Pipeline.ResolveInputs: the catalogue and the flow rules are parameters. `Server.Deployed` supplies the deployed values.
- The other server tools are not modelled separately: `submit_job`, `get_job_status`, `list_jobs`, `cancel_job`, `get_pipeline_status`, `get_tool_help` and `get_pipeline_recommendations`. Each one checks that the project or job exists, forwards to an operation modelled above and formats the reply.

=== FILE: catalogue.dfy ===
/** The static tool catalogue: one `ToolSpec` per FROGS tool, each with its
    ordered parameter list, plus the two ordered step lists of a project's
    pipeline. Help and description texts are not modelled. Float defaults
    (e.g. `mismatch_rate` 0.1) are recorded as absent: the command builder
    never emits a default that is not an output file name, so they never
    reach a command line. */
module Catalogue {
  import opened Wrappers
  import opened Values
  import Paths

  datatype ParamType = PStr | PInt | PFloat | PBool | PList

  /** One command-line parameter of a tool. `name` is the key callers use in
      their parameter map; an empty `cliFlag` marks the positional argument. */
  datatype ParamSpec = ParamSpec(
    name: string,
    cliFlag: string,
    required: bool := false,
    ptype: ParamType := PStr,
    default: Value := Null,
    isInputFile: bool := false,
    isOutputFile: bool := false,
    outputKey: Option<string> := None)

  datatype ToolSpec = ToolSpec(
    name: string,
    scriptName: string,
    category: string,
    pipelineStep: Option<string> := None,
    isOptional: bool := false,
    params: seq<ParamSpec> := [],
    hasSubparser: bool := false,
    subparserParam: string := "")

  /** `script_path`: the tool's script under `toolsDir/<tool name>/`. The
      source's special case for `phyloseq_import` picks the same directory
      name, so the directory is always the tool's name. */
  function ScriptPath(t: ToolSpec, toolsDir: string): (r: string)
    ensures r == Paths.Join(Paths.Join(toolsDir, t.name), t.scriptName)
  {
    var toolDir := if t.name != "phyloseq_import" then t.name else "phyloseq_import";
    Paths.Join(Paths.Join(toolsDir, toolDir), t.scriptName)
  }

  /** `_log_param()`: the FROGS log file, an output under key "log". */
  function LogParam(): (p: ParamSpec)
    ensures p.name == "log_file" && p.isOutputFile && !p.isInputFile
    ensures p.default == Str("frogs.log") && p.outputKey == Some("log")
  {
    ParamSpec("log_file", "--log-file", ptype := PStr, default := Str("frogs.log"),
              isOutputFile := true, outputKey := Some("log"))
  }

  /** `_html_param(default)`: the HTML report, an output under key "html". */
  function HtmlParam(default: string := "report.html"): (p: ParamSpec)
    ensures p.name == "html" && p.isOutputFile && p.outputKey == Some("html")
    ensures p.default == Str(default)
  {
    ParamSpec("html", "--html", ptype := PStr, default := Str(default),
              isOutputFile := true, outputKey := Some("html"))
  }

  /** `_nb_cpus_param(default)`. */
  function NbCpusParam(default: int := 1): (p: ParamSpec)
    ensures p.name == "nb_cpus" && p.ptype == PInt && !p.isOutputFile
    ensures p.default == Int(default)
  {
    ParamSpec("nb_cpus", "--nb-cpus", ptype := PInt, default := Int(default))
  }

  /** `_debug_param()`: a boolean flag, off by default. */
  function DebugParam(): (p: ParamSpec)
    ensures p.name == "debug" && p.ptype == PBool && p.default == Bool(false)
    ensures !p.isOutputFile && p.outputKey == None
  {
    ParamSpec("debug", "--debug", ptype := PBool, default := Bool(false))
  }

  /** `TOOLS["reads_processing"]`. */
  function ReadsProcessing(): ToolSpec {
    ToolSpec(
      name := "reads_processing",
      scriptName := "reads_processing.py",
      category := "Core pipeline",
      pipelineStep := Some("reads_processing"),
      hasSubparser := true,
      subparserParam := "sequencer",
      params := [
        ParamSpec("sequencer", "", required := true, ptype := PStr),
        NbCpusParam(),
        DebugParam(),
        ParamSpec("five_prim_primer", "--five-prim-primer", ptype := PStr),
        ParamSpec("three_prim_primer", "--three-prim-primer", ptype := PStr),
        ParamSpec("without_primers", "--without-primers", ptype := PBool, default := Bool(false)),
        ParamSpec("mismatch_rate", "--mismatch-rate", ptype := PFloat),
        ParamSpec("R1_size", "--R1-size", ptype := PInt),
        ParamSpec("R2_size", "--R2-size", ptype := PInt),
        ParamSpec("already_contiged", "--already-contiged", ptype := PBool, default := Bool(false)),
        ParamSpec("merge_software", "--merge-software", ptype := PStr, default := Str("vsearch")),
        ParamSpec("quality_scale", "--quality-scale", ptype := PStr, default := Str("33")),
        ParamSpec("keep_unmerged", "--keep-unmerged", ptype := PBool, default := Bool(false)),
        ParamSpec("min_amplicon_size", "--min-amplicon-size", required := true, ptype := PInt)
      ] + [
        ParamSpec("max_amplicon_size", "--max-amplicon-size", required := true, ptype := PInt),
        ParamSpec("process", "--process", ptype := PStr, default := Str("swarm")),
        ParamSpec("pre_clustering", "--pre-clustering", ptype := PBool, default := Bool(false)),
        ParamSpec("distance", "--distance", ptype := PInt, default := Int(1)),
        ParamSpec("fastidious", "--fastidious", ptype := PBool, default := Bool(false)),
        ParamSpec("sample_inference", "--sample-inference", ptype := PStr, default := Str("pseudo-pooling")),
        ParamSpec("input_archive", "--input-archive", isInputFile := true),
        ParamSpec("input_R1", "--input-R1", ptype := PList, isInputFile := true),
        ParamSpec("input_R2", "--input-R2", ptype := PList, isInputFile := true),
        ParamSpec("samples_names", "--samples-names", ptype := PList),
        ParamSpec("output_fasta", "--output-fasta", ptype := PStr, default := Str("reads_processing.fasta"), isOutputFile := true, outputKey := Some("fasta")),
        ParamSpec("output_biom", "--output-biom", ptype := PStr, default := Str("reads_processing_abundance.biom"), isOutputFile := true, outputKey := Some("biom")),
        ParamSpec("output_compo", "--output-compo", ptype := PStr, default := Str("reads_processing_compo.tsv"), isOutputFile := true, outputKey := Some("compo")),
        HtmlParam("reads_processing.html"),
        LogParam()
      ])
  }

  /** `TOOLS["remove_chimera"]`. */
  function RemoveChimera(): ToolSpec {
    ToolSpec(
      name := "remove_chimera",
      scriptName := "remove_chimera.py",
      category := "Core pipeline",
      pipelineStep := Some("remove_chimera"),
      params := [
        NbCpusParam(),
        DebugParam(),
        ParamSpec("long_reads", "--long-reads", ptype := PBool, default := Bool(false)),
        ParamSpec("input_fasta", "--input-fasta", required := true, isInputFile := true),
        ParamSpec("input_biom", "--input-biom", required := true, isInputFile := true),
        ParamSpec("output_fasta", "--output-fasta", default := Str("remove_chimera.fasta"), isOutputFile := true, outputKey := Some("fasta")),
        ParamSpec("output_biom", "--output-biom", default := Str("remove_chimera_abundance.biom"), isOutputFile := true, outputKey := Some("biom")),
        HtmlParam("remove_chimera.html"),
        LogParam()
      ])
  }

  /** `TOOLS["cluster_filters"]`. */
  function ClusterFilters(): ToolSpec {
    ToolSpec(
      name := "cluster_filters",
      scriptName := "cluster_filters.py",
      category := "Core pipeline",
      pipelineStep := Some("cluster_filters"),
      params := [
        NbCpusParam(),
        DebugParam(),
        ParamSpec("nb_biggest_clusters", "--nb-biggest-clusters", ptype := PInt),
        ParamSpec("min_sample_presence", "--min-sample-presence", ptype := PInt),
        ParamSpec("min_replicate_presence", "--min-replicate-presence", ptype := PFloat),
        ParamSpec("min_abundance", "--min-abundance", ptype := PFloat),
        ParamSpec("contaminant", "--contaminant", isInputFile := true),
        ParamSpec("replicate_tsv", "--replicate-tsv", isInputFile := true),
        ParamSpec("input_biom", "--input-biom", required := true, isInputFile := true),
        ParamSpec("input_fasta", "--input-fasta", required := true, isInputFile := true),
        ParamSpec("output_biom", "--output-biom", default := Str("cluster_filters_abundance.biom"), isOutputFile := true, outputKey := Some("biom")),
        ParamSpec("output_fasta", "--output-fasta", default := Str("cluster_filters.fasta"), isOutputFile := true, outputKey := Some("fasta")),
        ParamSpec("excluded", "--excluded", default := Str("cluster_filters_excluded.tsv"), isOutputFile := true, outputKey := Some("excluded_tsv")),
        HtmlParam("cluster_filters.html"),
        LogParam()
      ])
  }

  /** `TOOLS["taxonomic_affiliation"]`. */
  function TaxonomicAffiliation(): ToolSpec {
    ToolSpec(
      name := "taxonomic_affiliation",
      scriptName := "taxonomic_affiliation.py",
      category := "Core pipeline",
      pipelineStep := Some("taxonomic_affiliation"),
      params := [
        NbCpusParam(),
        DebugParam(),
        ParamSpec("java_mem", "--java-mem", ptype := PInt, default := Int(2)),
        ParamSpec("rdp", "--rdp", ptype := PBool, default := Bool(false)),
        ParamSpec("taxonomy_ranks", "--taxonomy-ranks", ptype := PList, default := List([Str("Domain"), Str("Phylum"), Str("Class"), Str("Order"), Str("Family"), Str("Genus"), Str("Species")])),
        ParamSpec("tax_consensus_tag", "--tax-consensus-tag", ptype := PStr, default := Str("blast_taxonomy")),
        ParamSpec("multiple_tag", "--multiple-tag", ptype := PStr),
        ParamSpec("bootstrap_tag", "--bootstrap-tag", ptype := PStr),
        ParamSpec("identity_tag", "--identity-tag", ptype := PStr),
        ParamSpec("coverage_tag", "--coverage-tag", ptype := PStr),
        ParamSpec("reference", "--reference", required := true, isInputFile := true),
        ParamSpec("input_biom", "--input-biom", required := true, isInputFile := true),
        ParamSpec("input_fasta", "--input-fasta", required := true, isInputFile := true),
        ParamSpec("output_biom", "--output-biom", default := Str("affiliation_abundance.biom"), isOutputFile := true, outputKey := Some("biom")),
        HtmlParam("taxonomic_affiliation.html"),
        LogParam()
      ])
  }

  /** `TOOLS["affiliation_postprocess"]`. */
  function AffiliationPostprocess(): ToolSpec {
    ToolSpec(
      name := "affiliation_postprocess",
      scriptName := "affiliation_postprocess.py",
      category := "Core pipeline",
      pipelineStep := Some("affiliation_postprocess"),
      params := [
        DebugParam(),
        ParamSpec("identity", "--identity", ptype := PFloat),
        ParamSpec("coverage", "--coverage", ptype := PFloat),
        ParamSpec("taxon_ignored", "--taxon-ignored", ptype := PList),
        ParamSpec("input_biom", "--input-biom", required := true, isInputFile := true),
        ParamSpec("input_fasta", "--input-fasta", required := true, isInputFile := true),
        ParamSpec("reference", "--reference", isInputFile := true),
        ParamSpec("output_biom", "--output-biom", default := Str("affiliation_postprocess_abundance.biom"), isOutputFile := true, outputKey := Some("biom")),
        ParamSpec("output_fasta", "--output-fasta", default := Str("affiliation_postprocess_ASV.fasta"), isOutputFile := true, outputKey := Some("fasta")),
        ParamSpec("output_compo", "--output-compo", default := Str("affiliation_postprocess_asv_composition.tsv"), isOutputFile := true, outputKey := Some("compo")),
        LogParam()
      ])
  }

  /** `TOOLS["affiliation_filters"]`. */
  function AffiliationFilters(): ToolSpec {
    ToolSpec(
      name := "affiliation_filters",
      scriptName := "affiliation_filters.py",
      category := "Core pipeline",
      pipelineStep := Some("affiliation_filters"),
      params := [
        DebugParam(),
        ParamSpec("taxonomic_ranks", "--taxonomic-ranks", ptype := PList, default := List([Str("Domain"), Str("Phylum"), Str("Class"), Str("Order"), Str("Family"), Str("Genus"), Str("Species")])),
        ParamSpec("tax_consensus_tag", "--tax-consensus-tag", ptype := PStr, default := Str("blast_taxonomy")),
        ParamSpec("multiple_tag", "--multiple-tag", ptype := PStr),
        ParamSpec("bootstrap_tag", "--bootstrap-tag", ptype := PStr),
        ParamSpec("identity_tag", "--identity-tag", ptype := PStr),
        ParamSpec("coverage_tag", "--coverage-tag", ptype := PStr),
        ParamSpec("mask", "--mask", ptype := PBool, default := Bool(false)),
        ParamSpec("delete", "--delete", ptype := PBool, default := Bool(false)),
        ParamSpec("ignore_blast_taxa", "--ignore-blast-taxa", ptype := PList),
        ParamSpec("keep_blast_taxa", "--keep-blast-taxa", ptype := PList)
      ] + [
        ParamSpec("min_rdp_bootstrap", "--min-rdp-bootstrap", ptype := PStr),
        ParamSpec("min_blast_identity", "--min-blast-identity", ptype := PFloat),
        ParamSpec("min_blast_coverage", "--min-blast-coverage", ptype := PFloat),
        ParamSpec("max_blast_evalue", "--max-blast-evalue", ptype := PFloat),
        ParamSpec("min_blast_length", "--min-blast-length", ptype := PInt),
        ParamSpec("input_biom", "--input-biom", required := true, isInputFile := true),
        ParamSpec("input_fasta", "--input-fasta", required := true, isInputFile := true),
        ParamSpec("output_biom", "--output-biom", default := Str("affiliation-filtered.biom"), isOutputFile := true, outputKey := Some("biom")),
        ParamSpec("output_fasta", "--output-fasta", default := Str("affiliation-filtered.fasta"), isOutputFile := true, outputKey := Some("fasta")),
        ParamSpec("impacted", "--impacted", default := Str("impacted_clusters.tsv"), isOutputFile := true, outputKey := Some("impacted_tsv")),
        HtmlParam("affiliation_filters.html"),
        LogParam()
      ])
  }

  /** `TOOLS["affiliation_report"]`. */
  function AffiliationReport(): ToolSpec {
    ToolSpec(
      name := "affiliation_report",
      scriptName := "affiliation_report.py",
      category := "Core pipeline",
      pipelineStep := Some("affiliation_report"),
      params := [
        DebugParam(),
        ParamSpec("taxonomic_ranks", "--taxonomic-ranks", ptype := PList, default := List([Str("Domain"), Str("Phylum"), Str("Class"), Str("Order"), Str("Family"), Str("Genus"), Str("Species")])),
        ParamSpec("rarefaction_ranks", "--rarefaction-ranks", ptype := PList, default := List([Str("Genus")])),
        ParamSpec("tax_consensus_tag", "--tax-consensus-tag", ptype := PStr),
        ParamSpec("multiple_tag", "--multiple-tag", ptype := PStr),
        ParamSpec("bootstrap_tag", "--bootstrap-tag", ptype := PStr),
        ParamSpec("identity_tag", "--identity-tag", ptype := PStr),
        ParamSpec("coverage_tag", "--coverage-tag", ptype := PStr),
        ParamSpec("input_biom", "--input-biom", required := true, isInputFile := true),
        HtmlParam("affiliation_report.html"),
        LogParam()
      ])
  }

  /** `TOOLS["tree"]`. */
  function Tree(): ToolSpec {
    ToolSpec(
      name := "tree",
      scriptName := "tree.py",
      category := "Core pipeline",
      pipelineStep := Some("tree"),
      params := [
        NbCpusParam(),
        DebugParam(),
        ParamSpec("input_fasta", "--input-fasta", required := true, isInputFile := true),
        ParamSpec("input_biom", "--input-biom", required := true, isInputFile := true),
        ParamSpec("output_tree", "--output-tree", default := Str("tree.nwk"), isOutputFile := true, outputKey := Some("tree")),
        HtmlParam("tree.html"),
        LogParam()
      ])
  }

  /** `TOOLS["normalisation"]`. */
  function Normalisation(): ToolSpec {
    ToolSpec(
      name := "normalisation",
      scriptName := "normalisation.py",
      category := "Core pipeline",
      pipelineStep := Some("normalisation"),
      params := [
        DebugParam(),
        ParamSpec("num_reads", "--num-reads", ptype := PInt),
        ParamSpec("sampling_by_min", "--sampling-by-min", ptype := PBool, default := Bool(false)),
        ParamSpec("delete_samples", "--delete-samples", ptype := PBool, default := Bool(false)),
        ParamSpec("input_biom", "--input-biom", required := true, isInputFile := true),
        ParamSpec("input_fasta", "--input-fasta", required := true, isInputFile := true),
        ParamSpec("output_biom", "--output-biom", default := Str("normalisation_abundance.biom"), isOutputFile := true, outputKey := Some("biom")),
        ParamSpec("output_fasta", "--output-fasta", default := Str("normalisation.fasta"), isOutputFile := true, outputKey := Some("fasta")),
        HtmlParam("normalisation.html"),
        LogParam()
      ])
  }

  /** `TOOLS["phyloseq_import"]`. */
  function PhyloseqImport(): ToolSpec {
    ToolSpec(
      name := "phyloseq_import",
      scriptName := "phyloseq_import_data.py",
      category := "Core pipeline",
      pipelineStep := Some("phyloseq_import"),
      params := [
        DebugParam(),
        ParamSpec("normalisation", "--normalisation", ptype := PBool, default := Bool(false)),
        ParamSpec("ranks", "--ranks", ptype := PList, default := List([Str("Kingdom"), Str("Phylum"), Str("Class"), Str("Order"), Str("Family"), Str("Genus"), Str("Species")])),
        ParamSpec("input_biom", "--input-biom", required := true, isInputFile := true),
        ParamSpec("sample_metadata_tsv", "--sample-metadata-tsv", required := true, isInputFile := true),
        ParamSpec("tree_nwk", "--tree-nwk", isInputFile := true),
        ParamSpec("output_phyloseq_rdata", "--output-phyloseq-rdata", default := Str("phyloseq_asv.Rdata"), isOutputFile := true, outputKey := Some("rdata")),
        HtmlParam("phyloseq_import_summary.nb.html"),
        LogParam()
      ])
  }

  /** `TOOLS["phyloseq_composition"]`. */
  function PhyloseqComposition(): ToolSpec {
    ToolSpec(
      name := "phyloseq_composition",
      scriptName := "phyloseq_composition.py",
      category := "Statistical analysis",
      pipelineStep := Some("phyloseq_composition"),
      params := [
        DebugParam(),
        ParamSpec("var_exp", "--var-exp", required := true, ptype := PStr),
        ParamSpec("taxa_rank_1", "--taxa-rank-1", required := true, ptype := PStr),
        ParamSpec("taxa_set_1", "--taxa-set-1", required := true, ptype := PList),
        ParamSpec("taxa_rank_2", "--taxa-rank-2", required := true, ptype := PStr),
        ParamSpec("number_of_taxa", "--number-of-taxa", required := true, ptype := PInt),
        ParamSpec("phyloseq_rdata", "--phyloseq-rdata", required := true, isInputFile := true),
        HtmlParam("phyloseq_composition.nb.html"),
        LogParam()
      ])
  }

  /** `TOOLS["phyloseq_alpha_diversity"]`. */
  function PhyloseqAlphaDiversity(): ToolSpec {
    ToolSpec(
      name := "phyloseq_alpha_diversity",
      scriptName := "phyloseq_alpha_diversity.py",
      category := "Statistical analysis",
      pipelineStep := Some("phyloseq_alpha_diversity"),
      params := [
        DebugParam(),
        ParamSpec("var_exp", "--var-exp", required := true, ptype := PStr),
        ParamSpec("alpha_measures", "--alpha-measures", ptype := PList, default := List([Str("Observed"), Str("Chao1"), Str("Shannon"), Str("InvSimpson")])),
        ParamSpec("phyloseq_rdata", "--phyloseq-rdata", required := true, isInputFile := true),
        ParamSpec("output_alpha_tsv", "--output-alpha-tsv", default := Str("phyloseq_alpha_diversity.tsv"), isOutputFile := true, outputKey := Some("alpha_tsv")),
        HtmlParam("phyloseq_alpha_diversity.nb.html"),
        LogParam()
      ])
  }

  /** `TOOLS["demultiplex"]`. */
  function Demultiplex(): ToolSpec {
    ToolSpec(
      name := "demultiplex",
      scriptName := "demultiplex.py",
      category := "Pre-processing",
      pipelineStep := Some("demultiplex"),
      isOptional := true,
      params := [
        DebugParam(),
        ParamSpec("mismatches", "--mismatches", ptype := PInt, default := Int(0)),
        ParamSpec("end", "--end", ptype := PStr, default := Str("bol")),
        ParamSpec("input_R1", "--input-R1", required := true, isInputFile := true),
        ParamSpec("input_R2", "--input-R2", isInputFile := true),
        ParamSpec("input_barcode", "--input-barcode", required := true, isInputFile := true),
        ParamSpec("output_demultiplexed", "--output-demultiplexed", default := Str("demultiplexed_read.tar.gz"), isOutputFile := true, outputKey := Some("demux_archive")),
        ParamSpec("output_undemultiplexed", "--output-undemultiplexed", default := Str("undemultiplexed_read.tar.gz"), isOutputFile := true, outputKey := Some("undemux_archive")),
        ParamSpec("summary", "--summary", default := Str("demultiplex_summary.tsv"), isOutputFile := true, outputKey := Some("summary_tsv")),
        LogParam()
      ])
  }

  /** `TOOLS["clustering"]`. */
  function Clustering(): ToolSpec {
    ToolSpec(
      name := "clustering",
      scriptName := "clustering.py",
      category := "Pre-processing",
      pipelineStep := Some("clustering"),
      isOptional := true,
      params := [
        NbCpusParam(),
        DebugParam(),
        ParamSpec("distance", "--distance", ptype := PInt, default := Int(1)),
        ParamSpec("fastidious", "--fastidious", ptype := PBool, default := Bool(false)),
        ParamSpec("denoising", "--denoising", ptype := PBool, default := Bool(false)),
        ParamSpec("input_fasta", "--input-fasta", required := true, isInputFile := true),
        ParamSpec("input_count", "--input-count", required := true, isInputFile := true),
        ParamSpec("output_biom", "--output-biom", default := Str("clustering_abundance.biom"), isOutputFile := true, outputKey := Some("biom")),
        ParamSpec("output_fasta", "--output-fasta", default := Str("clustering_seeds.fasta"), isOutputFile := true, outputKey := Some("fasta")),
        ParamSpec("output_compo", "--output-compo", default := Str("clustering_swarms_composition.tsv"), isOutputFile := true, outputKey := Some("compo")),
        LogParam()
      ])
  }

  /** `TOOLS["itsx"]`. */
  function Itsx(): ToolSpec {
    ToolSpec(
      name := "itsx",
      scriptName := "itsx.py",
      category := "Optional processing",
      pipelineStep := Some("itsx"),
      isOptional := true,
      params := [
        NbCpusParam(),
        DebugParam(),
        ParamSpec("organism_groups", "--organism-groups", ptype := PList, default := List([Str("F")])),
        ParamSpec("region", "--region", ptype := PStr),
        ParamSpec("check_its_only", "--check-its-only", ptype := PBool, default := Bool(false)),
        ParamSpec("input_fasta", "--input-fasta", required := true, isInputFile := true),
        ParamSpec("input_biom", "--input-biom", isInputFile := true),
        ParamSpec("output_fasta", "--output-fasta", default := Str("itsx.fasta"), isOutputFile := true, outputKey := Some("fasta")),
        ParamSpec("output_biom", "--output-biom", default := Str("itsx_abundance.biom"), isOutputFile := true, outputKey := Some("biom")),
        ParamSpec("output_removed_sequences", "--output-removed-sequences", default := Str("itsx_removed.fasta"), isOutputFile := true, outputKey := Some("removed_fasta")),
        HtmlParam("itsx.html"),
        LogParam()
      ])
  }

  /** `TOOLS["biom_to_tsv"]`. */
  function BiomToTsv(): ToolSpec {
    ToolSpec(
      name := "biom_to_tsv",
      scriptName := "biom_to_tsv.py",
      category := "Format conversion",
      pipelineStep := Some("biom_to_tsv"),
      isOptional := true,
      params := [
        DebugParam(),
        ParamSpec("header", "--header", ptype := PBool, default := Bool(false)),
        ParamSpec("input_biom", "--input-biom", required := true, isInputFile := true),
        ParamSpec("input_fasta", "--input-fasta", isInputFile := true),
        ParamSpec("output_tsv", "--output-tsv", default := Str("abundance.tsv"), isOutputFile := true, outputKey := Some("tsv")),
        ParamSpec("output_multi_affi", "--output-multi-affi", default := Str("multihits.tsv"), isOutputFile := true, outputKey := Some("multi_affi_tsv")),
        LogParam()
      ])
  }

  /** `TOOLS["tsv_to_biom"]`. */
  function TsvToBiom(): ToolSpec {
    ToolSpec(
      name := "tsv_to_biom",
      scriptName := "tsv_to_biom.py",
      category := "Format conversion",
      pipelineStep := Some("tsv_to_biom"),
      isOptional := true,
      params := [
        DebugParam(),
        ParamSpec("input_tsv", "--input-tsv", required := true, isInputFile := true),
        ParamSpec("input_multi_affi", "--input-multi-affi", isInputFile := true),
        ParamSpec("output_biom", "--output-biom", default := Str("abundance.biom"), isOutputFile := true, outputKey := Some("biom")),
        ParamSpec("output_fasta", "--output-fasta", isOutputFile := true, outputKey := Some("fasta")),
        LogParam()
      ])
  }

  /** `TOOLS["biom_to_stdBiom"]`. */
  function BiomToStdBiom(): ToolSpec {
    ToolSpec(
      name := "biom_to_stdBiom",
      scriptName := "biom_to_stdBiom.py",
      category := "Format conversion",
      pipelineStep := Some("biom_to_stdBiom"),
      isOptional := true,
      params := [
        DebugParam(),
        ParamSpec("input_biom", "--input-biom", required := true, isInputFile := true),
        ParamSpec("output_biom", "--output-biom", default := Str("abundance.std.biom"), isOutputFile := true, outputKey := Some("biom")),
        ParamSpec("output_metadata", "--output-metadata", default := Str("blast_informations.std.tsv"), isOutputFile := true, outputKey := Some("metadata_tsv")),
        LogParam()
      ])
  }

  /** `TOOLS["cluster_asv_report"]`. */
  function ClusterAsvReport(): ToolSpec {
    ToolSpec(
      name := "cluster_asv_report",
      scriptName := "cluster_asv_report.py",
      category := "Reporting",
      pipelineStep := Some("cluster_asv_report"),
      isOptional := true,
      params := [
        DebugParam(),
        ParamSpec("hierarchical_clustering", "--hierarchical-clustering", ptype := PBool, default := Bool(false)),
        ParamSpec("distance_method", "--distance-method", ptype := PStr, default := Str("braycurtis")),
        ParamSpec("linkage_method", "--linkage-method", ptype := PStr, default := Str("average")),
        ParamSpec("input_biom", "--input-biom", required := true, isInputFile := true),
        HtmlParam("cluster_asv_report.html"),
        LogParam()
      ])
  }

  /** `TOOLS["phyloseq_beta_diversity"]`. */
  function PhyloseqBetaDiversity(): ToolSpec {
    ToolSpec(
      name := "phyloseq_beta_diversity",
      scriptName := "phyloseq_beta_diversity.py",
      category := "Statistical analysis",
      pipelineStep := Some("phyloseq_beta_diversity"),
      isOptional := true,
      params := [
        DebugParam(),
        ParamSpec("var_exp", "--var-exp", required := true, ptype := PStr),
        ParamSpec("beta_distance_methods", "--beta-distance-methods", required := true, ptype := PList, default := List([Str("bray"), Str("cc"), Str("unifrac"), Str("wunifrac")])),
        ParamSpec("phyloseq_rdata", "--phyloseq-rdata", required := true, isInputFile := true),
        ParamSpec("matrix_outdir", "--matrix-outdir", required := true, ptype := PStr, isOutputFile := true, outputKey := Some("beta_matrix_dir")),
        HtmlParam("phyloseq_beta_diversity.nb.html"),
        LogParam()
      ])
  }

  /** `TOOLS["phyloseq_clustering"]`. */
  function PhyloseqClustering(): ToolSpec {
    ToolSpec(
      name := "phyloseq_clustering",
      scriptName := "phyloseq_clustering.py",
      category := "Statistical analysis",
      pipelineStep := Some("phyloseq_clustering"),
      isOptional := true,
      params := [
        DebugParam(),
        ParamSpec("var_exp", "--var-exp", required := true, ptype := PStr),
        ParamSpec("phyloseq_rdata", "--phyloseq-rdata", required := true, isInputFile := true),
        ParamSpec("beta_distance_matrix", "--beta-distance-matrix", required := true, isInputFile := true),
        HtmlParam("phyloseq_clustering.nb.html"),
        LogParam()
      ])
  }

  /** `TOOLS["phyloseq_structure"]`. */
  function PhyloseqStructure(): ToolSpec {
    ToolSpec(
      name := "phyloseq_structure",
      scriptName := "phyloseq_structure.py",
      category := "Statistical analysis",
      pipelineStep := Some("phyloseq_structure"),
      isOptional := true,
      params := [
        DebugParam(),
        ParamSpec("var_exp", "--var-exp", required := true, ptype := PStr),
        ParamSpec("ordination_method", "--ordination-method", ptype := PStr, default := Str("MDS")),
        ParamSpec("phyloseq_rdata", "--phyloseq-rdata", required := true, isInputFile := true),
        ParamSpec("beta_distance_matrix", "--beta-distance-matrix", required := true, isInputFile := true),
        HtmlParam("phyloseq_structure.nb.html"),
        LogParam()
      ])
  }

  /** `TOOLS["phyloseq_manova"]`. */
  function PhyloseqManova(): ToolSpec {
    ToolSpec(
      name := "phyloseq_manova",
      scriptName := "phyloseq_manova.py",
      category := "Statistical analysis",
      pipelineStep := Some("phyloseq_manova"),
      isOptional := true,
      params := [
        DebugParam(),
        ParamSpec("var_exp", "--var-exp", required := true, ptype := PStr),
        ParamSpec("phyloseq_rdata", "--phyloseq-rdata", required := true, isInputFile := true),
        ParamSpec("beta_distance_matrix", "--beta-distance-matrix", required := true, isInputFile := true),
        HtmlParam("phyloseq_manova.nb.html"),
        LogParam()
      ])
  }

  /** `TOOLS["deseq2_preprocess"]`. */
  function Deseq2Preprocess(): ToolSpec {
    ToolSpec(
      name := "deseq2_preprocess",
      scriptName := "deseq2_preprocess.py",
      category := "Statistical analysis",
      pipelineStep := Some("deseq2_preprocess"),
      isOptional := true,
      params := [
        DebugParam(),
        ParamSpec("var_exp", "--var-exp", required := true, ptype := PStr),
        ParamSpec("analysis_type", "--analysis-type", required := true, ptype := PStr),
        ParamSpec("phyloseq_rdata", "--phyloseq-rdata", isInputFile := true),
        ParamSpec("input_functions_abund", "--input-functions-abund", isInputFile := true),
        ParamSpec("sample_metadata_tsv", "--sample-metadata-tsv", isInputFile := true),
        ParamSpec("output_deseq_rdata", "--output-deseq-rdata", default := Str("deseq2_preprocess.Rdata"), isOutputFile := true, outputKey := Some("deseq_rdata")),
        ParamSpec("output_phyloseq_rdata", "--output-phyloseq-rdata", default := Str("phyloseq_fun.Rdata"), isOutputFile := true, outputKey := Some("rdata")),
        LogParam()
      ])
  }

  /** `TOOLS["deseq2_visualisation"]`. */
  function Deseq2Visualisation(): ToolSpec {
    ToolSpec(
      name := "deseq2_visualisation",
      scriptName := "deseq2_visualisation.py",
      category := "Statistical analysis",
      pipelineStep := Some("deseq2_visualisation"),
      isOptional := true,
      params := [
        DebugParam(),
        ParamSpec("var_exp", "--var-exp", required := true, ptype := PStr),
        ParamSpec("mod1", "--mod1", ptype := PStr, default := Str("None")),
        ParamSpec("mod2", "--mod2", ptype := PStr, default := Str("None")),
        ParamSpec("padj", "--padj", ptype := PFloat),
        ParamSpec("analysis_type", "--analysis-type", required := true, ptype := PStr),
        ParamSpec("phyloseq_rdata", "--phyloseq-rdata", required := true, isInputFile := true),
        ParamSpec("deseq_rdata", "--deseq-rdata", required := true, isInputFile := true),
        ParamSpec("output_ipath_over", "--output-ipath-over", isOutputFile := true, outputKey := Some("ipath_over_tsv")),
        ParamSpec("output_ipath_under", "--output-ipath-under", isOutputFile := true, outputKey := Some("ipath_under_tsv")),
        HtmlParam("DESeq2_visualisation.html"),
        LogParam()
      ])
  }

  /** `TOOLS["frogsfunc_placeseqs"]`. */
  function FrogsfuncPlaceseqs(): ToolSpec {
    ToolSpec(
      name := "frogsfunc_placeseqs",
      scriptName := "frogsfunc_placeseqs.py",
      category := "Functional analysis",
      pipelineStep := Some("frogsfunc_placeseqs"),
      isOptional := true,
      params := [
        NbCpusParam(),
        DebugParam(),
        ParamSpec("placement_tool", "--placement-tool", ptype := PStr, default := Str("epa-ng")),
        ParamSpec("min_align", "--min-align", ptype := PFloat),
        ParamSpec("hsp_method", "--hsp-method", ptype := PStr, default := Str("mp")),
        ParamSpec("input_fasta", "--input-fasta", required := true, isInputFile := true),
        ParamSpec("input_biom", "--input-biom", required := true, isInputFile := true),
        ParamSpec("ref_dir", "--ref-dir", isInputFile := true),
        ParamSpec("output_tree", "--output-tree", default := Str("frogsfunc_placeseqs_tree.nwk"), isOutputFile := true, outputKey := Some("tree")),
        ParamSpec("output_fasta", "--output-fasta", default := Str("frogsfunc_placeseqs.fasta"), isOutputFile := true, outputKey := Some("fasta")),
        ParamSpec("output_biom", "--output-biom", default := Str("frogsfunc_placeseqs.biom"), isOutputFile := true, outputKey := Some("biom")),
        ParamSpec("excluded", "--excluded", default := Str("frogsfunc_placeseqs_asv_excluded.txt"), isOutputFile := true, outputKey := Some("excluded_txt")),
        ParamSpec("output_marker_copy", "--output-marker-copy", default := Str("frogsfunc_marker_copy_per_asv.tsv"), isOutputFile := true, outputKey := Some("marker_copy_tsv")),
        HtmlParam("frogsfunc_placeseqs_summary.html"),
        LogParam()
      ])
  }

  /** `TOOLS["frogsfunc_functions"]`. */
  function FrogsfuncFunctions(): ToolSpec {
    ToolSpec(
      name := "frogsfunc_functions",
      scriptName := "frogsfunc_functions.py",
      category := "Functional analysis",
      pipelineStep := Some("frogsfunc_functions"),
      isOptional := true,
      params := [
        NbCpusParam(),
        DebugParam(),
        ParamSpec("strat_contrib", "--strat-contrib", ptype := PBool, default := Bool(false)),
        ParamSpec("marker_type", "--marker-type", required := true, ptype := PStr),
        ParamSpec("functions", "--functions", ptype := PList, default := List([Str("EC")])),
        ParamSpec("hsp_method", "--hsp-method", ptype := PStr, default := Str("mp")),
        ParamSpec("max_nsti", "--max-nsti", ptype := PFloat),
        ParamSpec("min_reads", "--min-reads", ptype := PInt, default := Int(1)),
        ParamSpec("min_samples", "--min-samples", ptype := PInt, default := Int(1)),
        ParamSpec("input_biom", "--input-biom", required := true, isInputFile := true),
        ParamSpec("input_fasta", "--input-fasta", required := true, isInputFile := true),
        ParamSpec("input_tree", "--input-tree", required := true, isInputFile := true),
        ParamSpec("input_marker_copy", "--input-marker-copy", required := true, isInputFile := true),
        ParamSpec("output_biom", "--output-biom", default := Str("frogsfunc_function_asv_abundance.biom"), isOutputFile := true, outputKey := Some("biom")),
        ParamSpec("output_fasta", "--output-fasta", default := Str("frogsfunc_function_asv.fasta"), isOutputFile := true, outputKey := Some("fasta")),
        ParamSpec("output_weighted_nsti", "--output-weighted-nsti", default := Str("frogsfunc_functions_weighted_nsti.tsv"), isOutputFile := true, outputKey := Some("nsti_tsv")),
        HtmlParam("frogsfunc_functions_summary.html"),
        LogParam()
      ])
  }

  /** `TOOLS["frogsfunc_pathways"]`. */
  function FrogsfuncPathways(): ToolSpec {
    ToolSpec(
      name := "frogsfunc_pathways",
      scriptName := "frogsfunc_pathways.py",
      category := "Functional analysis",
      pipelineStep := Some("frogsfunc_pathways"),
      isOptional := true,
      params := [
        NbCpusParam(),
        DebugParam(),
        ParamSpec("strat_contrib", "--strat-contrib", ptype := PBool, default := Bool(false)),
        ParamSpec("normalisation", "--normalisation", ptype := PBool, default := Bool(false)),
        ParamSpec("input_tsv", "--input-tsv", required := true, isInputFile := true),
        ParamSpec("input_asv_copy_norm", "--input-asv-copy-norm", isInputFile := true),
        ParamSpec("input_fun_copy", "--input-fun-copy", isInputFile := true),
        ParamSpec("output_pathways_abund", "--output-pathways-abund", default := Str("frogsfunc_pathways_unstrat.tsv"), isOutputFile := true, outputKey := Some("pathways_tsv")),
        HtmlParam("frogsfunc_pathways_summary.html"),
        LogParam()
      ])
  }


  /** The keys of `TOOLS`, in insertion order (`list_tool_names()`). */
  function ListToolNames(): seq<string> {
    [
      "reads_processing", "remove_chimera", "cluster_filters", "taxonomic_affiliation",
      "affiliation_postprocess", "affiliation_filters", "affiliation_report", "tree",
      "normalisation", "phyloseq_import", "phyloseq_composition",
      "phyloseq_alpha_diversity", "demultiplex", "clustering", "itsx", "biom_to_tsv",
      "tsv_to_biom", "biom_to_stdBiom", "cluster_asv_report", "phyloseq_beta_diversity",
      "phyloseq_clustering", "phyloseq_structure", "phyloseq_manova", "deseq2_preprocess",
      "deseq2_visualisation", "frogsfunc_placeseqs", "frogsfunc_functions",
      "frogsfunc_pathways"
    ]
  }

  /** The value `TOOLS` stores under its `k`-th key. */
  function ToolAt(k: nat): ToolSpec
    requires k < 28
  {
    match k
    case 0 => ReadsProcessing()
    case 1 => RemoveChimera()
    case 2 => ClusterFilters()
    case 3 => TaxonomicAffiliation()
    case 4 => AffiliationPostprocess()
    case 5 => AffiliationFilters()
    case 6 => AffiliationReport()
    case 7 => Tree()
    case 8 => Normalisation()
    case 9 => PhyloseqImport()
    case 10 => PhyloseqComposition()
    case 11 => PhyloseqAlphaDiversity()
    case 12 => Demultiplex()
    case 13 => Clustering()
    case 14 => Itsx()
    case 15 => BiomToTsv()
    case 16 => TsvToBiom()
    case 17 => BiomToStdBiom()
    case 18 => ClusterAsvReport()
    case 19 => PhyloseqBetaDiversity()
    case 20 => PhyloseqClustering()
    case 21 => PhyloseqStructure()
    case 22 => PhyloseqManova()
    case 23 => Deseq2Preprocess()
    case 24 => Deseq2Visualisation()
    case 25 => FrogsfuncPlaceseqs()
    case 26 => FrogsfuncFunctions()
    case _ => FrogsfuncPathways()
  }

  /** `TOOLS.values()`, in insertion order. */
  function Tools(): (r: seq<ToolSpec>)
    ensures |r| == 28
    ensures forall k :: 0 <= k < 28 ==> r[k] == ToolAt(k)
  {
    seq(28, k requires 0 <= k < 28 => ToolAt(k))
  }

  /** `PIPELINE_ORDER`: the mandatory steps of a project, in run order. */
  function PipelineOrder(): seq<string> {
    ["reads_processing", "remove_chimera", "cluster_filters", "taxonomic_affiliation",
     "affiliation_postprocess", "affiliation_filters", "affiliation_report", "tree",
     "normalisation", "phyloseq_import", "phyloseq_composition", "phyloseq_alpha_diversity"]
  }

  /** `OPTIONAL_STEPS`. */
  function OptionalSteps(): seq<string> {
    ["demultiplex", "clustering", "itsx", "biom_to_tsv", "tsv_to_biom", "biom_to_stdBiom",
     "cluster_asv_report", "phyloseq_beta_diversity", "phyloseq_clustering",
     "phyloseq_structure", "phyloseq_manova", "deseq2_preprocess", "deseq2_visualisation",
     "frogsfunc_placeseqs", "frogsfunc_functions", "frogsfunc_pathways"]
  }

  /** The first position of `name` in `keys[i..]`, if any. */
  function KeyIndex(keys: seq<string>, name: string, i: nat): (r: Option<nat>)
    requires i <= |keys|
    ensures r.None? <==> forall k :: i <= k < |keys| ==> keys[k] != name
    ensures r.Some? ==> i <= r.value < |keys| && keys[r.value] == name
    ensures r.Some? ==> forall k :: i <= k < r.value ==> keys[k] != name
    decreases |keys| - i
  {
    if i == |keys| then None
    else if keys[i] == name then Some(i)
    else KeyIndex(keys, name, i + 1)
  }

  /** A dictionary lookup over parallel key and value lists: the value at
      the first position of `name`, or nothing for a name that is not a
      key. */
  function Lookup<V>(keys: seq<string>, values: seq<V>, name: string): (r: Option<V>)
    requires |keys| == |values|
    ensures r.Some? <==> name in keys
    ensures r.Some? ==> exists k :: 0 <= k < |keys| && keys[k] == name && r.value == values[k]
  {
    match KeyIndex(keys, name, 0)
    case None => None
    case Some(k) => Some(values[k])
  }

  /** `get_tool(name)` / `TOOLS.get(name)`: the value stored under the key
      `name`, or nothing for a name that is not a key. */
  function GetTool(name: string): (r: Option<ToolSpec>)
    ensures r.Some? <==> name in ListToolNames()
    ensures r.Some? ==> exists k :: 0 <= k < |ListToolNames()| && ListToolNames()[k] == name
                                    && r.value == ToolAt(k)
  {
    Lookup(ListToolNames(), Tools(), name)
  }

  /** `TOOLS.get(name)` for a catalogue given as its entries in insertion
      order, each filed under its own name: the first entry of that name. */
  function FindTool(tools: seq<ToolSpec>, name: string): (r: Option<ToolSpec>)
    ensures r.None? <==> forall k :: 0 <= k < |tools| ==> tools[k].name != name
    ensures r.Some? ==> r.value in tools && r.value.name == name
  {
    if tools == [] then None
    else if tools[0].name == name then Some(tools[0])
    else FindTool(tools[1..], name)
  }

  /** The entry `FindTool` returns is the first one of that name. */
  lemma {:induction false} FindToolFirst(tools: seq<ToolSpec>, name: string)
    requires FindTool(tools, name).Some?
    ensures exists k :: 0 <= k < |tools| && tools[k] == FindTool(tools, name).value
                        && forall j :: 0 <= j < k ==> tools[j].name != name
  {
    if tools[0].name != name {
      FindToolFirst(tools[1..], name);
      var k :| 0 <= k < |tools[1..]| && tools[1..][k] == FindTool(tools, name).value
               && forall j :: 0 <= j < k ==> tools[1..][j].name != name;
      forall j | 0 <= j < k + 1 ensures tools[j].name != name {
        if j > 0 { assert tools[j] == tools[1..][j - 1]; }
      }
    }
  }

  /** `output_key` is set exactly on the output-file parameters. */
  predicate KeysExactlyOnOutputs(ps: seq<ParamSpec>) {
    forall k :: 0 <= k < |ps| ==> (ps[k].outputKey.Some? <==> ps[k].isOutputFile)
  }

  /** No two parameters of one tool share an output key. */
  predicate DistinctOutputKeys(ps: seq<ParamSpec>) {
    forall i, j :: 0 <= i < j < |ps| && ps[i].outputKey.Some? && ps[j].outputKey.Some? ==>
      ps[i].outputKey.value != ps[j].outputKey.value
  }

  /** The positional argument is declared, required, and has no flag. */
  predicate SubparserDeclared(t: ToolSpec) {
    exists k :: 0 <= k < |t.params| && t.params[k].name == t.subparserParam
                && t.params[k].required && t.params[k].cliFlag == ""
  }

  /** What the rest of the model relies on about a catalogue entry. */
  predicate WellFormedTool(t: ToolSpec) {
    && t.pipelineStep == Some(t.name)
    && t.isOptional == (t.name in OptionalSteps())
    && KeysExactlyOnOutputs(t.params)
    && DistinctOutputKeys(t.params)
    && (t.hasSubparser <==> t.name == "reads_processing")
    && (t.hasSubparser ==> t.subparserParam == "sequencer" && SubparserDeclared(t))
  }

  /** The names of the tool's input-file parameters (`target_input_params`). */
  function InputParamNames(t: ToolSpec): (r: set<string>)
    ensures forall x :: x in r <==> exists k :: 0 <= k < |t.params| && t.params[k].isInputFile && t.params[k].name == x
  {
    set k | 0 <= k < |t.params| && t.params[k].isInputFile :: t.params[k].name
  }

  /** The output keys a tool declares. */
  function DeclaredOutputKeys(t: ToolSpec): (r: set<string>)
    ensures forall x :: x in r <==> exists k :: 0 <= k < |t.params| && t.params[k].outputKey == Some(x)
  {
    set k | 0 <= k < |t.params| && t.params[k].outputKey.Some? :: t.params[k].outputKey.value
  }
}

=== FILE: catalogue_checks.dfy ===
/** Catalogue-wide facts: every entry is well formed, and the two step lists
    partition the catalogue's keys. */
module CatalogueChecks {
  import opened Wrappers
  import opened Catalogue
  import opened CatalogueFacts

  /** The catalogue's keys, in insertion order, are `PIPELINE_ORDER`
      followed by `OPTIONAL_STEPS`. */
  lemma ToolNamesAreSteps()
    ensures ListToolNames() == PipelineOrder() + OptionalSteps()
  {
  }

  /** `PIPELINE_ORDER` lists twelve steps, none twice. */
  lemma PipelineOrderDistinct()
    ensures |PipelineOrder()| == 12 && NoDup(PipelineOrder())
  {
    assert NoDupFrom(PipelineOrder(), 6);
    assert NotInFrom(PipelineOrder()[0], PipelineOrder(), 6);
    assert NotInFrom(PipelineOrder()[1], PipelineOrder(), 6);
    assert NotInFrom(PipelineOrder()[2], PipelineOrder(), 6);
    assert NotInFrom(PipelineOrder()[3], PipelineOrder(), 6);
    assert NotInFrom(PipelineOrder()[4], PipelineOrder(), 6);
    assert NotInFrom(PipelineOrder()[5], PipelineOrder(), 6);
  }

  lemma OptionalStepsDistinctFrom8()
    ensures NoDupFrom(OptionalSteps(), 8)
  {
    assert NoDupFrom(OptionalSteps(), 12);
    assert NotInFrom(OptionalSteps()[8], OptionalSteps(), 12);
    assert NotInFrom(OptionalSteps()[9], OptionalSteps(), 12);
    assert NotInFrom(OptionalSteps()[10], OptionalSteps(), 12);
    assert NotInFrom(OptionalSteps()[11], OptionalSteps(), 12);
  }

  /** `OPTIONAL_STEPS` lists sixteen steps, none twice. */
  lemma OptionalStepsDistinct()
    ensures |OptionalSteps()| == 16 && NoDup(OptionalSteps())
  {
    OptionalStepsDistinctFrom8();
    assert NotInFrom(OptionalSteps()[0], OptionalSteps(), 8);
    assert NotInFrom(OptionalSteps()[1], OptionalSteps(), 8);
    assert NotInFrom(OptionalSteps()[2], OptionalSteps(), 8);
    assert NotInFrom(OptionalSteps()[3], OptionalSteps(), 8);
    assert NotInFrom(OptionalSteps()[4], OptionalSteps(), 8);
    assert NotInFrom(OptionalSteps()[5], OptionalSteps(), 8);
    assert NotInFrom(OptionalSteps()[6], OptionalSteps(), 8);
    assert NotInFrom(OptionalSteps()[7], OptionalSteps(), 8);
  }

  /** No step is both mandatory and optional. */
  lemma StepListsDisjoint()
    ensures forall x :: x in PipelineOrder() ==> x !in OptionalSteps()
  {
  }

  /** `PIPELINE_ORDER` and `OPTIONAL_STEPS` are disjoint, neither repeats a
      step, and together they list the catalogue's keys exactly once each. */
  lemma StepListsPartitionCatalogue()
    ensures ListToolNames() == PipelineOrder() + OptionalSteps()
    ensures forall x :: x in PipelineOrder() ==> x !in OptionalSteps()
    ensures forall i, j :: 0 <= i < j < |ListToolNames()| ==> ListToolNames()[i] != ListToolNames()[j]
  {
    ToolNamesAreSteps();
    PipelineOrderDistinct();
    OptionalStepsDistinct();
    StepListsDisjoint();
    NoDupDistinct(PipelineOrder());
    NoDupDistinct(OptionalSteps());
    var l := ListToolNames();
    forall i, j | 0 <= i < j < |l| ensures l[i] != l[j] {
      if j >= 12 && i < 12 {
        assert l[i] in PipelineOrder();
        assert l[j] == OptionalSteps()[j - 12];
      }
    }
  }
}

=== FILE: catalogue_facts.dfy ===
/** Well-formedness of the tool catalogue: every entry satisfies
    `WellFormedTool`, and the two step lists partition the catalogue.

    Each entry is summarised by a `Digest` (its output keys and input-file
    names as literal lists); a per-tool lemma computes the
    digest a few parameters at a time, and generic lemmas turn a digest into
    the quantified facts of `WellFormedTool`. */
module CatalogueFacts {
  import opened Wrappers
  import opened Values
  import opened Catalogue

  /** `x` is not among `s[i..]` (decidable form). */
  predicate NotInFrom(x: string, s: seq<string>, i: nat)
    decreases |s| - i
  {
    i >= |s| || (s[i] != x && NotInFrom(x, s, i + 1))
  }

  /** No element of `s[i..]` occurs twice (decidable form). */
  predicate NoDupFrom(s: seq<string>, i: nat)
    decreases |s| - i
  {
    i >= |s| || (NotInFrom(s[i], s, i + 1) && NoDupFrom(s, i + 1))
  }

  predicate NoDup(s: seq<string>) {
    NoDupFrom(s, 0)
  }

  lemma {:induction false} NotInFromMeaning(x: string, s: seq<string>, i: nat)
    requires NotInFrom(x, s, i)
    ensures forall k :: i <= k < |s| ==> s[k] != x
    decreases |s| - i
  {
    if i < |s| {
      NotInFromMeaning(x, s, i + 1);
    }
  }

  lemma {:induction false} NoDupFromDistinct(s: seq<string>, i: nat)
    requires NoDupFrom(s, i)
    ensures forall a, b :: i <= a < b < |s| ==> s[a] != s[b]
    decreases |s| - i
  {
    if i < |s| {
      NotInFromMeaning(s[i], s, i + 1);
      NoDupFromDistinct(s, i + 1);
    }
  }

  lemma NoDupDistinct(s: seq<string>)
    requires NoDup(s)
    ensures forall i, j :: 0 <= i < j < |s| ==> s[i] != s[j]
  {
    NoDupFromDistinct(s, 0);
  }

  /** A prefix element absent from the rest keeps the list duplicate-free. */
  lemma NoDupCons(x: string, rest: seq<string>)
    requires NoDup([x] + rest)
    ensures NoDup(rest) && x !in rest
  {
    var s := [x] + rest;
    NoDupFromDistinct(s, 0);
    NoDupFromShift(s);
  }

  lemma NoDupFromShift(s: seq<string>)
    requires |s| > 0 && NoDupFrom(s, 1)
    ensures NoDupFrom(s[1..], 0)
  {
    NoDupFromDistinct(s, 1);
    DistinctNoDupFrom(s[1..], 0);
  }

  lemma {:induction false} DistinctNotInFrom(x: string, s: seq<string>, i: nat)
    requires forall k :: i <= k < |s| ==> s[k] != x
    ensures NotInFrom(x, s, i)
    decreases |s| - i
  {
    if i < |s| {
      DistinctNotInFrom(x, s, i + 1);
    }
  }

  lemma {:induction false} DistinctNoDupFrom(s: seq<string>, i: nat)
    requires forall a, b :: i <= a < b < |s| ==> s[a] != s[b]
    ensures NoDupFrom(s, i)
    decreases |s| - i
  {
    if i < |s| {
      DistinctNotInFrom(s[i], s, i + 1);
      DistinctNoDupFrom(s, i + 1);
    }
  }

  /** The output keys and input-file names of a parameter list, and whether
      output keys sit exactly on output files. */
  datatype Digest = Digest(outputKeys: seq<string>, inputs: seq<string>, keysOnOutputs: bool)

  /** The digest of `ps[i..]`. */
  function DigestFrom(ps: seq<ParamSpec>, i: nat): Digest
    decreases |ps| - i
  {
    if i >= |ps| then Digest([], [], true)
    else
      var d := DigestFrom(ps, i + 1);
      var p := ps[i];
      Digest((if p.outputKey.Some? then [p.outputKey.value] else []) + d.outputKeys,
             (if p.isInputFile then [p.name] else []) + d.inputs,
             (p.outputKey.Some? == p.isOutputFile) && d.keysOnOutputs)
  }

  lemma {:induction false} DigestKeysOnOutputs(ps: seq<ParamSpec>, i: nat)
    requires i <= |ps| && DigestFrom(ps, i).keysOnOutputs
    ensures forall k :: i <= k < |ps| ==> (ps[k].outputKey.Some? <==> ps[k].isOutputFile)
    decreases |ps| - i
  {
    if i < |ps| {
      DigestKeysOnOutputs(ps, i + 1);
    }
  }

  lemma {:induction false} DigestInputs(ps: seq<ParamSpec>, i: nat)
    requires i <= |ps|
    ensures forall x :: x in DigestFrom(ps, i).inputs <==>
      exists k :: i <= k < |ps| && ps[k].isInputFile && ps[k].name == x
    decreases |ps| - i
  {
    if i < |ps| {
      DigestInputs(ps, i + 1);
    }
  }

  lemma {:induction false} DigestOutputKeys(ps: seq<ParamSpec>, i: nat)
    requires i <= |ps|
    ensures forall x :: x in DigestFrom(ps, i).outputKeys <==>
      exists k :: i <= k < |ps| && ps[k].outputKey == Some(x)
    decreases |ps| - i
  {
    if i < |ps| {
      DigestOutputKeys(ps, i + 1);
    }
  }

  lemma {:induction false} DigestDistinctKeys(ps: seq<ParamSpec>, i: nat)
    requires i <= |ps| && NoDup(DigestFrom(ps, i).outputKeys)
    ensures forall a, b :: i <= a < b < |ps| && ps[a].outputKey.Some? && ps[b].outputKey.Some? ==>
      ps[a].outputKey.value != ps[b].outputKey.value
    decreases |ps| - i
  {
    if i < |ps| {
      DigestTail(ps, i);
      DigestDistinctKeys(ps, i + 1);
      if ps[i].outputKey.Some? {
        HeadKeyFresh(ps, i);
      }
    }
  }

  /** The tail's keys are duplicate-free too, and do not repeat the head's. */
  lemma DigestTail(ps: seq<ParamSpec>, i: nat)
    requires i < |ps| && NoDup(DigestFrom(ps, i).outputKeys)
    ensures NoDup(DigestFrom(ps, i + 1).outputKeys)
    ensures ps[i].outputKey.Some? ==> ps[i].outputKey.value !in DigestFrom(ps, i + 1).outputKeys
  {
    var keys := DigestFrom(ps, i).outputKeys;
    var rest := DigestFrom(ps, i + 1).outputKeys;
    if ps[i].outputKey.Some? {
      assert keys == [ps[i].outputKey.value] + rest;
      NoDupCons(ps[i].outputKey.value, rest);
    } else {
      assert keys == rest;
    }
  }

  /** A head key absent from the tail's keys differs from every later key. */
  lemma HeadKeyFresh(ps: seq<ParamSpec>, i: nat)
    requires i < |ps| && ps[i].outputKey.Some?
    requires ps[i].outputKey.value !in DigestFrom(ps, i + 1).outputKeys
    ensures forall b :: i < b < |ps| && ps[b].outputKey.Some? ==> ps[i].outputKey.value != ps[b].outputKey.value
  {
    DigestOutputKeys(ps, i + 1);
  }

  /** A digest with no repeated output key, computed from `t`'s parameters,
      establishes the parameter-level facts of `WellFormedTool`. */
  lemma ParamFactsFromDigest(t: ToolSpec, d: Digest)
    requires DigestFrom(t.params, 0) == d
    requires d.keysOnOutputs && NoDup(d.outputKeys)
    ensures KeysExactlyOnOutputs(t.params)
    ensures DistinctOutputKeys(t.params)
    ensures forall x :: x in InputParamNames(t) <==> x in d.inputs
    ensures forall x :: x in DeclaredOutputKeys(t) <==> x in d.outputKeys
  {
    DigestKeysOnOutputs(t.params, 0);
    DigestInputs(t.params, 0);
    DigestOutputKeys(t.params, 0);
    DigestDistinctKeys(t.params, 0);
  }

  /** The digest of `TOOLS["reads_processing"]`. */
  function ReadsProcessingDigest(): Digest {
    Digest(["fasta", "biom", "compo", "html", "log"], ["input_archive", "input_R1", "input_R2"], true)
  }

  lemma ReadsProcessingDigestFrom26()
    ensures DigestFrom(ReadsProcessing().params, 26) == Digest(["compo", "html", "log"], [], true)
  {
  }

  lemma ReadsProcessingDigestFrom23()
    ensures DigestFrom(ReadsProcessing().params, 23) == Digest(["fasta", "biom", "compo", "html", "log"], [], true)
  {
    ReadsProcessingDigestFrom26();
  }

  lemma ReadsProcessingDigestFrom20()
    ensures DigestFrom(ReadsProcessing().params, 20) == Digest(["fasta", "biom", "compo", "html", "log"], ["input_archive", "input_R1", "input_R2"], true)
  {
    ReadsProcessingDigestFrom23();
  }

  lemma ReadsProcessingDigestFrom17()
    ensures DigestFrom(ReadsProcessing().params, 17) == Digest(["fasta", "biom", "compo", "html", "log"], ["input_archive", "input_R1", "input_R2"], true)
  {
    ReadsProcessingDigestFrom20();
  }

  lemma ReadsProcessingDigestFrom14()
    ensures DigestFrom(ReadsProcessing().params, 14) == Digest(["fasta", "biom", "compo", "html", "log"], ["input_archive", "input_R1", "input_R2"], true)
  {
    ReadsProcessingDigestFrom17();
  }

  lemma ReadsProcessingDigestFrom11()
    ensures DigestFrom(ReadsProcessing().params, 11) == Digest(["fasta", "biom", "compo", "html", "log"], ["input_archive", "input_R1", "input_R2"], true)
  {
    ReadsProcessingDigestFrom14();
  }

  lemma ReadsProcessingDigestFrom8()
    ensures DigestFrom(ReadsProcessing().params, 8) == Digest(["fasta", "biom", "compo", "html", "log"], ["input_archive", "input_R1", "input_R2"], true)
  {
    ReadsProcessingDigestFrom11();
  }

  lemma ReadsProcessingDigestFrom5()
    ensures DigestFrom(ReadsProcessing().params, 5) == Digest(["fasta", "biom", "compo", "html", "log"], ["input_archive", "input_R1", "input_R2"], true)
  {
    ReadsProcessingDigestFrom8();
  }

  lemma ReadsProcessingDigestFrom2()
    ensures DigestFrom(ReadsProcessing().params, 2) == Digest(["fasta", "biom", "compo", "html", "log"], ["input_archive", "input_R1", "input_R2"], true)
  {
    ReadsProcessingDigestFrom5();
  }

  lemma ReadsProcessingDigestComputed()
    ensures DigestFrom(ReadsProcessing().params, 0) == ReadsProcessingDigest()
  {
    ReadsProcessingDigestFrom2();
  }

  lemma ReadsProcessingDistinct()
    ensures NoDup(ReadsProcessingDigest().outputKeys) && ReadsProcessingDigest().keysOnOutputs
  {
  }

  lemma ReadsProcessingHeader()
    ensures ReadsProcessing().pipelineStep == Some(ReadsProcessing().name)
    ensures ReadsProcessing().isOptional == (ReadsProcessing().name in OptionalSteps())
    ensures ReadsProcessing().hasSubparser <==> ReadsProcessing().name == "reads_processing"
    ensures ReadsProcessing().subparserParam == "sequencer" && SubparserDeclared(ReadsProcessing())
  {
    assert ReadsProcessing().params[0].name == "sequencer";
  }

  lemma ReadsProcessingWellFormed()
    ensures WellFormedTool(ReadsProcessing())
    ensures forall x :: x in InputParamNames(ReadsProcessing()) <==> x in ReadsProcessingDigest().inputs
    ensures forall x :: x in DeclaredOutputKeys(ReadsProcessing()) <==> x in ReadsProcessingDigest().outputKeys
  {
    ReadsProcessingDigestComputed();
    ReadsProcessingDistinct();
    ReadsProcessingHeader();
    ParamFactsFromDigest(ReadsProcessing(), ReadsProcessingDigest());
  }

  /** The digest of `TOOLS["remove_chimera"]`. */
  function RemoveChimeraDigest(): Digest {
    Digest(["fasta", "biom", "html", "log"], ["input_fasta", "input_biom"], true)
  }

  lemma RemoveChimeraDigestFrom5()
    ensures DigestFrom(RemoveChimera().params, 5) == Digest(["fasta", "biom", "html", "log"], [], true)
  {
  }

  lemma RemoveChimeraDigestFrom1()
    ensures DigestFrom(RemoveChimera().params, 1) == Digest(["fasta", "biom", "html", "log"], ["input_fasta", "input_biom"], true)
  {
    RemoveChimeraDigestFrom5();
  }

  lemma RemoveChimeraDigestComputed()
    ensures DigestFrom(RemoveChimera().params, 0) == RemoveChimeraDigest()
  {
    RemoveChimeraDigestFrom1();
  }

  lemma RemoveChimeraDistinct()
    ensures NoDup(RemoveChimeraDigest().outputKeys) && RemoveChimeraDigest().keysOnOutputs
  {
  }

  lemma RemoveChimeraHeader()
    ensures RemoveChimera().pipelineStep == Some(RemoveChimera().name)
    ensures RemoveChimera().isOptional == (RemoveChimera().name in OptionalSteps())
    ensures RemoveChimera().hasSubparser <==> RemoveChimera().name == "reads_processing"
  {
  }

  lemma RemoveChimeraWellFormed()
    ensures WellFormedTool(RemoveChimera())
    ensures forall x :: x in InputParamNames(RemoveChimera()) <==> x in RemoveChimeraDigest().inputs
    ensures forall x :: x in DeclaredOutputKeys(RemoveChimera()) <==> x in RemoveChimeraDigest().outputKeys
  {
    RemoveChimeraDigestComputed();
    RemoveChimeraDistinct();
    RemoveChimeraHeader();
    ParamFactsFromDigest(RemoveChimera(), RemoveChimeraDigest());
  }

  /** The digest of `TOOLS["cluster_filters"]`. */
  function ClusterFiltersDigest(): Digest {
    Digest(["biom", "fasta", "excluded_tsv", "html", "log"], ["contaminant", "replicate_tsv", "input_biom", "input_fasta"], true)
  }

  lemma ClusterFiltersDigestFrom11()
    ensures DigestFrom(ClusterFilters().params, 11) == Digest(["fasta", "excluded_tsv", "html", "log"], [], true)
  {
  }

  lemma ClusterFiltersDigestFrom7()
    ensures DigestFrom(ClusterFilters().params, 7) == Digest(["biom", "fasta", "excluded_tsv", "html", "log"], ["replicate_tsv", "input_biom", "input_fasta"], true)
  {
    ClusterFiltersDigestFrom11();
  }

  lemma ClusterFiltersDigestFrom3()
    ensures DigestFrom(ClusterFilters().params, 3) == Digest(["biom", "fasta", "excluded_tsv", "html", "log"], ["contaminant", "replicate_tsv", "input_biom", "input_fasta"], true)
  {
    ClusterFiltersDigestFrom7();
  }

  lemma ClusterFiltersDigestComputed()
    ensures DigestFrom(ClusterFilters().params, 0) == ClusterFiltersDigest()
  {
    ClusterFiltersDigestFrom3();
  }

  lemma ClusterFiltersDistinct()
    ensures NoDup(ClusterFiltersDigest().outputKeys) && ClusterFiltersDigest().keysOnOutputs
  {
  }

  lemma ClusterFiltersHeader()
    ensures ClusterFilters().pipelineStep == Some(ClusterFilters().name)
    ensures ClusterFilters().isOptional == (ClusterFilters().name in OptionalSteps())
    ensures ClusterFilters().hasSubparser <==> ClusterFilters().name == "reads_processing"
  {
  }

  lemma ClusterFiltersWellFormed()
    ensures WellFormedTool(ClusterFilters())
    ensures forall x :: x in InputParamNames(ClusterFilters()) <==> x in ClusterFiltersDigest().inputs
    ensures forall x :: x in DeclaredOutputKeys(ClusterFilters()) <==> x in ClusterFiltersDigest().outputKeys
  {
    ClusterFiltersDigestComputed();
    ClusterFiltersDistinct();
    ClusterFiltersHeader();
    ParamFactsFromDigest(ClusterFilters(), ClusterFiltersDigest());
  }

  /** The digest of `TOOLS["taxonomic_affiliation"]`. */
  function TaxonomicAffiliationDigest(): Digest {
    Digest(["biom", "html", "log"], ["reference", "input_biom", "input_fasta"], true)
  }

  lemma TaxonomicAffiliationDigestFrom12()
    ensures DigestFrom(TaxonomicAffiliation().params, 12) == Digest(["biom", "html", "log"], ["input_fasta"], true)
  {
  }

  lemma TaxonomicAffiliationDigestFrom8()
    ensures DigestFrom(TaxonomicAffiliation().params, 8) == Digest(["biom", "html", "log"], ["reference", "input_biom", "input_fasta"], true)
  {
    TaxonomicAffiliationDigestFrom12();
  }

  lemma TaxonomicAffiliationDigestFrom4()
    ensures DigestFrom(TaxonomicAffiliation().params, 4) == Digest(["biom", "html", "log"], ["reference", "input_biom", "input_fasta"], true)
  {
    TaxonomicAffiliationDigestFrom8();
  }

  lemma TaxonomicAffiliationDigestComputed()
    ensures DigestFrom(TaxonomicAffiliation().params, 0) == TaxonomicAffiliationDigest()
  {
    TaxonomicAffiliationDigestFrom4();
  }

  lemma TaxonomicAffiliationDistinct()
    ensures NoDup(TaxonomicAffiliationDigest().outputKeys) && TaxonomicAffiliationDigest().keysOnOutputs
  {
  }

  lemma TaxonomicAffiliationHeader()
    ensures TaxonomicAffiliation().pipelineStep == Some(TaxonomicAffiliation().name)
    ensures TaxonomicAffiliation().isOptional == (TaxonomicAffiliation().name in OptionalSteps())
    ensures TaxonomicAffiliation().hasSubparser <==> TaxonomicAffiliation().name == "reads_processing"
  {
  }

  lemma TaxonomicAffiliationWellFormed()
    ensures WellFormedTool(TaxonomicAffiliation())
    ensures forall x :: x in InputParamNames(TaxonomicAffiliation()) <==> x in TaxonomicAffiliationDigest().inputs
    ensures forall x :: x in DeclaredOutputKeys(TaxonomicAffiliation()) <==> x in TaxonomicAffiliationDigest().outputKeys
  {
    TaxonomicAffiliationDigestComputed();
    TaxonomicAffiliationDistinct();
    TaxonomicAffiliationHeader();
    ParamFactsFromDigest(TaxonomicAffiliation(), TaxonomicAffiliationDigest());
  }

  /** The digest of `TOOLS["affiliation_postprocess"]`. */
  function AffiliationPostprocessDigest(): Digest {
    Digest(["biom", "fasta", "compo", "log"], ["input_biom", "input_fasta", "reference"], true)
  }

  lemma AffiliationPostprocessDigestFrom7()
    ensures DigestFrom(AffiliationPostprocess().params, 7) == Digest(["biom", "fasta", "compo", "log"], [], true)
  {
  }

  lemma AffiliationPostprocessDigestFrom3()
    ensures DigestFrom(AffiliationPostprocess().params, 3) == Digest(["biom", "fasta", "compo", "log"], ["input_biom", "input_fasta", "reference"], true)
  {
    AffiliationPostprocessDigestFrom7();
  }

  lemma AffiliationPostprocessDigestComputed()
    ensures DigestFrom(AffiliationPostprocess().params, 0) == AffiliationPostprocessDigest()
  {
    AffiliationPostprocessDigestFrom3();
  }

  lemma AffiliationPostprocessDistinct()
    ensures NoDup(AffiliationPostprocessDigest().outputKeys) && AffiliationPostprocessDigest().keysOnOutputs
  {
  }

  lemma AffiliationPostprocessHeader()
    ensures AffiliationPostprocess().pipelineStep == Some(AffiliationPostprocess().name)
    ensures AffiliationPostprocess().isOptional == (AffiliationPostprocess().name in OptionalSteps())
    ensures AffiliationPostprocess().hasSubparser <==> AffiliationPostprocess().name == "reads_processing"
  {
  }

  lemma AffiliationPostprocessWellFormed()
    ensures WellFormedTool(AffiliationPostprocess())
    ensures forall x :: x in InputParamNames(AffiliationPostprocess()) <==> x in AffiliationPostprocessDigest().inputs
    ensures forall x :: x in DeclaredOutputKeys(AffiliationPostprocess()) <==> x in AffiliationPostprocessDigest().outputKeys
  {
    AffiliationPostprocessDigestComputed();
    AffiliationPostprocessDistinct();
    AffiliationPostprocessHeader();
    ParamFactsFromDigest(AffiliationPostprocess(), AffiliationPostprocessDigest());
  }

  /** The digest of `TOOLS["affiliation_filters"]`. */
  function AffiliationFiltersDigest(): Digest {
    Digest(["biom", "fasta", "impacted_tsv", "html", "log"], ["input_biom", "input_fasta"], true)
  }

  lemma AffiliationFiltersDigestFrom20()
    ensures DigestFrom(AffiliationFilters().params, 20) == Digest(["impacted_tsv", "html", "log"], [], true)
  {
  }

  lemma AffiliationFiltersDigestFrom17()
    ensures DigestFrom(AffiliationFilters().params, 17) == Digest(["biom", "fasta", "impacted_tsv", "html", "log"], ["input_fasta"], true)
  {
    AffiliationFiltersDigestFrom20();
  }

  lemma AffiliationFiltersDigestFrom14()
    ensures DigestFrom(AffiliationFilters().params, 14) == Digest(["biom", "fasta", "impacted_tsv", "html", "log"], ["input_biom", "input_fasta"], true)
  {
    AffiliationFiltersDigestFrom17();
  }

  lemma AffiliationFiltersDigestFrom11()
    ensures DigestFrom(AffiliationFilters().params, 11) == Digest(["biom", "fasta", "impacted_tsv", "html", "log"], ["input_biom", "input_fasta"], true)
  {
    AffiliationFiltersDigestFrom14();
  }

  lemma AffiliationFiltersDigestFrom8()
    ensures DigestFrom(AffiliationFilters().params, 8) == Digest(["biom", "fasta", "impacted_tsv", "html", "log"], ["input_biom", "input_fasta"], true)
  {
    AffiliationFiltersDigestFrom11();
  }

  lemma AffiliationFiltersDigestFrom5()
    ensures DigestFrom(AffiliationFilters().params, 5) == Digest(["biom", "fasta", "impacted_tsv", "html", "log"], ["input_biom", "input_fasta"], true)
  {
    AffiliationFiltersDigestFrom8();
  }

  lemma AffiliationFiltersDigestFrom2()
    ensures DigestFrom(AffiliationFilters().params, 2) == Digest(["biom", "fasta", "impacted_tsv", "html", "log"], ["input_biom", "input_fasta"], true)
  {
    AffiliationFiltersDigestFrom5();
  }

  lemma AffiliationFiltersDigestComputed()
    ensures DigestFrom(AffiliationFilters().params, 0) == AffiliationFiltersDigest()
  {
    AffiliationFiltersDigestFrom2();
  }

  lemma AffiliationFiltersDistinct()
    ensures NoDup(AffiliationFiltersDigest().outputKeys) && AffiliationFiltersDigest().keysOnOutputs
  {
  }

  lemma AffiliationFiltersHeader()
    ensures AffiliationFilters().pipelineStep == Some(AffiliationFilters().name)
    ensures AffiliationFilters().isOptional == (AffiliationFilters().name in OptionalSteps())
    ensures AffiliationFilters().hasSubparser <==> AffiliationFilters().name == "reads_processing"
  {
  }

  lemma AffiliationFiltersWellFormed()
    ensures WellFormedTool(AffiliationFilters())
    ensures forall x :: x in InputParamNames(AffiliationFilters()) <==> x in AffiliationFiltersDigest().inputs
    ensures forall x :: x in DeclaredOutputKeys(AffiliationFilters()) <==> x in AffiliationFiltersDigest().outputKeys
  {
    AffiliationFiltersDigestComputed();
    AffiliationFiltersDistinct();
    AffiliationFiltersHeader();
    ParamFactsFromDigest(AffiliationFilters(), AffiliationFiltersDigest());
  }

  /** The digest of `TOOLS["affiliation_report"]`. */
  function AffiliationReportDigest(): Digest {
    Digest(["html", "log"], ["input_biom"], true)
  }

  lemma AffiliationReportDigestFrom7()
    ensures DigestFrom(AffiliationReport().params, 7) == Digest(["html", "log"], ["input_biom"], true)
  {
  }

  lemma AffiliationReportDigestFrom3()
    ensures DigestFrom(AffiliationReport().params, 3) == Digest(["html", "log"], ["input_biom"], true)
  {
    AffiliationReportDigestFrom7();
  }

  lemma AffiliationReportDigestComputed()
    ensures DigestFrom(AffiliationReport().params, 0) == AffiliationReportDigest()
  {
    AffiliationReportDigestFrom3();
  }

  lemma AffiliationReportDistinct()
    ensures NoDup(AffiliationReportDigest().outputKeys) && AffiliationReportDigest().keysOnOutputs
  {
  }

  lemma AffiliationReportHeader()
    ensures AffiliationReport().pipelineStep == Some(AffiliationReport().name)
    ensures AffiliationReport().isOptional == (AffiliationReport().name in OptionalSteps())
    ensures AffiliationReport().hasSubparser <==> AffiliationReport().name == "reads_processing"
  {
  }

  lemma AffiliationReportWellFormed()
    ensures WellFormedTool(AffiliationReport())
    ensures forall x :: x in InputParamNames(AffiliationReport()) <==> x in AffiliationReportDigest().inputs
    ensures forall x :: x in DeclaredOutputKeys(AffiliationReport()) <==> x in AffiliationReportDigest().outputKeys
  {
    AffiliationReportDigestComputed();
    AffiliationReportDistinct();
    AffiliationReportHeader();
    ParamFactsFromDigest(AffiliationReport(), AffiliationReportDigest());
  }

  /** The digest of `TOOLS["tree"]`. */
  function TreeDigest(): Digest {
    Digest(["tree", "html", "log"], ["input_fasta", "input_biom"], true)
  }

  lemma TreeDigestFrom3()
    ensures DigestFrom(Tree().params, 3) == Digest(["tree", "html", "log"], ["input_biom"], true)
  {
  }

  lemma TreeDigestComputed()
    ensures DigestFrom(Tree().params, 0) == TreeDigest()
  {
    TreeDigestFrom3();
  }

  lemma TreeDistinct()
    ensures NoDup(TreeDigest().outputKeys) && TreeDigest().keysOnOutputs
  {
  }

  lemma TreeHeader()
    ensures Tree().pipelineStep == Some(Tree().name)
    ensures Tree().isOptional == (Tree().name in OptionalSteps())
    ensures Tree().hasSubparser <==> Tree().name == "reads_processing"
  {
  }

  lemma TreeWellFormed()
    ensures WellFormedTool(Tree())
    ensures forall x :: x in InputParamNames(Tree()) <==> x in TreeDigest().inputs
    ensures forall x :: x in DeclaredOutputKeys(Tree()) <==> x in TreeDigest().outputKeys
  {
    TreeDigestComputed();
    TreeDistinct();
    TreeHeader();
    ParamFactsFromDigest(Tree(), TreeDigest());
  }

  /** The digest of `TOOLS["normalisation"]`. */
  function NormalisationDigest(): Digest {
    Digest(["biom", "fasta", "html", "log"], ["input_biom", "input_fasta"], true)
  }

  lemma NormalisationDigestFrom6()
    ensures DigestFrom(Normalisation().params, 6) == Digest(["biom", "fasta", "html", "log"], [], true)
  {
  }

  lemma NormalisationDigestFrom2()
    ensures DigestFrom(Normalisation().params, 2) == Digest(["biom", "fasta", "html", "log"], ["input_biom", "input_fasta"], true)
  {
    NormalisationDigestFrom6();
  }

  lemma NormalisationDigestComputed()
    ensures DigestFrom(Normalisation().params, 0) == NormalisationDigest()
  {
    NormalisationDigestFrom2();
  }

  lemma NormalisationDistinct()
    ensures NoDup(NormalisationDigest().outputKeys) && NormalisationDigest().keysOnOutputs
  {
  }

  lemma NormalisationHeader()
    ensures Normalisation().pipelineStep == Some(Normalisation().name)
    ensures Normalisation().isOptional == (Normalisation().name in OptionalSteps())
    ensures Normalisation().hasSubparser <==> Normalisation().name == "reads_processing"
  {
  }

  lemma NormalisationWellFormed()
    ensures WellFormedTool(Normalisation())
    ensures forall x :: x in InputParamNames(Normalisation()) <==> x in NormalisationDigest().inputs
    ensures forall x :: x in DeclaredOutputKeys(Normalisation()) <==> x in NormalisationDigest().outputKeys
  {
    NormalisationDigestComputed();
    NormalisationDistinct();
    NormalisationHeader();
    ParamFactsFromDigest(Normalisation(), NormalisationDigest());
  }

  /** The digest of `TOOLS["phyloseq_import"]`. */
  function PhyloseqImportDigest(): Digest {
    Digest(["rdata", "html", "log"], ["input_biom", "sample_metadata_tsv", "tree_nwk"], true)
  }

  lemma PhyloseqImportDigestFrom5()
    ensures DigestFrom(PhyloseqImport().params, 5) == Digest(["rdata", "html", "log"], ["tree_nwk"], true)
  {
  }

  lemma PhyloseqImportDigestFrom1()
    ensures DigestFrom(PhyloseqImport().params, 1) == Digest(["rdata", "html", "log"], ["input_biom", "sample_metadata_tsv", "tree_nwk"], true)
  {
    PhyloseqImportDigestFrom5();
  }

  lemma PhyloseqImportDigestComputed()
    ensures DigestFrom(PhyloseqImport().params, 0) == PhyloseqImportDigest()
  {
    PhyloseqImportDigestFrom1();
  }

  lemma PhyloseqImportDistinct()
    ensures NoDup(PhyloseqImportDigest().outputKeys) && PhyloseqImportDigest().keysOnOutputs
  {
  }

  lemma PhyloseqImportHeader()
    ensures PhyloseqImport().pipelineStep == Some(PhyloseqImport().name)
    ensures PhyloseqImport().isOptional == (PhyloseqImport().name in OptionalSteps())
    ensures PhyloseqImport().hasSubparser <==> PhyloseqImport().name == "reads_processing"
  {
  }

  lemma PhyloseqImportWellFormed()
    ensures WellFormedTool(PhyloseqImport())
    ensures forall x :: x in InputParamNames(PhyloseqImport()) <==> x in PhyloseqImportDigest().inputs
    ensures forall x :: x in DeclaredOutputKeys(PhyloseqImport()) <==> x in PhyloseqImportDigest().outputKeys
  {
    PhyloseqImportDigestComputed();
    PhyloseqImportDistinct();
    PhyloseqImportHeader();
    ParamFactsFromDigest(PhyloseqImport(), PhyloseqImportDigest());
  }

  /** The digest of `TOOLS["phyloseq_composition"]`. */
  function PhyloseqCompositionDigest(): Digest {
    Digest(["html", "log"], ["phyloseq_rdata"], true)
  }

  lemma PhyloseqCompositionDigestFrom5()
    ensures DigestFrom(PhyloseqComposition().params, 5) == Digest(["html", "log"], ["phyloseq_rdata"], true)
  {
  }

  lemma PhyloseqCompositionDigestFrom1()
    ensures DigestFrom(PhyloseqComposition().params, 1) == Digest(["html", "log"], ["phyloseq_rdata"], true)
  {
    PhyloseqCompositionDigestFrom5();
  }

  lemma PhyloseqCompositionDigestComputed()
    ensures DigestFrom(PhyloseqComposition().params, 0) == PhyloseqCompositionDigest()
  {
    PhyloseqCompositionDigestFrom1();
  }

  lemma PhyloseqCompositionDistinct()
    ensures NoDup(PhyloseqCompositionDigest().outputKeys) && PhyloseqCompositionDigest().keysOnOutputs
  {
  }

  lemma PhyloseqCompositionHeader()
    ensures PhyloseqComposition().pipelineStep == Some(PhyloseqComposition().name)
    ensures PhyloseqComposition().isOptional == (PhyloseqComposition().name in OptionalSteps())
    ensures PhyloseqComposition().hasSubparser <==> PhyloseqComposition().name == "reads_processing"
  {
  }

  lemma PhyloseqCompositionWellFormed()
    ensures WellFormedTool(PhyloseqComposition())
    ensures forall x :: x in InputParamNames(PhyloseqComposition()) <==> x in PhyloseqCompositionDigest().inputs
    ensures forall x :: x in DeclaredOutputKeys(PhyloseqComposition()) <==> x in PhyloseqCompositionDigest().outputKeys
  {
    PhyloseqCompositionDigestComputed();
    PhyloseqCompositionDistinct();
    PhyloseqCompositionHeader();
    ParamFactsFromDigest(PhyloseqComposition(), PhyloseqCompositionDigest());
  }

  /** The digest of `TOOLS["phyloseq_alpha_diversity"]`. */
  function PhyloseqAlphaDiversityDigest(): Digest {
    Digest(["alpha_tsv", "html", "log"], ["phyloseq_rdata"], true)
  }

  lemma PhyloseqAlphaDiversityDigestFrom3()
    ensures DigestFrom(PhyloseqAlphaDiversity().params, 3) == Digest(["alpha_tsv", "html", "log"], ["phyloseq_rdata"], true)
  {
  }

  lemma PhyloseqAlphaDiversityDigestComputed()
    ensures DigestFrom(PhyloseqAlphaDiversity().params, 0) == PhyloseqAlphaDiversityDigest()
  {
    PhyloseqAlphaDiversityDigestFrom3();
  }

  lemma PhyloseqAlphaDiversityDistinct()
    ensures NoDup(PhyloseqAlphaDiversityDigest().outputKeys) && PhyloseqAlphaDiversityDigest().keysOnOutputs
  {
  }

  lemma PhyloseqAlphaDiversityHeader()
    ensures PhyloseqAlphaDiversity().pipelineStep == Some(PhyloseqAlphaDiversity().name)
    ensures PhyloseqAlphaDiversity().isOptional == (PhyloseqAlphaDiversity().name in OptionalSteps())
    ensures PhyloseqAlphaDiversity().hasSubparser <==> PhyloseqAlphaDiversity().name == "reads_processing"
  {
  }

  lemma PhyloseqAlphaDiversityWellFormed()
    ensures WellFormedTool(PhyloseqAlphaDiversity())
    ensures forall x :: x in InputParamNames(PhyloseqAlphaDiversity()) <==> x in PhyloseqAlphaDiversityDigest().inputs
    ensures forall x :: x in DeclaredOutputKeys(PhyloseqAlphaDiversity()) <==> x in PhyloseqAlphaDiversityDigest().outputKeys
  {
    PhyloseqAlphaDiversityDigestComputed();
    PhyloseqAlphaDiversityDistinct();
    PhyloseqAlphaDiversityHeader();
    ParamFactsFromDigest(PhyloseqAlphaDiversity(), PhyloseqAlphaDiversityDigest());
  }

  /** The digest of `TOOLS["demultiplex"]`. */
  function DemultiplexDigest(): Digest {
    Digest(["demux_archive", "undemux_archive", "summary_tsv", "log"], ["input_R1", "input_R2", "input_barcode"], true)
  }

  lemma DemultiplexDigestFrom6()
    ensures DigestFrom(Demultiplex().params, 6) == Digest(["demux_archive", "undemux_archive", "summary_tsv", "log"], [], true)
  {
  }

  lemma DemultiplexDigestFrom2()
    ensures DigestFrom(Demultiplex().params, 2) == Digest(["demux_archive", "undemux_archive", "summary_tsv", "log"], ["input_R1", "input_R2", "input_barcode"], true)
  {
    DemultiplexDigestFrom6();
  }

  lemma DemultiplexDigestComputed()
    ensures DigestFrom(Demultiplex().params, 0) == DemultiplexDigest()
  {
    DemultiplexDigestFrom2();
  }

  lemma DemultiplexDistinct()
    ensures NoDup(DemultiplexDigest().outputKeys) && DemultiplexDigest().keysOnOutputs
  {
  }

  lemma DemultiplexHeader()
    ensures Demultiplex().pipelineStep == Some(Demultiplex().name)
    ensures Demultiplex().isOptional == (Demultiplex().name in OptionalSteps())
    ensures Demultiplex().hasSubparser <==> Demultiplex().name == "reads_processing"
  {
  }

  lemma DemultiplexWellFormed()
    ensures WellFormedTool(Demultiplex())
    ensures forall x :: x in InputParamNames(Demultiplex()) <==> x in DemultiplexDigest().inputs
    ensures forall x :: x in DeclaredOutputKeys(Demultiplex()) <==> x in DemultiplexDigest().outputKeys
  {
    DemultiplexDigestComputed();
    DemultiplexDistinct();
    DemultiplexHeader();
    ParamFactsFromDigest(Demultiplex(), DemultiplexDigest());
  }

  /** The digest of `TOOLS["clustering"]`. */
  function ClusteringDigest(): Digest {
    Digest(["biom", "fasta", "compo", "log"], ["input_fasta", "input_count"], true)
  }

  lemma ClusteringDigestFrom7()
    ensures DigestFrom(Clustering().params, 7) == Digest(["biom", "fasta", "compo", "log"], [], true)
  {
  }

  lemma ClusteringDigestFrom3()
    ensures DigestFrom(Clustering().params, 3) == Digest(["biom", "fasta", "compo", "log"], ["input_fasta", "input_count"], true)
  {
    ClusteringDigestFrom7();
  }

  lemma ClusteringDigestComputed()
    ensures DigestFrom(Clustering().params, 0) == ClusteringDigest()
  {
    ClusteringDigestFrom3();
  }

  lemma ClusteringDistinct()
    ensures NoDup(ClusteringDigest().outputKeys) && ClusteringDigest().keysOnOutputs
  {
  }

  lemma ClusteringHeader()
    ensures Clustering().pipelineStep == Some(Clustering().name)
    ensures Clustering().isOptional == (Clustering().name in OptionalSteps())
    ensures Clustering().hasSubparser <==> Clustering().name == "reads_processing"
  {
  }

  lemma ClusteringWellFormed()
    ensures WellFormedTool(Clustering())
    ensures forall x :: x in InputParamNames(Clustering()) <==> x in ClusteringDigest().inputs
    ensures forall x :: x in DeclaredOutputKeys(Clustering()) <==> x in ClusteringDigest().outputKeys
  {
    ClusteringDigestComputed();
    ClusteringDistinct();
    ClusteringHeader();
    ParamFactsFromDigest(Clustering(), ClusteringDigest());
  }

  /** The digest of `TOOLS["itsx"]`. */
  function ItsxDigest(): Digest {
    Digest(["fasta", "biom", "removed_fasta", "html", "log"], ["input_fasta", "input_biom"], true)
  }

  lemma ItsxDigestFrom8()
    ensures DigestFrom(Itsx().params, 8) == Digest(["biom", "removed_fasta", "html", "log"], [], true)
  {
  }

  lemma ItsxDigestFrom4()
    ensures DigestFrom(Itsx().params, 4) == Digest(["fasta", "biom", "removed_fasta", "html", "log"], ["input_fasta", "input_biom"], true)
  {
    ItsxDigestFrom8();
  }

  lemma ItsxDigestComputed()
    ensures DigestFrom(Itsx().params, 0) == ItsxDigest()
  {
    ItsxDigestFrom4();
  }

  lemma ItsxDistinct()
    ensures NoDup(ItsxDigest().outputKeys) && ItsxDigest().keysOnOutputs
  {
  }

  lemma ItsxHeader()
    ensures Itsx().pipelineStep == Some(Itsx().name)
    ensures Itsx().isOptional == (Itsx().name in OptionalSteps())
    ensures Itsx().hasSubparser <==> Itsx().name == "reads_processing"
  {
  }

  lemma ItsxWellFormed()
    ensures WellFormedTool(Itsx())
    ensures forall x :: x in InputParamNames(Itsx()) <==> x in ItsxDigest().inputs
    ensures forall x :: x in DeclaredOutputKeys(Itsx()) <==> x in ItsxDigest().outputKeys
  {
    ItsxDigestComputed();
    ItsxDistinct();
    ItsxHeader();
    ParamFactsFromDigest(Itsx(), ItsxDigest());
  }

  /** The digest of `TOOLS["biom_to_tsv"]`. */
  function BiomToTsvDigest(): Digest {
    Digest(["tsv", "multi_affi_tsv", "log"], ["input_biom", "input_fasta"], true)
  }

  lemma BiomToTsvDigestFrom3()
    ensures DigestFrom(BiomToTsv().params, 3) == Digest(["tsv", "multi_affi_tsv", "log"], ["input_fasta"], true)
  {
  }

  lemma BiomToTsvDigestComputed()
    ensures DigestFrom(BiomToTsv().params, 0) == BiomToTsvDigest()
  {
    BiomToTsvDigestFrom3();
  }

  lemma BiomToTsvDistinct()
    ensures NoDup(BiomToTsvDigest().outputKeys) && BiomToTsvDigest().keysOnOutputs
  {
  }

  lemma BiomToTsvHeader()
    ensures BiomToTsv().pipelineStep == Some(BiomToTsv().name)
    ensures BiomToTsv().isOptional == (BiomToTsv().name in OptionalSteps())
    ensures BiomToTsv().hasSubparser <==> BiomToTsv().name == "reads_processing"
  {
  }

  lemma BiomToTsvWellFormed()
    ensures WellFormedTool(BiomToTsv())
    ensures forall x :: x in InputParamNames(BiomToTsv()) <==> x in BiomToTsvDigest().inputs
    ensures forall x :: x in DeclaredOutputKeys(BiomToTsv()) <==> x in BiomToTsvDigest().outputKeys
  {
    BiomToTsvDigestComputed();
    BiomToTsvDistinct();
    BiomToTsvHeader();
    ParamFactsFromDigest(BiomToTsv(), BiomToTsvDigest());
  }

  /** The digest of `TOOLS["tsv_to_biom"]`. */
  function TsvToBiomDigest(): Digest {
    Digest(["biom", "fasta", "log"], ["input_tsv", "input_multi_affi"], true)
  }

  lemma TsvToBiomDigestFrom2()
    ensures DigestFrom(TsvToBiom().params, 2) == Digest(["biom", "fasta", "log"], ["input_multi_affi"], true)
  {
  }

  lemma TsvToBiomDigestComputed()
    ensures DigestFrom(TsvToBiom().params, 0) == TsvToBiomDigest()
  {
    TsvToBiomDigestFrom2();
  }

  lemma TsvToBiomDistinct()
    ensures NoDup(TsvToBiomDigest().outputKeys) && TsvToBiomDigest().keysOnOutputs
  {
  }

  lemma TsvToBiomHeader()
    ensures TsvToBiom().pipelineStep == Some(TsvToBiom().name)
    ensures TsvToBiom().isOptional == (TsvToBiom().name in OptionalSteps())
    ensures TsvToBiom().hasSubparser <==> TsvToBiom().name == "reads_processing"
  {
  }

  lemma TsvToBiomWellFormed()
    ensures WellFormedTool(TsvToBiom())
    ensures forall x :: x in InputParamNames(TsvToBiom()) <==> x in TsvToBiomDigest().inputs
    ensures forall x :: x in DeclaredOutputKeys(TsvToBiom()) <==> x in TsvToBiomDigest().outputKeys
  {
    TsvToBiomDigestComputed();
    TsvToBiomDistinct();
    TsvToBiomHeader();
    ParamFactsFromDigest(TsvToBiom(), TsvToBiomDigest());
  }

  /** The digest of `TOOLS["biom_to_stdBiom"]`. */
  function BiomToStdBiomDigest(): Digest {
    Digest(["biom", "metadata_tsv", "log"], ["input_biom"], true)
  }

  lemma BiomToStdBiomDigestFrom1()
    ensures DigestFrom(BiomToStdBiom().params, 1) == Digest(["biom", "metadata_tsv", "log"], ["input_biom"], true)
  {
  }

  lemma BiomToStdBiomDigestComputed()
    ensures DigestFrom(BiomToStdBiom().params, 0) == BiomToStdBiomDigest()
  {
    BiomToStdBiomDigestFrom1();
  }

  lemma BiomToStdBiomDistinct()
    ensures NoDup(BiomToStdBiomDigest().outputKeys) && BiomToStdBiomDigest().keysOnOutputs
  {
  }

  lemma BiomToStdBiomHeader()
    ensures BiomToStdBiom().pipelineStep == Some(BiomToStdBiom().name)
    ensures BiomToStdBiom().isOptional == (BiomToStdBiom().name in OptionalSteps())
    ensures BiomToStdBiom().hasSubparser <==> BiomToStdBiom().name == "reads_processing"
  {
  }

  lemma BiomToStdBiomWellFormed()
    ensures WellFormedTool(BiomToStdBiom())
    ensures forall x :: x in InputParamNames(BiomToStdBiom()) <==> x in BiomToStdBiomDigest().inputs
    ensures forall x :: x in DeclaredOutputKeys(BiomToStdBiom()) <==> x in BiomToStdBiomDigest().outputKeys
  {
    BiomToStdBiomDigestComputed();
    BiomToStdBiomDistinct();
    BiomToStdBiomHeader();
    ParamFactsFromDigest(BiomToStdBiom(), BiomToStdBiomDigest());
  }

  /** The digest of `TOOLS["cluster_asv_report"]`. */
  function ClusterAsvReportDigest(): Digest {
    Digest(["html", "log"], ["input_biom"], true)
  }

  lemma ClusterAsvReportDigestFrom3()
    ensures DigestFrom(ClusterAsvReport().params, 3) == Digest(["html", "log"], ["input_biom"], true)
  {
  }

  lemma ClusterAsvReportDigestComputed()
    ensures DigestFrom(ClusterAsvReport().params, 0) == ClusterAsvReportDigest()
  {
    ClusterAsvReportDigestFrom3();
  }

  lemma ClusterAsvReportDistinct()
    ensures NoDup(ClusterAsvReportDigest().outputKeys) && ClusterAsvReportDigest().keysOnOutputs
  {
  }

  lemma ClusterAsvReportHeader()
    ensures ClusterAsvReport().pipelineStep == Some(ClusterAsvReport().name)
    ensures ClusterAsvReport().isOptional == (ClusterAsvReport().name in OptionalSteps())
    ensures ClusterAsvReport().hasSubparser <==> ClusterAsvReport().name == "reads_processing"
  {
  }

  lemma ClusterAsvReportWellFormed()
    ensures WellFormedTool(ClusterAsvReport())
    ensures forall x :: x in InputParamNames(ClusterAsvReport()) <==> x in ClusterAsvReportDigest().inputs
    ensures forall x :: x in DeclaredOutputKeys(ClusterAsvReport()) <==> x in ClusterAsvReportDigest().outputKeys
  {
    ClusterAsvReportDigestComputed();
    ClusterAsvReportDistinct();
    ClusterAsvReportHeader();
    ParamFactsFromDigest(ClusterAsvReport(), ClusterAsvReportDigest());
  }

  /** The digest of `TOOLS["phyloseq_beta_diversity"]`. */
  function PhyloseqBetaDiversityDigest(): Digest {
    Digest(["beta_matrix_dir", "html", "log"], ["phyloseq_rdata"], true)
  }

  lemma PhyloseqBetaDiversityDigestFrom3()
    ensures DigestFrom(PhyloseqBetaDiversity().params, 3) == Digest(["beta_matrix_dir", "html", "log"], ["phyloseq_rdata"], true)
  {
  }

  lemma PhyloseqBetaDiversityDigestComputed()
    ensures DigestFrom(PhyloseqBetaDiversity().params, 0) == PhyloseqBetaDiversityDigest()
  {
    PhyloseqBetaDiversityDigestFrom3();
  }

  lemma PhyloseqBetaDiversityDistinct()
    ensures NoDup(PhyloseqBetaDiversityDigest().outputKeys) && PhyloseqBetaDiversityDigest().keysOnOutputs
  {
  }

  lemma PhyloseqBetaDiversityHeader()
    ensures PhyloseqBetaDiversity().pipelineStep == Some(PhyloseqBetaDiversity().name)
    ensures PhyloseqBetaDiversity().isOptional == (PhyloseqBetaDiversity().name in OptionalSteps())
    ensures PhyloseqBetaDiversity().hasSubparser <==> PhyloseqBetaDiversity().name == "reads_processing"
  {
  }

  lemma PhyloseqBetaDiversityWellFormed()
    ensures WellFormedTool(PhyloseqBetaDiversity())
    ensures forall x :: x in InputParamNames(PhyloseqBetaDiversity()) <==> x in PhyloseqBetaDiversityDigest().inputs
    ensures forall x :: x in DeclaredOutputKeys(PhyloseqBetaDiversity()) <==> x in PhyloseqBetaDiversityDigest().outputKeys
  {
    PhyloseqBetaDiversityDigestComputed();
    PhyloseqBetaDiversityDistinct();
    PhyloseqBetaDiversityHeader();
    ParamFactsFromDigest(PhyloseqBetaDiversity(), PhyloseqBetaDiversityDigest());
  }

  /** The digest of `TOOLS["phyloseq_clustering"]`. */
  function PhyloseqClusteringDigest(): Digest {
    Digest(["html", "log"], ["phyloseq_rdata", "beta_distance_matrix"], true)
  }

  lemma PhyloseqClusteringDigestFrom2()
    ensures DigestFrom(PhyloseqClustering().params, 2) == Digest(["html", "log"], ["phyloseq_rdata", "beta_distance_matrix"], true)
  {
  }

  lemma PhyloseqClusteringDigestComputed()
    ensures DigestFrom(PhyloseqClustering().params, 0) == PhyloseqClusteringDigest()
  {
    PhyloseqClusteringDigestFrom2();
  }

  lemma PhyloseqClusteringDistinct()
    ensures NoDup(PhyloseqClusteringDigest().outputKeys) && PhyloseqClusteringDigest().keysOnOutputs
  {
  }

  lemma PhyloseqClusteringHeader()
    ensures PhyloseqClustering().pipelineStep == Some(PhyloseqClustering().name)
    ensures PhyloseqClustering().isOptional == (PhyloseqClustering().name in OptionalSteps())
    ensures PhyloseqClustering().hasSubparser <==> PhyloseqClustering().name == "reads_processing"
  {
  }

  lemma PhyloseqClusteringWellFormed()
    ensures WellFormedTool(PhyloseqClustering())
    ensures forall x :: x in InputParamNames(PhyloseqClustering()) <==> x in PhyloseqClusteringDigest().inputs
    ensures forall x :: x in DeclaredOutputKeys(PhyloseqClustering()) <==> x in PhyloseqClusteringDigest().outputKeys
  {
    PhyloseqClusteringDigestComputed();
    PhyloseqClusteringDistinct();
    PhyloseqClusteringHeader();
    ParamFactsFromDigest(PhyloseqClustering(), PhyloseqClusteringDigest());
  }

  /** The digest of `TOOLS["phyloseq_structure"]`. */
  function PhyloseqStructureDigest(): Digest {
    Digest(["html", "log"], ["phyloseq_rdata", "beta_distance_matrix"], true)
  }

  lemma PhyloseqStructureDigestFrom3()
    ensures DigestFrom(PhyloseqStructure().params, 3) == Digest(["html", "log"], ["phyloseq_rdata", "beta_distance_matrix"], true)
  {
  }

  lemma PhyloseqStructureDigestComputed()
    ensures DigestFrom(PhyloseqStructure().params, 0) == PhyloseqStructureDigest()
  {
    PhyloseqStructureDigestFrom3();
  }

  lemma PhyloseqStructureDistinct()
    ensures NoDup(PhyloseqStructureDigest().outputKeys) && PhyloseqStructureDigest().keysOnOutputs
  {
  }

  lemma PhyloseqStructureHeader()
    ensures PhyloseqStructure().pipelineStep == Some(PhyloseqStructure().name)
    ensures PhyloseqStructure().isOptional == (PhyloseqStructure().name in OptionalSteps())
    ensures PhyloseqStructure().hasSubparser <==> PhyloseqStructure().name == "reads_processing"
  {
  }

  lemma PhyloseqStructureWellFormed()
    ensures WellFormedTool(PhyloseqStructure())
    ensures forall x :: x in InputParamNames(PhyloseqStructure()) <==> x in PhyloseqStructureDigest().inputs
    ensures forall x :: x in DeclaredOutputKeys(PhyloseqStructure()) <==> x in PhyloseqStructureDigest().outputKeys
  {
    PhyloseqStructureDigestComputed();
    PhyloseqStructureDistinct();
    PhyloseqStructureHeader();
    ParamFactsFromDigest(PhyloseqStructure(), PhyloseqStructureDigest());
  }

  /** The digest of `TOOLS["phyloseq_manova"]`. */
  function PhyloseqManovaDigest(): Digest {
    Digest(["html", "log"], ["phyloseq_rdata", "beta_distance_matrix"], true)
  }

  lemma PhyloseqManovaDigestFrom2()
    ensures DigestFrom(PhyloseqManova().params, 2) == Digest(["html", "log"], ["phyloseq_rdata", "beta_distance_matrix"], true)
  {
  }

  lemma PhyloseqManovaDigestComputed()
    ensures DigestFrom(PhyloseqManova().params, 0) == PhyloseqManovaDigest()
  {
    PhyloseqManovaDigestFrom2();
  }

  lemma PhyloseqManovaDistinct()
    ensures NoDup(PhyloseqManovaDigest().outputKeys) && PhyloseqManovaDigest().keysOnOutputs
  {
  }

  lemma PhyloseqManovaHeader()
    ensures PhyloseqManova().pipelineStep == Some(PhyloseqManova().name)
    ensures PhyloseqManova().isOptional == (PhyloseqManova().name in OptionalSteps())
    ensures PhyloseqManova().hasSubparser <==> PhyloseqManova().name == "reads_processing"
  {
  }

  lemma PhyloseqManovaWellFormed()
    ensures WellFormedTool(PhyloseqManova())
    ensures forall x :: x in InputParamNames(PhyloseqManova()) <==> x in PhyloseqManovaDigest().inputs
    ensures forall x :: x in DeclaredOutputKeys(PhyloseqManova()) <==> x in PhyloseqManovaDigest().outputKeys
  {
    PhyloseqManovaDigestComputed();
    PhyloseqManovaDistinct();
    PhyloseqManovaHeader();
    ParamFactsFromDigest(PhyloseqManova(), PhyloseqManovaDigest());
  }

  /** The digest of `TOOLS["deseq2_preprocess"]`. */
  function Deseq2PreprocessDigest(): Digest {
    Digest(["deseq_rdata", "rdata", "log"], ["phyloseq_rdata", "input_functions_abund", "sample_metadata_tsv"], true)
  }

  lemma Deseq2PreprocessDigestFrom5()
    ensures DigestFrom(Deseq2Preprocess().params, 5) == Digest(["deseq_rdata", "rdata", "log"], ["sample_metadata_tsv"], true)
  {
  }

  lemma Deseq2PreprocessDigestFrom1()
    ensures DigestFrom(Deseq2Preprocess().params, 1) == Digest(["deseq_rdata", "rdata", "log"], ["phyloseq_rdata", "input_functions_abund", "sample_metadata_tsv"], true)
  {
    Deseq2PreprocessDigestFrom5();
  }

  lemma Deseq2PreprocessDigestComputed()
    ensures DigestFrom(Deseq2Preprocess().params, 0) == Deseq2PreprocessDigest()
  {
    Deseq2PreprocessDigestFrom1();
  }

  lemma Deseq2PreprocessDistinct()
    ensures NoDup(Deseq2PreprocessDigest().outputKeys) && Deseq2PreprocessDigest().keysOnOutputs
  {
  }

  lemma Deseq2PreprocessHeader()
    ensures Deseq2Preprocess().pipelineStep == Some(Deseq2Preprocess().name)
    ensures Deseq2Preprocess().isOptional == (Deseq2Preprocess().name in OptionalSteps())
    ensures Deseq2Preprocess().hasSubparser <==> Deseq2Preprocess().name == "reads_processing"
  {
  }

  lemma Deseq2PreprocessWellFormed()
    ensures WellFormedTool(Deseq2Preprocess())
    ensures forall x :: x in InputParamNames(Deseq2Preprocess()) <==> x in Deseq2PreprocessDigest().inputs
    ensures forall x :: x in DeclaredOutputKeys(Deseq2Preprocess()) <==> x in Deseq2PreprocessDigest().outputKeys
  {
    Deseq2PreprocessDigestComputed();
    Deseq2PreprocessDistinct();
    Deseq2PreprocessHeader();
    ParamFactsFromDigest(Deseq2Preprocess(), Deseq2PreprocessDigest());
  }

  /** The digest of `TOOLS["deseq2_visualisation"]`. */
  function Deseq2VisualisationDigest(): Digest {
    Digest(["ipath_over_tsv", "ipath_under_tsv", "html", "log"], ["phyloseq_rdata", "deseq_rdata"], true)
  }

  lemma Deseq2VisualisationDigestFrom8()
    ensures DigestFrom(Deseq2Visualisation().params, 8) == Digest(["ipath_over_tsv", "ipath_under_tsv", "html", "log"], [], true)
  {
  }

  lemma Deseq2VisualisationDigestFrom4()
    ensures DigestFrom(Deseq2Visualisation().params, 4) == Digest(["ipath_over_tsv", "ipath_under_tsv", "html", "log"], ["phyloseq_rdata", "deseq_rdata"], true)
  {
    Deseq2VisualisationDigestFrom8();
  }

  lemma Deseq2VisualisationDigestComputed()
    ensures DigestFrom(Deseq2Visualisation().params, 0) == Deseq2VisualisationDigest()
  {
    Deseq2VisualisationDigestFrom4();
  }

  lemma Deseq2VisualisationDistinct()
    ensures NoDup(Deseq2VisualisationDigest().outputKeys) && Deseq2VisualisationDigest().keysOnOutputs
  {
  }

  lemma Deseq2VisualisationHeader()
    ensures Deseq2Visualisation().pipelineStep == Some(Deseq2Visualisation().name)
    ensures Deseq2Visualisation().isOptional == (Deseq2Visualisation().name in OptionalSteps())
    ensures Deseq2Visualisation().hasSubparser <==> Deseq2Visualisation().name == "reads_processing"
  {
  }

  lemma Deseq2VisualisationWellFormed()
    ensures WellFormedTool(Deseq2Visualisation())
    ensures forall x :: x in InputParamNames(Deseq2Visualisation()) <==> x in Deseq2VisualisationDigest().inputs
    ensures forall x :: x in DeclaredOutputKeys(Deseq2Visualisation()) <==> x in Deseq2VisualisationDigest().outputKeys
  {
    Deseq2VisualisationDigestComputed();
    Deseq2VisualisationDistinct();
    Deseq2VisualisationHeader();
    ParamFactsFromDigest(Deseq2Visualisation(), Deseq2VisualisationDigest());
  }

  /** The digest of `TOOLS["frogsfunc_placeseqs"]`. */
  function FrogsfuncPlaceseqsDigest(): Digest {
    Digest(["tree", "fasta", "biom", "excluded_txt", "marker_copy_tsv", "html", "log"], ["input_fasta", "input_biom", "ref_dir"], true)
  }

  lemma FrogsfuncPlaceseqsDigestFrom11()
    ensures DigestFrom(FrogsfuncPlaceseqs().params, 11) == Digest(["excluded_txt", "marker_copy_tsv", "html", "log"], [], true)
  {
  }

  lemma FrogsfuncPlaceseqsDigestFrom7()
    ensures DigestFrom(FrogsfuncPlaceseqs().params, 7) == Digest(["tree", "fasta", "biom", "excluded_txt", "marker_copy_tsv", "html", "log"], ["ref_dir"], true)
  {
    FrogsfuncPlaceseqsDigestFrom11();
  }

  lemma FrogsfuncPlaceseqsDigestFrom3()
    ensures DigestFrom(FrogsfuncPlaceseqs().params, 3) == Digest(["tree", "fasta", "biom", "excluded_txt", "marker_copy_tsv", "html", "log"], ["input_fasta", "input_biom", "ref_dir"], true)
  {
    FrogsfuncPlaceseqsDigestFrom7();
  }

  lemma FrogsfuncPlaceseqsDigestComputed()
    ensures DigestFrom(FrogsfuncPlaceseqs().params, 0) == FrogsfuncPlaceseqsDigest()
  {
    FrogsfuncPlaceseqsDigestFrom3();
  }

  lemma FrogsfuncPlaceseqsDistinct()
    ensures NoDup(FrogsfuncPlaceseqsDigest().outputKeys) && FrogsfuncPlaceseqsDigest().keysOnOutputs
  {
  }

  lemma FrogsfuncPlaceseqsHeader()
    ensures FrogsfuncPlaceseqs().pipelineStep == Some(FrogsfuncPlaceseqs().name)
    ensures FrogsfuncPlaceseqs().isOptional == (FrogsfuncPlaceseqs().name in OptionalSteps())
    ensures FrogsfuncPlaceseqs().hasSubparser <==> FrogsfuncPlaceseqs().name == "reads_processing"
  {
  }

  lemma FrogsfuncPlaceseqsWellFormed()
    ensures WellFormedTool(FrogsfuncPlaceseqs())
    ensures forall x :: x in InputParamNames(FrogsfuncPlaceseqs()) <==> x in FrogsfuncPlaceseqsDigest().inputs
    ensures forall x :: x in DeclaredOutputKeys(FrogsfuncPlaceseqs()) <==> x in FrogsfuncPlaceseqsDigest().outputKeys
  {
    FrogsfuncPlaceseqsDigestComputed();
    FrogsfuncPlaceseqsDistinct();
    FrogsfuncPlaceseqsHeader();
    ParamFactsFromDigest(FrogsfuncPlaceseqs(), FrogsfuncPlaceseqsDigest());
  }

  /** The digest of `TOOLS["frogsfunc_functions"]`. */
  function FrogsfuncFunctionsDigest(): Digest {
    Digest(["biom", "fasta", "nsti_tsv", "html", "log"], ["input_biom", "input_fasta", "input_tree", "input_marker_copy"], true)
  }

  lemma FrogsfuncFunctionsDigestFrom15()
    ensures DigestFrom(FrogsfuncFunctions().params, 15) == Digest(["nsti_tsv", "html", "log"], [], true)
  {
  }

  lemma FrogsfuncFunctionsDigestFrom12()
    ensures DigestFrom(FrogsfuncFunctions().params, 12) == Digest(["biom", "fasta", "nsti_tsv", "html", "log"], ["input_marker_copy"], true)
  {
    FrogsfuncFunctionsDigestFrom15();
  }

  lemma FrogsfuncFunctionsDigestFrom9()
    ensures DigestFrom(FrogsfuncFunctions().params, 9) == Digest(["biom", "fasta", "nsti_tsv", "html", "log"], ["input_biom", "input_fasta", "input_tree", "input_marker_copy"], true)
  {
    FrogsfuncFunctionsDigestFrom12();
  }

  lemma FrogsfuncFunctionsDigestFrom6()
    ensures DigestFrom(FrogsfuncFunctions().params, 6) == Digest(["biom", "fasta", "nsti_tsv", "html", "log"], ["input_biom", "input_fasta", "input_tree", "input_marker_copy"], true)
  {
    FrogsfuncFunctionsDigestFrom9();
  }

  lemma FrogsfuncFunctionsDigestFrom3()
    ensures DigestFrom(FrogsfuncFunctions().params, 3) == Digest(["biom", "fasta", "nsti_tsv", "html", "log"], ["input_biom", "input_fasta", "input_tree", "input_marker_copy"], true)
  {
    FrogsfuncFunctionsDigestFrom6();
  }

  lemma FrogsfuncFunctionsDigestComputed()
    ensures DigestFrom(FrogsfuncFunctions().params, 0) == FrogsfuncFunctionsDigest()
  {
    FrogsfuncFunctionsDigestFrom3();
  }

  lemma FrogsfuncFunctionsDistinct()
    ensures NoDup(FrogsfuncFunctionsDigest().outputKeys) && FrogsfuncFunctionsDigest().keysOnOutputs
  {
  }

  lemma FrogsfuncFunctionsHeader()
    ensures FrogsfuncFunctions().pipelineStep == Some(FrogsfuncFunctions().name)
    ensures FrogsfuncFunctions().isOptional == (FrogsfuncFunctions().name in OptionalSteps())
    ensures FrogsfuncFunctions().hasSubparser <==> FrogsfuncFunctions().name == "reads_processing"
  {
  }

  lemma FrogsfuncFunctionsWellFormed()
    ensures WellFormedTool(FrogsfuncFunctions())
    ensures forall x :: x in InputParamNames(FrogsfuncFunctions()) <==> x in FrogsfuncFunctionsDigest().inputs
    ensures forall x :: x in DeclaredOutputKeys(FrogsfuncFunctions()) <==> x in FrogsfuncFunctionsDigest().outputKeys
  {
    FrogsfuncFunctionsDigestComputed();
    FrogsfuncFunctionsDistinct();
    FrogsfuncFunctionsHeader();
    ParamFactsFromDigest(FrogsfuncFunctions(), FrogsfuncFunctionsDigest());
  }

  /** The digest of `TOOLS["frogsfunc_pathways"]`. */
  function FrogsfuncPathwaysDigest(): Digest {
    Digest(["pathways_tsv", "html", "log"], ["input_tsv", "input_asv_copy_norm", "input_fun_copy"], true)
  }

  lemma FrogsfuncPathwaysDigestFrom6()
    ensures DigestFrom(FrogsfuncPathways().params, 6) == Digest(["pathways_tsv", "html", "log"], ["input_fun_copy"], true)
  {
  }

  lemma FrogsfuncPathwaysDigestFrom2()
    ensures DigestFrom(FrogsfuncPathways().params, 2) == Digest(["pathways_tsv", "html", "log"], ["input_tsv", "input_asv_copy_norm", "input_fun_copy"], true)
  {
    FrogsfuncPathwaysDigestFrom6();
  }

  lemma FrogsfuncPathwaysDigestComputed()
    ensures DigestFrom(FrogsfuncPathways().params, 0) == FrogsfuncPathwaysDigest()
  {
    FrogsfuncPathwaysDigestFrom2();
  }

  lemma FrogsfuncPathwaysDistinct()
    ensures NoDup(FrogsfuncPathwaysDigest().outputKeys) && FrogsfuncPathwaysDigest().keysOnOutputs
  {
  }

  lemma FrogsfuncPathwaysHeader()
    ensures FrogsfuncPathways().pipelineStep == Some(FrogsfuncPathways().name)
    ensures FrogsfuncPathways().isOptional == (FrogsfuncPathways().name in OptionalSteps())
    ensures FrogsfuncPathways().hasSubparser <==> FrogsfuncPathways().name == "reads_processing"
  {
  }

  lemma FrogsfuncPathwaysWellFormed()
    ensures WellFormedTool(FrogsfuncPathways())
    ensures forall x :: x in InputParamNames(FrogsfuncPathways()) <==> x in FrogsfuncPathwaysDigest().inputs
    ensures forall x :: x in DeclaredOutputKeys(FrogsfuncPathways()) <==> x in FrogsfuncPathwaysDigest().outputKeys
  {
    FrogsfuncPathwaysDigestComputed();
    FrogsfuncPathwaysDistinct();
    FrogsfuncPathwaysHeader();
    ParamFactsFromDigest(FrogsfuncPathways(), FrogsfuncPathwaysDigest());
  }
}

=== FILE: command.dfy ===
/** `build_command`: turns a tool spec, the caller's parameter map and a job
    directory into the argument vector of the FROGS script and the map from
    output key to output path. The function raises instead of returning when
    the positional argument is missing or falsy, and when an output value is
    truthy but not a string (`os.path.isabs` rejects it). */
module Command {
  import opened Wrappers
  import opened Values
  import opened Catalogue
  import opened Paths

  /** `DEFAULT_NB_CPUS`. */
  const DefaultNbCpus: int := 4


  datatype BuildError =
    | MissingPositional(tool: string, param: string)
    | NotAPath(param: string)

  /** The interpreter and the directory holding the FROGS scripts. */
  datatype Launcher = Launcher(frogsPython: string, toolsDir: string)

  /** The argument vector and the resolved output files. */
  datatype Built = Built(argv: seq<string>, outputs: map<string, string>)

  /** Some parameter of `t` is called `name`. */
  predicate Declares(t: ToolSpec, name: string) {
    exists j :: 0 <= j < |t.params| && t.params[j].name == name
  }

  /** Some output-file parameter of `t` called `name` carries a default. */
  predicate HasOutputDefault(t: ToolSpec, name: string, n: nat)
    requires n <= |t.params|
  {
    exists j :: 0 <= j < n && t.params[j].name == name
                && t.params[j].isOutputFile && t.params[j].default != Null
  }

  // ---------------------------------------------------------------------
  // Defaults
  // ---------------------------------------------------------------------

  /** `merged` once the default-filling loop has seen `t.params[..n]`: a
      given value is copied, otherwise only an output-file parameter falls
      back to its default; the positional argument is skipped. */
  function Merge(t: ToolSpec, params: Params, n: nat): Params
    requires n <= |t.params|
  {
    if n == 0 then map[]
    else
      var m := Merge(t, params, n - 1);
      var p := t.params[n - 1];
      if p.name == t.subparserParam then m
      else if p.name in params then m[p.name := params[p.name]]
      else if p.default != Null && p.isOutputFile then m[p.name := p.default]
      else m
  }

  /** What `merged` holds: exactly the declared names other than the
      positional one that were given or name an output file with a default;
      given values are copied unchanged, and every other entry is the
      non-null default of an output-file parameter of that name. */
  lemma {:induction false} MergeContents(t: ToolSpec, params: Params, n: nat)
    requires n <= |t.params|
    ensures var m := Merge(t, params, n);
      forall k :: k in m <==>
        k != t.subparserParam && (exists j :: 0 <= j < n && t.params[j].name == k) &&
        (k in params || HasOutputDefault(t, k, n))
    ensures var m := Merge(t, params, n);
      forall k :: k in m && k in params ==> m[k] == params[k]
    ensures var m := Merge(t, params, n);
      forall k :: k in m && k !in params ==>
        exists j :: 0 <= j < n && t.params[j].name == k && t.params[j].isOutputFile
                    && m[k] == t.params[j].default && m[k] != Null
  {
    MergeKeys(t, params, n);
    MergeGiven(t, params, n);
    MergeDefaults(t, params, n);
  }

  /** The names `merged` holds after `t.params[..n]`. */
  lemma {:induction false} MergeKeys(t: ToolSpec, params: Params, n: nat)
    requires n <= |t.params|
    ensures var m := Merge(t, params, n);
      forall k :: k in m <==>
        k != t.subparserParam && (exists j :: 0 <= j < n && t.params[j].name == k) &&
        (k in params || HasOutputDefault(t, k, n))
  {
    if n > 0 {
      MergeKeys(t, params, n - 1);
      var m := Merge(t, params, n);
      forall k
        ensures k in m <==>
          k != t.subparserParam && (exists j :: 0 <= j < n && t.params[j].name == k) &&
          (k in params || HasOutputDefault(t, k, n))
      {
        PrefixStep(t, k, n);
      }
    }
  }

  /** Given values are copied into `merged` unchanged. */
  lemma {:induction false} MergeGiven(t: ToolSpec, params: Params, n: nat)
    requires n <= |t.params|
    ensures var m := Merge(t, params, n);
      forall k :: k in m && k in params ==> m[k] == params[k]
  {
    if n > 0 {
      MergeGiven(t, params, n - 1);
    }
  }

  /** Every entry of `merged` that was not given is the default of an
      output-file parameter of that name. */
  lemma {:induction false} MergeDefaults(t: ToolSpec, params: Params, n: nat)
    requires n <= |t.params|
    ensures var m := Merge(t, params, n);
      forall k :: k in m && k !in params ==>
        exists j :: 0 <= j < n && t.params[j].name == k && t.params[j].isOutputFile
                    && m[k] == t.params[j].default && m[k] != Null
  {
    if n > 0 {
      MergeDefaults(t, params, n - 1);
    }
  }

  /** Extending a prefix by one parameter adds exactly that parameter's name
      and, if it is an output file with a default, that default. */
  lemma PrefixStep(t: ToolSpec, k: string, n: nat)
    requires 0 < n <= |t.params|
    ensures (exists j :: 0 <= j < n && t.params[j].name == k) <==>
      (exists j :: 0 <= j < n - 1 && t.params[j].name == k) || t.params[n - 1].name == k
    ensures HasOutputDefault(t, k, n) <==>
      HasOutputDefault(t, k, n - 1) ||
      (t.params[n - 1].name == k && t.params[n - 1].isOutputFile && t.params[n - 1].default != Null)
  {
    if t.params[n - 1].name == k {
      assert exists j :: 0 <= j < n && t.params[j].name == k by {
        assert t.params[n - 1].name == k;
      }
    }
    if HasOutputDefault(t, k, n) {
      var j :| 0 <= j < n && t.params[j].name == k
               && t.params[j].isOutputFile && t.params[j].default != Null;
      if j < n - 1 {
        assert HasOutputDefault(t, k, n - 1);
      }
    }
  }

  // ---------------------------------------------------------------------
  // Output paths
  // ---------------------------------------------------------------------

  /** Where an output file ends up: relative names move under the job
      directory, absolute ones stay. */
  function Rebase(s: string, jobDir: string): (r: string)
    ensures IsAbs(s) ==> r == s
    ensures !IsAbs(s) ==> r == Join(jobDir, s)
    ensures IsAbs(jobDir) ==> IsAbs(r)
  {
    if IsAbs(s) then s else Join(jobDir, s)
  }

  /** The merged map and the resolved outputs while the output loop runs. */
  datatype Resolution = Resolution(merged: Params, outputs: map<string, string>)

  /** The values of `a` and `b` agree in kind: same keys, each value a string
      in one exactly when it is in the other, with the same truthiness. */
  predicate SameShape(a: Params, b: Params) {
    && a.Keys == b.Keys
    && (forall k :: k in a ==> (a[k].Str? <==> b[k].Str?))
    && (forall k :: k in a ==> (Truthy(a[k]) <==> Truthy(b[k])))
  }

  /** One iteration of the output loop for parameter `p`. */
  function ResolveStep(p: ParamSpec, r: Resolution, jobDir: string): (res: Result<Resolution, BuildError>)
    ensures !p.isOutputFile || p.name !in r.merged ==> res == Ok(r)
    ensures p.isOutputFile && p.name in r.merged && Truthy(r.merged[p.name]) && !r.merged[p.name].Str? ==>
      res == Err(NotAPath(p.name))
    ensures res.Ok? && p.isOutputFile && p.name in r.merged && Truthy(r.merged[p.name]) ==>
      var path := Rebase(r.merged[p.name].s, jobDir);
      && res.value.merged == r.merged[p.name := Str(path)]
      && res.value.outputs ==
           (if p.outputKey.Some? && p.outputKey.value != "" then r.outputs[p.outputKey.value := path]
            else r.outputs)
    ensures res.Ok? && p.name in r.merged && !Truthy(r.merged[p.name]) ==> res == Ok(r)
    ensures res.Ok? ==> SameShape(r.merged, res.value.merged)
  {
    if !p.isOutputFile || p.name !in r.merged then Ok(r)
    else
      var v := r.merged[p.name];
      if !Truthy(v) then Ok(r)
      else if !v.Str? then Err(NotAPath(p.name))
      else
        var path := if IsAbs(v.s) then v.s else Join(jobDir, v.s);
        var merged := if IsAbs(v.s) then r.merged else r.merged[p.name := Str(path)];
        assert merged == r.merged[p.name := Str(path)];
        var outputs := if p.outputKey.Some? && p.outputKey.value != "" then r.outputs[p.outputKey.value := path]
                       else r.outputs;
        Ok(Resolution(merged, outputs))
  }

  /** Every resolved output sits under a key some output-file parameter of
      `ps[..n]` declares, and is a non-empty path that is absolute whenever the
      job directory is. */
  predicate OutputsDeclared(ps: seq<ParamSpec>, n: nat, outputs: map<string, string>, jobDir: string)
    requires n <= |ps|
  {
    forall key :: key in outputs ==>
      && outputs[key] != ""
      && (IsAbs(jobDir) ==> IsAbs(outputs[key]))
      && exists j :: 0 <= j < n && ps[j].isOutputFile && ps[j].outputKey == Some(key)
  }

  /** The output loop over `t.params[..n]`. */
  function ResolveOutputs(t: ToolSpec, m: Params, jobDir: string, n: nat): (res: Result<Resolution, BuildError>)
    requires n <= |t.params|
    ensures res.Ok? ==> SameShape(m, res.value.merged)
    ensures res.Ok? ==> OutputsDeclared(t.params, n, res.value.outputs, jobDir)
    ensures res.Ok? ==> forall k :: k in m && !m[k].Str? ==> res.value.merged[k] == m[k]
    ensures res.Err? <==>
      exists j :: 0 <= j < n && t.params[j].isOutputFile && t.params[j].name in m
                  && Truthy(m[t.params[j].name]) && !m[t.params[j].name].Str?
    ensures res.Err? ==> res.error.NotAPath? && res.error.param in m && Truthy(m[res.error.param])
                         && !m[res.error.param].Str?
  {
    if n == 0 then Ok(Resolution(m, map[]))
    else
      var prev := ResolveOutputs(t, m, jobDir, n - 1);
      if prev.Err? then prev
      else
        var p := t.params[n - 1];
        var res := ResolveStep(p, prev.value, jobDir);
        if res.Ok? then
          ResolveStepKeepsDeclared(t.params, n, p, prev.value, res.value, jobDir);
          res
        else
          res
  }

  lemma ResolveStepKeepsDeclared(ps: seq<ParamSpec>, n: nat, p: ParamSpec, r: Resolution, r': Resolution, jobDir: string)
    requires 0 < n <= |ps| && p == ps[n - 1]
    requires OutputsDeclared(ps, n - 1, r.outputs, jobDir)
    requires ResolveStep(p, r, jobDir) == Ok(r')
    ensures OutputsDeclared(ps, n, r'.outputs, jobDir)
  {
    forall key | key in r'.outputs
      ensures r'.outputs[key] != "" && (IsAbs(jobDir) ==> IsAbs(r'.outputs[key]))
      ensures exists j :: 0 <= j < n && ps[j].isOutputFile && ps[j].outputKey == Some(key)
    {
      if key in r.outputs && r'.outputs[key] == r.outputs[key] {
        var j :| 0 <= j < n - 1 && ps[j].isOutputFile && ps[j].outputKey == Some(key);
      } else {
        var v := r.merged[p.name];
        assert p.outputKey == Some(key);
        JoinNonEmpty(jobDir, v.s);
      }
    }
  }

  lemma JoinNonEmpty(a: string, b: string)
    requires b != ""
    ensures Rebase(b, a) != ""
  {
  }

  // ---------------------------------------------------------------------
  // Flags
  // ---------------------------------------------------------------------

  /** Adds `nb_cpus` = `DEFAULT_NB_CPUS` when the tool declares it and the
      merged map has no entry for it. */
  function WithNbCpus(t: ToolSpec, m: Params): (r: Params)
    ensures Declares(t, "nb_cpus") && "nb_cpus" !in m ==> r == m["nb_cpus" := Int(DefaultNbCpus)]
    ensures !(Declares(t, "nb_cpus") && "nb_cpus" !in m) ==> r == m
  {
    if Declares(t, "nb_cpus") && "nb_cpus" !in m then m["nb_cpus" := Int(DefaultNbCpus)] else m
  }

  /** The tokens a list parameter's value stands for: the items of a list,
      otherwise the whitespace-separated words of its `str`. */
  function ListItems(v: Value): seq<string> {
    if v.List? then StrAll(v.items) else Split(StrOf(v))
  }

  /** The tokens parameter `p` contributes for merged value `v`. */
  function Segment(p: ParamSpec, v: Value): (r: seq<string>)
    ensures v == Null ==> r == []
    ensures v != Null && p.ptype == PBool ==> r == (if Truthy(v) then [p.cliFlag] else [])
    ensures v != Null && p.ptype == PList ==>
      r == (if ListItems(v) == [] then [] else [p.cliFlag] + ListItems(v))
    ensures v != Null && p.ptype != PBool && p.ptype != PList ==> r == [p.cliFlag, StrOf(v)]
  {
    if v == Null then []
    else match p.ptype
      case PBool => if Truthy(v) then [p.cliFlag] else []
      case PList =>
        var items := ListItems(v);
        if items == [] then [] else [p.cliFlag] + items
      case _ => [p.cliFlag, StrOf(v)]
  }

  /** The value the flag loop reads for `p` (`merged.get`), or nothing when
      the parameter is the positional one or has no flag. */
  function FlagValue(t: ToolSpec, p: ParamSpec, m: Params): Value {
    if p.name == t.subparserParam || p.cliFlag == "" || p.name !in m then Null else m[p.name]
  }

  /** The flag tokens of `t.params[..n]`, in spec order: the tokens of an
      earlier parameter are never moved by a later one. */
  function Flags(t: ToolSpec, m: Params, n: nat): (r: seq<string>)
    requires n <= |t.params|
    ensures forall j :: 0 <= j <= n ==> Flags(t, m, j) <= r
  {
    if n == 0 then []
    else
      var prev := Flags(t, m, n - 1);
      var r := prev + Segment(t.params[n - 1], FlagValue(t, t.params[n - 1], m));
      assert prev <= r;
      r
  }

  /** The tokens of `t.params[j]` follow those of every earlier parameter and
      precede those of every later one. */
  lemma FlagsLayout(t: ToolSpec, m: Params, j: nat, n: nat)
    requires j < n <= |t.params|
    ensures var a, b := |Flags(t, m, j)|, |Flags(t, m, j + 1)|;
      a <= b <= |Flags(t, m, n)| &&
      Flags(t, m, n)[a..b] == Segment(t.params[j], FlagValue(t, t.params[j], m))
  {
    var whole, upTo := Flags(t, m, n), Flags(t, m, j + 1);
    assert upTo <= whole;
    assert upTo == Flags(t, m, j) + Segment(t.params[j], FlagValue(t, t.params[j], m));
    assert whole[|Flags(t, m, j)|..|upTo|] == upTo[|Flags(t, m, j)|..];
  }

  // ---------------------------------------------------------------------
  // build_command
  // ---------------------------------------------------------------------

  /** The positional argument is required by `t` and missing or falsy. */
  predicate PositionalMissing(t: ToolSpec, params: Params) {
    t.hasSubparser && !(t.subparserParam in params && Truthy(params[t.subparserParam]))
  }

  /** The map the flag loop reads, once the outputs are resolved and
      `nb_cpus` is defaulted. */
  function FlagMap(t: ToolSpec, params: Params, jobDir: string): Params
    requires ResolveOutputs(t, Merge(t, params, |t.params|), jobDir, |t.params|).Ok?
  {
    WithNbCpus(t, ResolveOutputs(t, Merge(t, params, |t.params|), jobDir, |t.params|).value.merged)
  }

  /** Where the flag tokens start: after the interpreter, the script and the
      positional argument. */
  function FlagsStart(t: ToolSpec): nat {
    if t.hasSubparser then 3 else 2
  }

  /** `build_command(tool_spec, params, job_dir)`. */
  function BuildCommand(l: Launcher, t: ToolSpec, params: Params, jobDir: string): (res: Result<Built, BuildError>)
    ensures PositionalMissing(t, params) <==> res.Err? && res.error.MissingPositional?
    ensures !PositionalMissing(t, params) ==>
      (res.Err? <==> ResolveOutputs(t, Merge(t, params, |t.params|), jobDir, |t.params|).Err?)
    ensures res.Ok? ==> ResolveOutputs(t, Merge(t, params, |t.params|), jobDir, |t.params|).Ok?
    ensures res.Ok? ==> |res.value.argv| >= 2
                        && res.value.argv[..2] == [l.frogsPython, ScriptPath(t, l.toolsDir)]
    ensures res.Ok? && t.hasSubparser ==> |res.value.argv| >= 3 && res.value.argv[2] == StrOf(params[t.subparserParam])
    ensures res.Ok? ==> OutputsDeclared(t.params, |t.params|, res.value.outputs, jobDir)
  {
    if PositionalMissing(t, params) then Err(MissingPositional(t.name, t.subparserParam))
    else
      var head := [l.frogsPython, ScriptPath(t, l.toolsDir)];
      var positional := if t.hasSubparser then [StrOf(params[t.subparserParam])] else [];
      var merged := Merge(t, params, |t.params|);
      var r :- ResolveOutputs(t, merged, jobDir, |t.params|);
      var argv := head + positional + Flags(t, WithNbCpus(t, r.merged), |t.params|);
      assert argv[..2] == head;
      Ok(Built(argv, r.outputs))
  }

  /** The whole argument vector of a successful build: interpreter, script,
      the positional value when the tool has one, then every declared
      parameter's tokens in declaration order, read from the merged, rebased
      parameter map with the CPU default filled in. */
  lemma BuildCommandArgv(l: Launcher, t: ToolSpec, params: Params, jobDir: string)
    requires BuildCommand(l, t, params, jobDir).Ok?
    ensures ResolveOutputs(t, Merge(t, params, |t.params|), jobDir, |t.params|).Ok?
    ensures BuildCommand(l, t, params, jobDir).value.argv
            == [l.frogsPython, ScriptPath(t, l.toolsDir)]
               + (if t.hasSubparser then [StrOf(params[t.subparserParam])] else [])
               + Flags(t, FlagMap(t, params, jobDir), |t.params|)
  {
  }

  // ---------------------------------------------------------------------
  // Properties
  // ---------------------------------------------------------------------

  /** The tokens the built command line holds for `t.params[j]`: the slice of
      the argument vector between the tokens of the earlier parameters and
      those of the later ones. */
  function Emitted(l: Launcher, t: ToolSpec, params: Params, jobDir: string, j: nat): (r: seq<string>)
    requires j < |t.params| && BuildCommand(l, t, params, jobDir).Ok?
    ensures r == Segment(t.params[j], FlagValue(t, t.params[j], FlagMap(t, params, jobDir)))
  {
    var argv, m := BuildCommand(l, t, params, jobDir).value.argv, FlagMap(t, params, jobDir);
    var a, b := FlagsStart(t) + |Flags(t, m, j)|, FlagsStart(t) + |Flags(t, m, j + 1)|;
    ArgvSlice(l, t, params, jobDir, j);
    argv[a..b]
  }

  /** The slice `Emitted` takes is in range and holds the parameter's tokens. */
  lemma ArgvSlice(l: Launcher, t: ToolSpec, params: Params, jobDir: string, j: nat)
    requires j < |t.params| && BuildCommand(l, t, params, jobDir).Ok?
    ensures var argv, m := BuildCommand(l, t, params, jobDir).value.argv, FlagMap(t, params, jobDir);
      var a, b := FlagsStart(t) + |Flags(t, m, j)|, FlagsStart(t) + |Flags(t, m, j + 1)|;
      a <= b <= |argv| && argv[a..b] == Segment(t.params[j], FlagValue(t, t.params[j], m))
  {
    var argv := BuildCommand(l, t, params, jobDir).value.argv;
    var m := FlagMap(t, params, jobDir);
    var head := [l.frogsPython, ScriptPath(t, l.toolsDir)]
                + (if t.hasSubparser then [StrOf(params[t.subparserParam])] else []);
    var flags := Flags(t, m, |t.params|);
    var seg := Segment(t.params[j], FlagValue(t, t.params[j], m));
    BuildCommandArgv(l, t, params, jobDir);
    assert argv == head + flags && |head| == FlagsStart(t);
    assert Flags(t, m, j + 1) <= flags;
    assert Flags(t, m, j + 1) == Flags(t, m, j) + seg;
    SliceOfLayout(argv, head, flags, Flags(t, m, j), Flags(t, m, j + 1), seg);
  }

  /** A piece `seg` of `tail`, right after `pre`, sits in `head + tail` at the
      same offset shifted by `|head|`. */
  lemma SliceOfLayout<T>(whole: seq<T>, head: seq<T>, tail: seq<T>, pre: seq<T>, upTo: seq<T>, seg: seq<T>)
    requires whole == head + tail && upTo <= tail && upTo == pre + seg
    ensures |head| + |pre| <= |head| + |upTo| <= |whole|
    ensures whole[|head| + |pre|..|head| + |upTo|] == seg
  {
    assert whole[|head| + |pre|..|head| + |upTo|] == upTo[|pre|..];
  }

  /** Some output-file parameter among `t.params[..n]` is called `name`. */
  predicate OutputNamed(t: ToolSpec, name: string, n: nat)
    requires n <= |t.params|
  {
    exists j :: 0 <= j < n && t.params[j].name == name && t.params[j].isOutputFile
  }

  /** No two parameters of `t` share a name (the source indexes them by name). */
  predicate DistinctNames(t: ToolSpec) {
    forall a, b :: 0 <= a < b < |t.params| ==> t.params[a].name != t.params[b].name
  }

  /** The output loop only rewrites the values of output-file parameters. */
  lemma ResolveKeepsOthers(t: ToolSpec, m: Params, jobDir: string, n: nat)
    requires n <= |t.params| && ResolveOutputs(t, m, jobDir, n).Ok?
    ensures forall k :: k in m && !OutputNamed(t, k, n) ==> ResolveOutputs(t, m, jobDir, n).value.merged[k] == m[k]
  {
    forall k | k in m && !OutputNamed(t, k, n)
      ensures ResolveOutputs(t, m, jobDir, n).value.merged[k] == m[k]
    {
      ResolveKeepsOther(t, m, jobDir, n, k);
    }
  }

  /** `ResolveKeepsOthers` for one name. */
  lemma {:induction false} ResolveKeepsOther(t: ToolSpec, m: Params, jobDir: string, n: nat, k: string)
    requires n <= |t.params| && ResolveOutputs(t, m, jobDir, n).Ok?
    requires k in m && !OutputNamed(t, k, n)
    ensures ResolveOutputs(t, m, jobDir, n).value.merged[k] == m[k]
  {
    if n > 0 {
      var prev := ResolveOutputs(t, m, jobDir, n - 1);
      var p := t.params[n - 1];
      assert prev.Ok? && ResolveOutputs(t, m, jobDir, n) == ResolveStep(p, prev.value, jobDir);
      assert !OutputNamed(t, k, n - 1);
      ResolveKeepsOther(t, m, jobDir, n - 1, k);
      StepKeeps(p, prev.value, jobDir, k);
    }
  }

  /** One step of the output loop leaves every other parameter's value alone. */
  lemma StepKeeps(p: ParamSpec, r: Resolution, jobDir: string, k: string)
    requires ResolveStep(p, r, jobDir).Ok? && k in r.merged && (k != p.name || !p.isOutputFile)
    ensures ResolveStep(p, r, jobDir).value.merged[k] == r.merged[k]
  {
  }

  /** The output loop replaces a truthy output path by its rebased form. */
  lemma {:induction false} ResolveRebasesOutput(t: ToolSpec, m: Params, jobDir: string, n: nat, j: nat)
    requires DistinctNames(t) && j < n <= |t.params| && t.params[j].isOutputFile
    requires t.params[j].name in m && Truthy(m[t.params[j].name]) && m[t.params[j].name].Str?
    requires ResolveOutputs(t, m, jobDir, n).Ok?
    ensures ResolveOutputs(t, m, jobDir, n).value.merged[t.params[j].name]
         == Str(Rebase(m[t.params[j].name].s, jobDir))
  {
    var name := t.params[j].name;
    var prev := ResolveOutputs(t, m, jobDir, n - 1);
    var p := t.params[n - 1];
    assert prev.Ok? && ResolveOutputs(t, m, jobDir, n) == ResolveStep(p, prev.value, jobDir);
    if n - 1 == j {
      assert !OutputNamed(t, name, j);
      ResolveKeepsOther(t, m, jobDir, j, name);
    } else {
      ResolveRebasesOutput(t, m, jobDir, n - 1, j);
      assert p.name != name;
      StepKeeps(p, prev.value, jobDir, name);
    }
  }

  /** A parameter the caller gave, and that no output-file parameter shares a
      name with, is emitted from the given value: `None` as nothing, a
      boolean as its flag when truthy, a list as its flag and items unless
      there are none, anything else as its flag and its `str`. */
  lemma ArgvGiven(l: Launcher, t: ToolSpec, params: Params, jobDir: string, j: nat)
    requires j < |t.params| && BuildCommand(l, t, params, jobDir).Ok?
    requires t.params[j].name != t.subparserParam && t.params[j].cliFlag != ""
    requires t.params[j].name in params && !OutputNamed(t, t.params[j].name, |t.params|)
    ensures var p, v := t.params[j], params[t.params[j].name];
      && (v == Null ==> Emitted(l, t, params, jobDir, j) == [])
      && (v != Null && p.ptype == PBool ==>
            Emitted(l, t, params, jobDir, j) == (if Truthy(v) then [p.cliFlag] else []))
      && (v != Null && p.ptype == PList ==>
            Emitted(l, t, params, jobDir, j) == (if ListItems(v) == [] then [] else [p.cliFlag] + ListItems(v)))
      && (v != Null && p.ptype != PBool && p.ptype != PList ==>
            Emitted(l, t, params, jobDir, j) == [p.cliFlag, StrOf(v)])
  {
    FlagMapGiven(t, params, jobDir, j);
  }

  /** An output-file parameter whose value, given or defaulted, is a
      non-empty path is emitted as its flag followed by the path rebased
      under the job directory. */
  lemma ArgvOutputRebased(l: Launcher, t: ToolSpec, params: Params, jobDir: string, j: nat)
    requires DistinctNames(t)
    requires j < |t.params| && BuildCommand(l, t, params, jobDir).Ok?
    requires t.params[j].name != t.subparserParam && t.params[j].cliFlag != ""
    requires t.params[j].isOutputFile && t.params[j].ptype != PBool && t.params[j].ptype != PList
    requires var v := if t.params[j].name in params then params[t.params[j].name] else t.params[j].default;
      Truthy(v) && v.Str?
    ensures var v := if t.params[j].name in params then params[t.params[j].name] else t.params[j].default;
      Emitted(l, t, params, jobDir, j) == [t.params[j].cliFlag, Rebase(v.s, jobDir)]
  {
    FlagMapOutput(t, params, jobDir, j);
  }

  /** The flag loop reads a given parameter that is not an output file
      exactly as the caller gave it. */
  lemma FlagMapGiven(t: ToolSpec, params: Params, jobDir: string, j: nat)
    requires j < |t.params| && ResolveOutputs(t, Merge(t, params, |t.params|), jobDir, |t.params|).Ok?
    requires t.params[j].name != t.subparserParam
    requires t.params[j].name in params && !OutputNamed(t, t.params[j].name, |t.params|)
    ensures var m := FlagMap(t, params, jobDir);
      t.params[j].name in m && m[t.params[j].name] == params[t.params[j].name]
  {
    var k := t.params[j].name;
    var merged := Merge(t, params, |t.params|);
    MergeKeys(t, params, |t.params|);
    MergeGiven(t, params, |t.params|);
    assert k in merged;
    ResolveKeepsOther(t, merged, jobDir, |t.params|, k);
    FlagMapAt(t, params, jobDir, k);
  }

  /** The flag loop reads an output-file parameter with a non-empty path,
      given or defaulted, as that path rebased under the job directory. */
  lemma FlagMapOutput(t: ToolSpec, params: Params, jobDir: string, j: nat)
    requires DistinctNames(t)
    requires j < |t.params| && ResolveOutputs(t, Merge(t, params, |t.params|), jobDir, |t.params|).Ok?
    requires t.params[j].name != t.subparserParam && t.params[j].isOutputFile
    requires var v := if t.params[j].name in params then params[t.params[j].name] else t.params[j].default;
      Truthy(v) && v.Str?
    ensures var v := if t.params[j].name in params then params[t.params[j].name] else t.params[j].default;
      var m := FlagMap(t, params, jobDir);
      t.params[j].name in m && m[t.params[j].name] == Str(Rebase(v.s, jobDir))
  {
    var merged := Merge(t, params, |t.params|);
    MergedOutput(t, params, j);
    ResolveRebasesOutput(t, merged, jobDir, |t.params|, j);
    FlagMapAt(t, params, jobDir, t.params[j].name);
  }

  /** `merged` holds an output-file parameter's given value, or else its
      default when that is not `None`. */
  lemma MergedOutput(t: ToolSpec, params: Params, j: nat)
    requires DistinctNames(t)
    requires j < |t.params| && t.params[j].name != t.subparserParam && t.params[j].isOutputFile
    requires t.params[j].name in params || t.params[j].default != Null
    ensures var m := Merge(t, params, |t.params|);
      t.params[j].name in m
      && m[t.params[j].name] == (if t.params[j].name in params then params[t.params[j].name] else t.params[j].default)
  {
    var p := t.params[j];
    var merged := Merge(t, params, |t.params|);
    MergeKeys(t, params, |t.params|);
    if p.name in params {
      MergeGiven(t, params, |t.params|);
    } else {
      assert HasOutputDefault(t, p.name, |t.params|);
      MergeDefaults(t, params, |t.params|);
      var i :| 0 <= i < |t.params| && t.params[i].name == p.name && t.params[i].isOutputFile
               && merged[p.name] == t.params[i].default && merged[p.name] != Null;
      assert i == j;
    }
  }

  /** The flag loop reads every resolved value unchanged. */
  lemma FlagMapAt(t: ToolSpec, params: Params, jobDir: string, k: string)
    requires ResolveOutputs(t, Merge(t, params, |t.params|), jobDir, |t.params|).Ok?
    requires k in ResolveOutputs(t, Merge(t, params, |t.params|), jobDir, |t.params|).value.merged
    ensures var m := FlagMap(t, params, jobDir);
      k in m && m[k] == ResolveOutputs(t, Merge(t, params, |t.params|), jobDir, |t.params|).value.merged[k]
  {
  }

  /** A parameter the flag loop skips (the positional one, or one without a
      flag) contributes no token. */
  lemma ArgvSkipped(l: Launcher, t: ToolSpec, params: Params, jobDir: string, j: nat)
    requires j < |t.params| && BuildCommand(l, t, params, jobDir).Ok?
    requires t.params[j].name == t.subparserParam || t.params[j].cliFlag == ""
    ensures Emitted(l, t, params, jobDir, j) == []
  {
  }

  /** A list value and the space-joined string of its items emit the same
      tokens. */
  lemma ListAndJoinedStringAgree(p: ParamSpec, words: seq<string>)
    requires p.ptype == PList
    requires forall k :: 0 <= k < |words| ==> IsWord(words[k])
    ensures Segment(p, List(seq(|words|, k requires 0 <= k < |words| => Str(words[k]))))
         == Segment(p, Str(JoinWords(words)))
  {
    var v := List(seq(|words|, k requires 0 <= k < |words| => Str(words[k])));
    SplitJoinWords(words);
    assert StrAll(v.items) == words;
    assert ListItems(v) == words;
    assert ListItems(Str(JoinWords(words))) == words;
  }

  /** An empty list emits nothing, not even the flag. */
  lemma EmptyListEmitsNothing(p: ParamSpec)
    requires p.ptype == PList
    ensures Segment(p, List([])) == []
  {
  }

  /** How many times `x` occurs in `s`. */
  function Count(s: seq<string>, x: string): nat {
    if s == [] then 0 else (if s[0] == x then 1 else 0) + Count(s[1..], x)
  }

  /** A boolean parameter emits its flag exactly once when its value is
      truthy and not at all otherwise. */
  lemma BoolFlagOnce(p: ParamSpec, v: Value)
    requires p.ptype == PBool && v != Null
    ensures Count(Segment(p, v), p.cliFlag) == (if Truthy(v) then 1 else 0)
    ensures |Segment(p, v)| <= 1
  {
    if Truthy(v) {
      assert Segment(p, v) == [p.cliFlag];
      assert Segment(p, v)[1..] == [];
    }
  }

  /** A parameter that is not an output file, was not given, and is not
      `nb_cpus` emits nothing: its default never reaches the command line. */
  lemma NonOutputDefaultNotEmitted(l: Launcher, t: ToolSpec, params: Params, jobDir: string, j: nat)
    requires j < |t.params|
    requires BuildCommand(l, t, params, jobDir).Ok?
    requires t.params[j].name !in params && t.params[j].name != "nb_cpus"
    requires !HasOutputDefault(t, t.params[j].name, |t.params|)
    ensures var r := ResolveOutputs(t, Merge(t, params, |t.params|), jobDir, |t.params|).value;
            FlagValue(t, t.params[j], WithNbCpus(t, r.merged)) == Null
    ensures Emitted(l, t, params, jobDir, j) == []
  {
    MergeKeys(t, params, |t.params|);
  }

  /** A declared `nb_cpus` that was not given and has no output default gets
      `DEFAULT_NB_CPUS`. */
  lemma NbCpusDefaulted(l: Launcher, t: ToolSpec, params: Params, jobDir: string, j: nat)
    requires j < |t.params| && t.params[j].name == "nb_cpus"
    requires t.subparserParam != "nb_cpus" && t.params[j].cliFlag != ""
    requires BuildCommand(l, t, params, jobDir).Ok?
    requires "nb_cpus" !in params && !HasOutputDefault(t, "nb_cpus", |t.params|)
    ensures var r := ResolveOutputs(t, Merge(t, params, |t.params|), jobDir, |t.params|).value;
            FlagValue(t, t.params[j], WithNbCpus(t, r.merged)) == Int(DefaultNbCpus)
  {
    MergeKeys(t, params, |t.params|);
    assert Declares(t, "nb_cpus");
  }

  /** On the command line, a declared `nb_cpus` that was not given and has
      no output default appears as its flag followed by `4`. */
  lemma ArgvNbCpus(l: Launcher, t: ToolSpec, params: Params, jobDir: string, j: nat)
    requires j < |t.params| && t.params[j].name == "nb_cpus"
    requires t.subparserParam != "nb_cpus" && t.params[j].cliFlag != ""
    requires BuildCommand(l, t, params, jobDir).Ok?
    requires "nb_cpus" !in params && !HasOutputDefault(t, "nb_cpus", |t.params|)
    ensures t.params[j].ptype != PBool ==> Emitted(l, t, params, jobDir, j) == [t.params[j].cliFlag, "4"]
    ensures t.params[j].ptype == PBool ==> Emitted(l, t, params, jobDir, j) == [t.params[j].cliFlag]
  {
    assert Declares(t, "nb_cpus");
    FlagMapNbCpus(t, params, jobDir);
    assert FlagValue(t, t.params[j], FlagMap(t, params, jobDir)) == Int(DefaultNbCpus);
    DefaultNbCpusSegment(t.params[j]);
  }

  /** The tokens `DEFAULT_NB_CPUS` stands for under each parameter type. */
  lemma DefaultNbCpusSegment(p: ParamSpec)
    ensures Segment(p, Int(DefaultNbCpus)) == (if p.ptype == PBool then [p.cliFlag] else [p.cliFlag, "4"])
  {
    if p.ptype == PList {
      DefaultNbCpusListSegment(p);
    } else {
      DefaultNbCpusTokens();
    }
  }

  /** A list-typed `nb_cpus` default splits into the single item `4`. */
  lemma DefaultNbCpusListSegment(p: ParamSpec)
    requires p.ptype == PList
    ensures Segment(p, Int(DefaultNbCpus)) == [p.cliFlag, "4"]
  {
    DefaultNbCpusItems();
    SingleItemSegment(p, Int(DefaultNbCpus), "4");
  }

  /** A list-typed value holding one item is its flag followed by the item. */
  lemma SingleItemSegment(p: ParamSpec, v: Value, w: string)
    requires p.ptype == PList && v != Null && ListItems(v) == [w]
    ensures Segment(p, v) == [p.cliFlag, w]
  {
    assert Segment(p, v) == [p.cliFlag] + [w];
  }

  /** The flag loop reads `DEFAULT_NB_CPUS` for a declared `nb_cpus` that
      was not given and is not an output file with a default. */
  lemma FlagMapNbCpus(t: ToolSpec, params: Params, jobDir: string)
    requires ResolveOutputs(t, Merge(t, params, |t.params|), jobDir, |t.params|).Ok?
    requires Declares(t, "nb_cpus")
    requires "nb_cpus" !in params && !HasOutputDefault(t, "nb_cpus", |t.params|)
    ensures var m := FlagMap(t, params, jobDir);
      "nb_cpus" in m && m["nb_cpus"] == Int(DefaultNbCpus)
  {
    MergeKeys(t, params, |t.params|);
  }

  /** As a list-typed value, `DEFAULT_NB_CPUS` is the single item `4`. */
  lemma DefaultNbCpusItems()
    ensures ListItems(Int(DefaultNbCpus)) == ["4"]
  {
    DefaultNbCpusTokens();
  }

  /** `DEFAULT_NB_CPUS` prints as `4`, a single word. */
  lemma DefaultNbCpusTokens()
    ensures StrOf(Int(DefaultNbCpus)) == "4" && Split("4") == ["4"]
  {
    assert Digits(4) == "4";
    assert SkipSpaces("4") == "4";
    assert Word("4") == "4" by {
      assert Word("4"[1..]) == [];
    }
    assert Split("4"[1..]) == [];
  }

  /** `params` restricted to the names `t` can read. */
  function Relevant(t: ToolSpec, params: Params): (r: Params)
    ensures forall k :: k in r <==> k in params && (Declares(t, k) || k == t.subparserParam)
    ensures forall k :: k in r ==> r[k] == params[k]
  {
    map k | k in params && (Declares(t, k) || k == t.subparserParam) :: params[k]
  }

  lemma {:induction false} MergeRelevant(t: ToolSpec, params: Params, n: nat)
    requires n <= |t.params|
    ensures Merge(t, params, n) == Merge(t, Relevant(t, params), n)
  {
    if n > 0 {
      MergeRelevant(t, params, n - 1);
      var p := t.params[n - 1];
      var rel := Relevant(t, params);
      assert Declares(t, p.name) by {
        assert t.params[n - 1].name == p.name;
      }
      if p.name in params {
        assert p.name in rel && rel[p.name] == params[p.name];
      } else {
        assert p.name !in rel;
      }
    }
  }

  /** Parameters the spec does not declare never influence the command:
      dropping them changes neither the argument vector nor the outputs. */
  lemma UndeclaredParamsIgnored(l: Launcher, t: ToolSpec, params: Params, jobDir: string)
    ensures BuildCommand(l, t, params, jobDir) == BuildCommand(l, t, Relevant(t, params), jobDir)
  {
    MergeRelevant(t, params, |t.params|);
  }

  /** An absolute output value is reported unchanged; a relative one is
      reported under the job directory. */
  lemma OutputPathRebased(p: ParamSpec, r: Resolution, jobDir: string, s: string)
    requires p.isOutputFile && p.name in r.merged && r.merged[p.name] == Str(s) && s != ""
    requires p.outputKey.Some? && p.outputKey.value != ""
    ensures ResolveStep(p, r, jobDir).Ok?
    ensures ResolveStep(p, r, jobDir).value.outputs[p.outputKey.value] ==
      (if IsAbs(s) then s else Join(jobDir, s))
  {
  }

  // ---------------------------------------------------------------------
  // The output map
  // ---------------------------------------------------------------------

  /** Parameter `j` records a path under `key` when the output loop reaches
      it: an output file with that non-empty output key and a truthy value
      in `m`. */
  predicate RecordsOutput(t: ToolSpec, m: Params, j: nat, key: string)
    requires j < |t.params|
  {
    var p := t.params[j];
    p.isOutputFile && p.outputKey == Some(key) && key != "" && p.name in m && Truthy(m[p.name])
  }

  /** One step of the output loop writes `key` exactly when its parameter
      records a path there, and then writes the rebased value. */
  lemma StepRecords(p: ParamSpec, r: Resolution, jobDir: string, key: string)
    requires ResolveStep(p, r, jobDir).Ok?
    ensures var out := ResolveStep(p, r, jobDir).value.outputs;
      if p.isOutputFile && p.outputKey == Some(key) && key != "" && p.name in r.merged && Truthy(r.merged[p.name])
      then r.merged[p.name].Str? && key in out && out[key] == Rebase(r.merged[p.name].s, jobDir)
      else (key in out <==> key in r.outputs) && (key in r.outputs ==> out[key] == r.outputs[key])
  {
  }

  /** The last step of the output loop over `t.params[..n]`, seen from
      `m`: it writes `key` exactly when parameter `n - 1` records a path
      there, and leaves the key alone otherwise. */
  lemma ResolveLastStep(t: ToolSpec, m: Params, jobDir: string, n: nat, key: string)
    requires DistinctNames(t) && 0 < n <= |t.params| && ResolveOutputs(t, m, jobDir, n).Ok?
    ensures ResolveOutputs(t, m, jobDir, n - 1).Ok?
    ensures var before, out := ResolveOutputs(t, m, jobDir, n - 1).value.outputs,
                               ResolveOutputs(t, m, jobDir, n).value.outputs;
      if RecordsOutput(t, m, n - 1, key)
      then m[t.params[n - 1].name].Str? && key in out && out[key] == Rebase(m[t.params[n - 1].name].s, jobDir)
      else (key in out <==> key in before) && (key in before ==> out[key] == before[key])
  {
    var prev := ResolveOutputs(t, m, jobDir, n - 1);
    var p := t.params[n - 1];
    assert prev.Ok? && ResolveOutputs(t, m, jobDir, n) == ResolveStep(p, prev.value, jobDir);
    var r := prev.value;
    if p.name in m {
      assert !OutputNamed(t, p.name, n - 1);
      ResolveKeepsOther(t, m, jobDir, n - 1, p.name);
    }
    assert r.merged.Keys == m.Keys;
    var writes := p.isOutputFile && p.outputKey == Some(key) && key != "" && p.name in r.merged
                  && Truthy(r.merged[p.name]);
    assert writes == RecordsOutput(t, m, n - 1, key);
    StepRecords(p, r, jobDir, key);
  }

  /** The keys of the output map after `t.params[..n]`: `key` is present
      exactly when some parameter records a path there. */
  lemma {:induction false} ResolvedOutputKey(t: ToolSpec, m: Params, jobDir: string, n: nat, key: string)
    requires DistinctNames(t) && n <= |t.params| && ResolveOutputs(t, m, jobDir, n).Ok?
    ensures key in ResolveOutputs(t, m, jobDir, n).value.outputs
            <==> exists j :: 0 <= j < n && RecordsOutput(t, m, j, key)
  {
    if n > 0 {
      ResolveLastStep(t, m, jobDir, n, key);
      ResolvedOutputKey(t, m, jobDir, n - 1, key);
      if !RecordsOutput(t, m, n - 1, key) {
        forall j | 0 <= j < n && RecordsOutput(t, m, j, key) ensures j < n - 1 { }
      }
    }
  }

  /** The values of the output map after `t.params[..n]`: `key` holds the
      rebased value of the last parameter that records a path there. */
  lemma {:induction false} ResolvedOutputValue(t: ToolSpec, m: Params, jobDir: string, n: nat, key: string, j: nat)
    requires DistinctNames(t) && j < n <= |t.params| && ResolveOutputs(t, m, jobDir, n).Ok?
    requires RecordsOutput(t, m, j, key) && forall i :: j < i < n ==> !RecordsOutput(t, m, i, key)
    ensures m[t.params[j].name].Str?
    ensures var out := ResolveOutputs(t, m, jobDir, n).value.outputs;
      key in out && out[key] == Rebase(m[t.params[j].name].s, jobDir)
  {
    ResolveLastStep(t, m, jobDir, n, key);
    if j < n - 1 {
      var before := ResolveOutputs(t, m, jobDir, n - 1).value.outputs;
      assert !RecordsOutput(t, m, n - 1, key);
      assert forall i :: j < i < n - 1 ==> !RecordsOutput(t, m, i, key);
      ResolvedOutputValue(t, m, jobDir, n - 1, key, j);
      assert key in before && ResolveOutputs(t, m, jobDir, n).value.outputs[key] == before[key];
    }
  }

  /** The value the default-filling loop gives output-file parameter `j`:
      the caller's value, or else its default. */
  function OutputValue(t: ToolSpec, params: Params, j: nat): Value
    requires j < |t.params|
  {
    if t.params[j].name in params then params[t.params[j].name] else t.params[j].default
  }

  /** Parameter `j` yields an output under `key`: a non-positional output
      file with that non-empty key whose given or default value is truthy. */
  predicate OutputGiven(t: ToolSpec, params: Params, j: nat, key: string)
    requires j < |t.params|
  {
    var p := t.params[j];
    p.isOutputFile && p.name != t.subparserParam && p.outputKey == Some(key) && key != ""
    && Truthy(OutputValue(t, params, j))
  }

  /** On the merged map, recording a path is yielding an output, with the
      given or default value. */
  lemma MergedRecords(t: ToolSpec, params: Params, j: nat, key: string)
    requires DistinctNames(t) && j < |t.params|
    ensures RecordsOutput(t, Merge(t, params, |t.params|), j, key) <==> OutputGiven(t, params, j, key)
    ensures OutputGiven(t, params, j, key) ==>
      Merge(t, params, |t.params|)[t.params[j].name] == OutputValue(t, params, j)
  {
    var p := t.params[j];
    MergeKeys(t, params, |t.params|);
    if p.isOutputFile && p.name != t.subparserParam {
      if p.name in params || p.default != Null {
        MergedOutput(t, params, j);
      } else {
        assert !HasOutputDefault(t, p.name, |t.params|);
      }
    }
  }

  /** The output map of a successful build: a key is present exactly when
      some output-file parameter with that key has a truthy given or default
      value, and it maps to that value rebased under the job directory, the
      last such parameter winning. */
  lemma BuildCommandOutputs(l: Launcher, t: ToolSpec, params: Params, jobDir: string)
    requires DistinctNames(t) && BuildCommand(l, t, params, jobDir).Ok?
    ensures var out := BuildCommand(l, t, params, jobDir).value.outputs;
      forall key :: key in out <==> exists j :: 0 <= j < |t.params| && OutputGiven(t, params, j, key)
    ensures var out := BuildCommand(l, t, params, jobDir).value.outputs;
      forall key, j :: 0 <= j < |t.params| && OutputGiven(t, params, j, key)
                       && (forall i :: j < i < |t.params| ==> !OutputGiven(t, params, i, key)) ==>
        OutputValue(t, params, j).Str? && out[key] == Rebase(OutputValue(t, params, j).s, jobDir)
  {
    var merged := Merge(t, params, |t.params|);
    var out := BuildCommand(l, t, params, jobDir).value.outputs;
    assert out == ResolveOutputs(t, merged, jobDir, |t.params|).value.outputs;
    forall key
      ensures key in out <==> exists j :: 0 <= j < |t.params| && OutputGiven(t, params, j, key)
      ensures forall j :: 0 <= j < |t.params| && OutputGiven(t, params, j, key)
                          && (forall i :: j < i < |t.params| ==> !OutputGiven(t, params, i, key)) ==>
        OutputValue(t, params, j).Str? && out[key] == Rebase(OutputValue(t, params, j).s, jobDir)
    {
      forall j | 0 <= j < |t.params|
        ensures RecordsOutput(t, merged, j, key) <==> OutputGiven(t, params, j, key)
        ensures OutputGiven(t, params, j, key) ==> merged[t.params[j].name] == OutputValue(t, params, j)
      {
        MergedRecords(t, params, j, key);
      }
      ResolvedOutputKey(t, merged, jobDir, |t.params|, key);
      forall j | 0 <= j < |t.params| && OutputGiven(t, params, j, key)
                 && (forall i :: j < i < |t.params| ==> !OutputGiven(t, params, i, key))
        ensures OutputValue(t, params, j).Str? && out[key] == Rebase(OutputValue(t, params, j).s, jobDir)
      {
        ResolvedOutputValue(t, merged, jobDir, |t.params|, key, j);
      }
    }
  }
}

=== FILE: flow_rules.dfy ===
/** The flow-rule table of `pipeline.py` (`FLOW_RULES`), one block per
    source step as the table groups them, and the facts that every rule
    names an output key its source tool declares and an input-file
    parameter of its target tool. */
module FlowRules {
  import opened Catalogue
  import opened CatalogueFacts
  import opened Pipeline

  /** The rule reads an output `src` declares and feeds an input file of
      `tgt`. */
  predicate Fits(r: Rule, src: ToolSpec, tgt: ToolSpec) {
    && r.src == src.name && r.outKey in DeclaredOutputKeys(src)
    && r.tgt == tgt.name && r.tgtParam in InputParamNames(tgt)
  }

  /** Rules whose source step is `reads_processing`: its FASTA and BIOM feed
      `remove_chimera`. */
  function ReadsProcessingBlock(): seq<Rule> {
    [Rule("reads_processing", "fasta", "remove_chimera", "input_fasta"),
     Rule("reads_processing", "biom", "remove_chimera", "input_biom")]
  }

  /** Rules whose source step is `remove_chimera`: its FASTA and BIOM feed
      `cluster_filters`. */
  function RemoveChimeraBlock(): seq<Rule> {
    [Rule("remove_chimera", "fasta", "cluster_filters", "input_fasta"),
     Rule("remove_chimera", "biom", "cluster_filters", "input_biom")]
  }

  /** Rules whose source step is `cluster_filters`: its FASTA and BIOM feed
      both `taxonomic_affiliation` and `affiliation_postprocess`. */
  function ClusterFiltersBlock(): seq<Rule> {
    [Rule("cluster_filters", "fasta", "taxonomic_affiliation", "input_fasta"),
     Rule("cluster_filters", "biom", "taxonomic_affiliation", "input_biom"),
     Rule("cluster_filters", "fasta", "affiliation_postprocess", "input_fasta"),
     Rule("cluster_filters", "biom", "affiliation_postprocess", "input_biom")]
  }

  /** The rule whose source step is `taxonomic_affiliation`: its BIOM, which
      carries the affiliations, feeds `affiliation_postprocess` and, coming
      later in the table, replaces the `cluster_filters` BIOM there. */
  function TaxonomicAffiliationBlock(): seq<Rule> {
    [Rule("taxonomic_affiliation", "biom", "affiliation_postprocess", "input_biom")]
  }

  /** Rules whose source step is `affiliation_postprocess`: its FASTA and BIOM
      feed `affiliation_filters`. */
  function AffiliationPostprocessBlock(): seq<Rule> {
    [Rule("affiliation_postprocess", "fasta", "affiliation_filters", "input_fasta"),
     Rule("affiliation_postprocess", "biom", "affiliation_filters", "input_biom")]
  }

  /** Rules whose source step is `affiliation_filters`: three target steps
      read its outputs. */
  function AffiliationFiltersBlock(): seq<Rule> {
    [Rule("affiliation_filters", "biom", "affiliation_report", "input_biom"),
     Rule("affiliation_filters", "fasta", "tree", "input_fasta"),
     Rule("affiliation_filters", "biom", "tree", "input_biom"),
     Rule("affiliation_filters", "fasta", "normalisation", "input_fasta"),
     Rule("affiliation_filters", "biom", "normalisation", "input_biom")]
  }

  /** The rule whose source step is `tree`: the Newick tree goes to
      `phyloseq_import`. */
  function TreeBlock(): seq<Rule> {
    [Rule("tree", "tree", "phyloseq_import", "tree_nwk")]
  }

  /** The rule whose source step is `normalisation`: the normalised BIOM goes
      to `phyloseq_import`. */
  function NormalisationBlock(): seq<Rule> {
    [Rule("normalisation", "biom", "phyloseq_import", "input_biom")]
  }

  /** Rules whose source step is `phyloseq_import`: its R data file is the
      input of every downstream phyloseq step and of `deseq2_preprocess`. */
  function PhyloseqImportBlock(): seq<Rule> {
    [Rule("phyloseq_import", "rdata", "phyloseq_composition", "phyloseq_rdata"),
     Rule("phyloseq_import", "rdata", "phyloseq_alpha_diversity", "phyloseq_rdata"),
     Rule("phyloseq_import", "rdata", "phyloseq_beta_diversity", "phyloseq_rdata"),
     Rule("phyloseq_import", "rdata", "phyloseq_clustering", "phyloseq_rdata"),
     Rule("phyloseq_import", "rdata", "phyloseq_structure", "phyloseq_rdata"),
     Rule("phyloseq_import", "rdata", "phyloseq_manova", "phyloseq_rdata"),
     Rule("phyloseq_import", "rdata", "deseq2_preprocess", "phyloseq_rdata")]
  }

  /** Rules whose source step is `phyloseq_beta_diversity`: its distance
      matrix directory feeds three later phyloseq steps. */
  function PhyloseqBetaDiversityBlock(): seq<Rule> {
    [Rule("phyloseq_beta_diversity", "beta_matrix_dir", "phyloseq_clustering", "beta_distance_matrix"),
     Rule("phyloseq_beta_diversity", "beta_matrix_dir", "phyloseq_structure", "beta_distance_matrix"),
     Rule("phyloseq_beta_diversity", "beta_matrix_dir", "phyloseq_manova", "beta_distance_matrix")]
  }

  /** Rules whose source step is `deseq2_preprocess`: both R data files go to
      `deseq2_visualisation`. */
  function Deseq2PreprocessBlock(): seq<Rule> {
    [Rule("deseq2_preprocess", "deseq_rdata", "deseq2_visualisation", "deseq_rdata"),
     Rule("deseq2_preprocess", "rdata", "deseq2_visualisation", "phyloseq_rdata")]
  }

  /** Rules whose source step is `frogsfunc_placeseqs`: four of its outputs
      feed `frogsfunc_functions`. */
  function FrogsfuncPlaceseqsBlock(): seq<Rule> {
    [Rule("frogsfunc_placeseqs", "fasta", "frogsfunc_functions", "input_fasta"),
     Rule("frogsfunc_placeseqs", "biom", "frogsfunc_functions", "input_biom"),
     Rule("frogsfunc_placeseqs", "tree", "frogsfunc_functions", "input_tree"),
     Rule("frogsfunc_placeseqs", "marker_copy_tsv", "frogsfunc_functions", "input_marker_copy")]
  }

  /** `FLOW_RULES`, in table order. */
  function Rules(): seq<Rule> {
    ReadsProcessingBlock() + RemoveChimeraBlock() + ClusterFiltersBlock() + TaxonomicAffiliationBlock()
    + AffiliationPostprocessBlock() + AffiliationFiltersBlock() + TreeBlock() + NormalisationBlock()
    + PhyloseqImportBlock() + PhyloseqBetaDiversityBlock() + Deseq2PreprocessBlock() + FrogsfuncPlaceseqsBlock()
  }

  lemma ReadsProcessingToRemoveChimeraFits()
    ensures Fits(ReadsProcessingBlock()[0], ReadsProcessing(), RemoveChimera())
    ensures Fits(ReadsProcessingBlock()[1], ReadsProcessing(), RemoveChimera())
  {
    ReadsProcessingWellFormed();
    RemoveChimeraWellFormed();
  }

  lemma RemoveChimeraToClusterFiltersFits()
    ensures Fits(RemoveChimeraBlock()[0], RemoveChimera(), ClusterFilters())
    ensures Fits(RemoveChimeraBlock()[1], RemoveChimera(), ClusterFilters())
  {
    RemoveChimeraWellFormed();
    ClusterFiltersWellFormed();
  }

  lemma ClusterFiltersToTaxonomicAffiliationFits()
    ensures Fits(ClusterFiltersBlock()[0], ClusterFilters(), TaxonomicAffiliation())
    ensures Fits(ClusterFiltersBlock()[1], ClusterFilters(), TaxonomicAffiliation())
  {
    ClusterFiltersWellFormed();
    TaxonomicAffiliationWellFormed();
  }

  lemma ClusterFiltersToAffiliationPostprocessFits()
    ensures Fits(ClusterFiltersBlock()[2], ClusterFilters(), AffiliationPostprocess())
    ensures Fits(ClusterFiltersBlock()[3], ClusterFilters(), AffiliationPostprocess())
  {
    ClusterFiltersWellFormed();
    AffiliationPostprocessWellFormed();
  }

  lemma TaxonomicAffiliationToAffiliationPostprocessFits()
    ensures Fits(TaxonomicAffiliationBlock()[0], TaxonomicAffiliation(), AffiliationPostprocess())
  {
    TaxonomicAffiliationWellFormed();
    AffiliationPostprocessWellFormed();
  }

  lemma AffiliationPostprocessToAffiliationFiltersFits()
    ensures Fits(AffiliationPostprocessBlock()[0], AffiliationPostprocess(), AffiliationFilters())
    ensures Fits(AffiliationPostprocessBlock()[1], AffiliationPostprocess(), AffiliationFilters())
  {
    AffiliationPostprocessWellFormed();
    AffiliationFiltersWellFormed();
  }

  lemma AffiliationFiltersToAffiliationReportFits()
    ensures Fits(AffiliationFiltersBlock()[0], AffiliationFilters(), AffiliationReport())
  {
    AffiliationFiltersWellFormed();
    AffiliationReportWellFormed();
  }

  lemma AffiliationFiltersToTreeFits()
    ensures Fits(AffiliationFiltersBlock()[1], AffiliationFilters(), Tree())
    ensures Fits(AffiliationFiltersBlock()[2], AffiliationFilters(), Tree())
  {
    AffiliationFiltersWellFormed();
    TreeWellFormed();
  }

  lemma AffiliationFiltersToNormalisationFits()
    ensures Fits(AffiliationFiltersBlock()[3], AffiliationFilters(), Normalisation())
    ensures Fits(AffiliationFiltersBlock()[4], AffiliationFilters(), Normalisation())
  {
    AffiliationFiltersWellFormed();
    NormalisationWellFormed();
  }

  lemma TreeToPhyloseqImportFits()
    ensures Fits(TreeBlock()[0], Tree(), PhyloseqImport())
  {
    TreeWellFormed();
    PhyloseqImportWellFormed();
  }

  lemma NormalisationToPhyloseqImportFits()
    ensures Fits(NormalisationBlock()[0], Normalisation(), PhyloseqImport())
  {
    NormalisationWellFormed();
    PhyloseqImportWellFormed();
  }

  lemma PhyloseqImportToPhyloseqCompositionFits()
    ensures Fits(PhyloseqImportBlock()[0], PhyloseqImport(), PhyloseqComposition())
  {
    PhyloseqImportWellFormed();
    PhyloseqCompositionWellFormed();
  }

  lemma PhyloseqImportToPhyloseqAlphaDiversityFits()
    ensures Fits(PhyloseqImportBlock()[1], PhyloseqImport(), PhyloseqAlphaDiversity())
  {
    PhyloseqImportWellFormed();
    PhyloseqAlphaDiversityWellFormed();
  }

  lemma PhyloseqImportToPhyloseqBetaDiversityFits()
    ensures Fits(PhyloseqImportBlock()[2], PhyloseqImport(), PhyloseqBetaDiversity())
  {
    PhyloseqImportWellFormed();
    PhyloseqBetaDiversityWellFormed();
  }

  lemma PhyloseqImportToPhyloseqClusteringFits()
    ensures Fits(PhyloseqImportBlock()[3], PhyloseqImport(), PhyloseqClustering())
  {
    PhyloseqImportWellFormed();
    PhyloseqClusteringWellFormed();
  }

  lemma PhyloseqImportToPhyloseqStructureFits()
    ensures Fits(PhyloseqImportBlock()[4], PhyloseqImport(), PhyloseqStructure())
  {
    PhyloseqImportWellFormed();
    PhyloseqStructureWellFormed();
  }

  lemma PhyloseqImportToPhyloseqManovaFits()
    ensures Fits(PhyloseqImportBlock()[5], PhyloseqImport(), PhyloseqManova())
  {
    PhyloseqImportWellFormed();
    PhyloseqManovaWellFormed();
  }

  lemma PhyloseqImportToDeseq2PreprocessFits()
    ensures Fits(PhyloseqImportBlock()[6], PhyloseqImport(), Deseq2Preprocess())
  {
    PhyloseqImportWellFormed();
    Deseq2PreprocessWellFormed();
  }

  lemma PhyloseqBetaDiversityToPhyloseqClusteringFits()
    ensures Fits(PhyloseqBetaDiversityBlock()[0], PhyloseqBetaDiversity(), PhyloseqClustering())
  {
    PhyloseqBetaDiversityWellFormed();
    PhyloseqClusteringWellFormed();
  }

  lemma PhyloseqBetaDiversityToPhyloseqStructureFits()
    ensures Fits(PhyloseqBetaDiversityBlock()[1], PhyloseqBetaDiversity(), PhyloseqStructure())
  {
    PhyloseqBetaDiversityWellFormed();
    PhyloseqStructureWellFormed();
  }

  lemma PhyloseqBetaDiversityToPhyloseqManovaFits()
    ensures Fits(PhyloseqBetaDiversityBlock()[2], PhyloseqBetaDiversity(), PhyloseqManova())
  {
    PhyloseqBetaDiversityWellFormed();
    PhyloseqManovaWellFormed();
  }

  lemma Deseq2PreprocessToDeseq2VisualisationFits()
    ensures Fits(Deseq2PreprocessBlock()[0], Deseq2Preprocess(), Deseq2Visualisation())
    ensures Fits(Deseq2PreprocessBlock()[1], Deseq2Preprocess(), Deseq2Visualisation())
  {
    Deseq2PreprocessWellFormed();
    Deseq2VisualisationWellFormed();
  }

  lemma FrogsfuncPlaceseqsToFrogsfuncFunctionsFits()
    ensures Fits(FrogsfuncPlaceseqsBlock()[0], FrogsfuncPlaceseqs(), FrogsfuncFunctions())
    ensures Fits(FrogsfuncPlaceseqsBlock()[1], FrogsfuncPlaceseqs(), FrogsfuncFunctions())
  {
    FrogsfuncPlaceseqsWellFormed();
    FrogsfuncFunctionsWellFormed();
  }

  lemma FrogsfuncPlaceseqsToFrogsfuncFunctionsFitsMore()
    ensures Fits(FrogsfuncPlaceseqsBlock()[2], FrogsfuncPlaceseqs(), FrogsfuncFunctions())
    ensures Fits(FrogsfuncPlaceseqsBlock()[3], FrogsfuncPlaceseqs(), FrogsfuncFunctions())
  {
    FrogsfuncPlaceseqsWellFormed();
    FrogsfuncFunctionsWellFormed();
  }

  /** The feeds of `affiliation_postprocess`, in table order: the BIOM
      file with affiliations from `taxonomic_affiliation` comes after the
      one from `cluster_filters`, so it overrides it whenever both resolve. */
  lemma AffiliationPostprocessFeeds()
    ensures RulesByTarget(Rules(), "affiliation_postprocess") ==
      [Feed("cluster_filters", "fasta", "input_fasta"), Feed("cluster_filters", "biom", "input_biom"),
       Feed("taxonomic_affiliation", "biom", "input_biom")]
  {
    var tgt := "affiliation_postprocess";
    var a := ReadsProcessingBlock() + RemoveChimeraBlock();
    var b := a + ClusterFiltersBlock();
    var c := b + TaxonomicAffiliationBlock();
    var rest := AffiliationPostprocessBlock() + AffiliationFiltersBlock() + TreeBlock() + NormalisationBlock()
      + PhyloseqImportBlock() + PhyloseqBetaDiversityBlock() + Deseq2PreprocessBlock() + FrogsfuncPlaceseqsBlock();
    NoFeeds(a, tgt);
    ClusterFiltersFeedPostprocess();
    RulesByTargetAppend(a, ClusterFiltersBlock(), tgt);
    RulesByTargetAppend(b, TaxonomicAffiliationBlock(), tgt);
    assert Rules() == c + rest;
    NoFeeds(rest, tgt);
    RulesByTargetAppend(c, rest, tgt);
  }

  lemma ClusterFiltersFeedPostprocess()
    ensures RulesByTarget(ClusterFiltersBlock(), "affiliation_postprocess") ==
      [Feed("cluster_filters", "fasta", "input_fasta"), Feed("cluster_filters", "biom", "input_biom")]
  {
    var cf := ClusterFiltersBlock();
    assert cf == cf[..2] + cf[2..];
    NoFeeds(cf[..2], "affiliation_postprocess");
    RulesByTargetAppend(cf[..2], cf[2..], "affiliation_postprocess");
    assert cf[2..][..1] == [cf[2]];
  }

  /** A table with no rule aimed at `tgt` gives it no feeds. */
  lemma NoFeeds(rules: seq<Rule>, tgt: string)
    requires forall i :: 0 <= i < |rules| ==> rules[i].tgt != tgt
    ensures RulesByTarget(rules, tgt) == []
  {
  }
}

=== FILE: jobs.dfy ===
/** The job manager (`job_manager.py`) as state transitions over a `World`:
    the store, the poller's registry of running processes, the job
    directories created so far and the commands launched so far. Process
    exit codes, file existence and the outcome of a kill signal are inputs. */
module Jobs {
  import opened Wrappers
  import opened Values
  import opened Paths
  import opened Catalogue
  import opened Command
  import opened Store

  // ---------------------------------------------------------------------
  // Environment
  // ---------------------------------------------------------------------

  /** `os.pathsep` on a POSIX system. */
  const PathSep: string := ":"

  /** `_build_frogs_env`: a copy of `env` whose `PATH` starts with the
      FROGS binary directory and whose `PYTHONPATH` starts with the FROGS
      library directory. */
  function BuildEnv(env: map<string, string>, binDir: string, libDir: string): (r: map<string, string>)
    ensures r.Keys == env.Keys + {"PATH", "PYTHONPATH"}
    ensures forall k :: k in env && k != "PATH" && k != "PYTHONPATH" ==> r[k] == env[k]
    ensures r["PATH"] == binDir + PathSep + (if "PATH" in env then env["PATH"] else "")
    ensures "PYTHONPATH" in env && env["PYTHONPATH"] != "" ==>
      r["PYTHONPATH"] == libDir + PathSep + env["PYTHONPATH"]
    ensures !("PYTHONPATH" in env && env["PYTHONPATH"] != "") ==> r["PYTHONPATH"] == libDir
  {
    var oldPath := if "PATH" in env then env["PATH"] else "";
    var oldPy := if "PYTHONPATH" in env then env["PYTHONPATH"] else "";
    env["PATH" := binDir + PathSep + oldPath]
       ["PYTHONPATH" := if oldPy != "" then libDir + PathSep + oldPy else libDir]
  }

  /** The previous search paths survive behind the new prefix: dropping the
      FROGS directory and the separator gives the old `PATH` back, and the old
      `PYTHONPATH` likewise whenever it was non-empty. */
  lemma EnvKeepsOldPaths(env: map<string, string>, binDir: string, libDir: string)
    ensures var r := BuildEnv(env, binDir, libDir);
      && r["PATH"][..|binDir| + 1] == binDir + PathSep
      && r["PATH"][|binDir| + 1..] == (if "PATH" in env then env["PATH"] else "")
      && r["PYTHONPATH"][..|libDir|] == libDir
      && ("PYTHONPATH" in env && env["PYTHONPATH"] != "" ==>
            r["PYTHONPATH"][|libDir| + 1..] == env["PYTHONPATH"])
  {
    var r := BuildEnv(env, binDir, libDir);
    assert r["PATH"][..|binDir| + 1] == binDir + PathSep;
    if "PYTHONPATH" in env && env["PYTHONPATH"] != "" {
      assert r["PYTHONPATH"][..|libDir|] == libDir;
    }
  }

  // ---------------------------------------------------------------------
  // World
  // ---------------------------------------------------------------------

  /** A process the poller watches: its job and the project and step to
      report to. */
  datatype Entry = Entry(jobId: string, projectId: Option<string>, stepName: Option<string>)

  /** What the jobs API acts on. `registry` is the poller's dictionary of
      active processes in insertion order; `dirs` the job directories made;
      `launched` the argument vectors of the processes started. */
  datatype World = World(store: Store, registry: seq<Entry>, dirs: set<string>, launched: seq<seq<string>>)

  /** The registry is a dictionary: one entry per job id. */
  predicate RegistryValid(reg: seq<Entry>) {
    forall i, j :: 0 <= i < j < |reg| ==> reg[i].jobId != reg[j].jobId
  }

  /** The job ids of a registry. */
  function Ids(reg: seq<Entry>): set<string> {
    set x | x in reg :: x.jobId
  }

  predicate WorldValid(w: World) {
    Valid(w.store) && RegistryValid(w.registry)
  }

  /** `_poller.register`: a new id is appended; an id already present keeps
      its place and takes the new entry. */
  function Register(reg: seq<Entry>, e: Entry): (r: seq<Entry>)
    ensures RegistryValid(reg) ==> RegistryValid(r)
    ensures e in r
    ensures RegistryValid(reg) ==> forall x :: x in r ==> x == e || (x in reg && x.jobId != e.jobId)
    ensures forall x :: x in reg && x.jobId != e.jobId ==> x in r
  {
    if reg == [] then [e]
    else if reg[0].jobId == e.jobId then
      var r := [e] + reg[1..];
      assert RegistryValid(reg) ==> RegistryValid(r) by {
        if RegistryValid(reg) {
          forall i, j | 0 <= i < j < |r| ensures r[i].jobId != r[j].jobId {
            assert r[j] == reg[j];
            if i > 0 { assert r[i] == reg[i]; }
          }
        }
      }
      assert forall x :: x in reg && x.jobId != e.jobId ==> x in r by {
        assert reg == [reg[0]] + reg[1..];
      }
      assert RegistryValid(reg) ==> forall x :: x in r ==> x == e || (x in reg && x.jobId != e.jobId) by {
        if RegistryValid(reg) {
          forall x | x in r ensures x == e || (x in reg && x.jobId != e.jobId) {
            if x != e {
              var k :| 0 <= k < |r| && r[k] == x;
              assert k > 0 && reg[k] == x;
            }
          }
        }
      }
      r
    else
      var rest := Register(reg[1..], e);
      var r := [reg[0]] + rest;
      TailValid(reg);
      assert forall x :: x in reg && x.jobId != e.jobId ==> x in r by {
        assert reg == [reg[0]] + reg[1..];
      }
      assert RegistryValid(reg) ==> RegistryValid(r) by {
        if RegistryValid(reg) {
          ConsValid(reg[0], rest);
        }
      }
      r
  }

  /** The tail of a registry is a registry none of whose ids is the head's. */
  lemma TailValid(reg: seq<Entry>)
    requires reg != []
    ensures RegistryValid(reg) ==> RegistryValid(reg[1..])
    ensures RegistryValid(reg) ==> forall x :: x in reg[1..] ==> x.jobId != reg[0].jobId
    ensures RegistryValid(reg) ==> reg[0].jobId !in Ids(reg[1..])
  {
    if RegistryValid(reg) {
      forall x | x in reg[1..] ensures x.jobId != reg[0].jobId {
        var k :| 0 <= k < |reg[1..]| && reg[1..][k] == x;
        assert reg[k + 1] == x;
      }
    }
  }

  /** An entry whose id is new to a registry can head it. */
  lemma ConsValid(e: Entry, rest: seq<Entry>)
    requires RegistryValid(rest) && forall x :: x in rest ==> x.jobId != e.jobId
    ensures RegistryValid([e] + rest)
  {
    var r := [e] + rest;
    forall i, j | 0 <= i < j < |r| ensures r[i].jobId != r[j].jobId {
      assert r[j] == rest[j - 1];
      if i == 0 {
        assert r[j] in rest;
      } else {
        assert r[i] == rest[i - 1];
      }
    }
  }

  // ---------------------------------------------------------------------
  // submit_job
  // ---------------------------------------------------------------------

  /** How the deployment is laid out: the interpreter and scripts, the
      workspace root, and the tool catalogue in insertion order. */
  datatype Config = Config(launcher: Launcher, workspaceRoot: string, tools: seq<ToolSpec>)

  datatype SubmitError =
    | UnknownTool(name: string)
    | MissingRequired(tool: string, param: string)
    | MissingPositionalKey(tool: string, param: string)
    | Build(buildErr: BuildError)
    | Launch(param: string)
    | Insert(storeErr: StoreError)

  /** The positional argument is there but is not a string: `build_command`
      appends the value itself, and `Popen` refuses an argument that is not
      a string. */
  predicate PositionalNotStr(t: ToolSpec, params: Params) {
    t.hasSubparser && t.subparserParam in params && !params[t.subparserParam].Str?
  }

  /** The first required parameter of `t.params[i..]` other than the
      positional one that `params` lacks. */
  function FirstMissing(t: ToolSpec, params: Params, i: nat): (r: Option<string>)
    requires i <= |t.params|
    ensures r.None? <==> forall k :: i <= k < |t.params| ==>
      !(t.params[k].required && t.params[k].name !in params && t.params[k].name != t.subparserParam)
    ensures r.Some? ==> exists k ::
      && i <= k < |t.params| && t.params[k].name == r.value
      && t.params[k].required && r.value !in params && r.value != t.subparserParam
      && forall n :: i <= n < k ==>
           !(t.params[n].required && t.params[n].name !in params && t.params[n].name != t.subparserParam)
    decreases |t.params| - i
  {
    if i == |t.params| then None
    else
      var p := t.params[i];
      if p.required && p.name !in params && p.name != t.subparserParam then Some(p.name)
      else FirstMissing(t, params, i + 1)
  }

  /** The checks `submit_job` makes before touching anything: a known tool,
      then every required parameter but the positional one, then the
      presence (not the value) of the positional one's key. */
  function Validate(tools: seq<ToolSpec>, name: string, params: Params): (r: Result<ToolSpec, SubmitError>)
    ensures r.Ok? <==>
      && FindTool(tools, name).Some?
      && FirstMissing(FindTool(tools, name).value, params, 0).None?
      && !(FindTool(tools, name).value.hasSubparser && FindTool(tools, name).value.subparserParam !in params)
    ensures r.Ok? ==> r.value == FindTool(tools, name).value
    ensures r.Err? ==> (r.error.UnknownTool? <==> FindTool(tools, name).None?)
    ensures r.Err? && r.error.MissingRequired? ==> FirstMissing(FindTool(tools, name).value, params, 0) == Some(r.error.param)
    ensures r.Err? && r.error.MissingPositionalKey? ==>
      FirstMissing(FindTool(tools, name).value, params, 0).None? && r.error.param == FindTool(tools, name).value.subparserParam
    ensures r.Err? ==> r.error.UnknownTool? || r.error.MissingRequired? || r.error.MissingPositionalKey?
  {
    match FindTool(tools, name)
    case None => Err(UnknownTool(name))
    case Some(t) =>
      match FirstMissing(t, params, 0)
      case Some(p) => Err(MissingRequired(name, p))
      case None =>
        if t.hasSubparser && t.subparserParam !in params then Err(MissingPositionalKey(name, t.subparserParam))
        else Ok(t)
  }

  /** The result of an API call together with the world it leaves behind
      (an exception can leave a directory or a process behind). */
  datatype Outcome<T> = Outcome(world: World, result: Result<T, SubmitError>)

  /** `os.path.join(WORKSPACE_ROOT, project_id or "standalone", job_id)`. */
  function JobDir(root: string, projectId: Option<string>, jobId: string): string {
    Join(Join(root, if projectId.Some? && projectId.value != "" then projectId.value else "standalone"), jobId)
  }

  /** The log file recorded for a job: the resolved `log` output, else
      `frogs.log` in the job directory. */
  function LogFile(outputs: map<string, string>, jobDir: string): (r: string)
    ensures "log" in outputs ==> r == outputs["log"]
    ensures "log" !in outputs ==> r == Join(jobDir, "frogs.log")
  {
    if "log" in outputs then outputs["log"] else Join(jobDir, "frogs.log")
  }

  /** `after` is `before` with one job row, for `e.jobId`, appended to the
      store and `e` registered with the poller in place of any entry with
      its id: no project, step row, earlier job row or other registry entry
      changes. */
  ghost predicate JobAdded(before: World, after: World, e: Entry) {
    && after.store.projects == before.store.projects && after.store.steps == before.store.steps
    && |after.store.jobs| == |before.store.jobs| + 1
    && after.store.jobs[..|before.store.jobs|] == before.store.jobs
    && after.store.jobs[|before.store.jobs|].jobId == e.jobId
    && (RegistryValid(before.registry) ==>
          forall x :: x in after.registry <==> x == e || (x in before.registry && x.jobId != e.jobId))
  }

  /** Stores the resolved outputs of the job just appended, when there are
      any (`if resolved_outputs:`); `get_job` then returns the row with them. */
  function StoreOutputs(s: Store, job: Job, outputs: map<string, string>): (r: Store)
    requires s.jobs != [] && s.jobs[|s.jobs| - 1] == job
    requires forall k :: 0 <= k < |s.jobs| - 1 ==> s.jobs[k].jobId != job.jobId
    ensures r.projects == s.projects && r.steps == s.steps
    ensures |r.jobs| == |s.jobs| && r.jobs[..|s.jobs| - 1] == s.jobs[..|s.jobs| - 1]
    ensures r.jobs[|s.jobs| - 1].jobId == job.jobId
    ensures GetJob(r, job.jobId) == Some(if |outputs| > 0 then job.(outputFiles := Some(outputs)) else job)
    ensures Valid(s) ==> Valid(r)
  {
    if |outputs| > 0 then
      var r := UpdateJobOutputFiles(s, job.jobId, outputs);
      assert r.jobs[|s.jobs| - 1].jobId == job.jobId;
      var g := GetJob(r, job.jobId).value;
      var k :| 0 <= k < |r.jobs| && r.jobs[k] == g;
      assert k == |s.jobs| - 1;
      r
    else
      assert s.jobs[|s.jobs| - 1].jobId == job.jobId;
      var g := GetJob(s, job.jobId).value;
      var k :| 0 <= k < |s.jobs| && s.jobs[k] == g;
      assert k == |s.jobs| - 1;
      s
  }

  /** The part of `submit_job` after the process is started: insert the
      `running` record, store the resolved outputs when there are any, and
      register the process with the poller. */
  function RecordJob(w: World, jobId: string, projectId: Option<string>, toolName: string,
                     stepName: Option<string>, params: Params, built: Built, jobDir: string,
                     pid: int, now: Time): (o: Outcome<string>)
    ensures o.result.Err? <==> HasJob(w.store, jobId) || (projectId.Some? && !HasProject(w.store, projectId.value))
    ensures o.result.Err? ==> o.world == w && o.result.error.Insert?
    ensures o.result.Ok? ==>
      && o.result.value == jobId
      && o.world.dirs == w.dirs && o.world.launched == w.launched
      && Entry(jobId, projectId, stepName) in o.world.registry
      && GetJob(o.world.store, jobId).Some?
      && JobAdded(w, o.world, Entry(jobId, projectId, stepName))
    ensures o.result.Ok? ==> var job := GetJob(o.world.store, jobId).value;
      && job.status == Running && job.projectId == projectId && job.stepName == stepName
      && job.toolName == toolName && job.params == params && job.command == built.argv
      && job.pid == Some(pid) && job.createdAt == now && job.startTime == now
      && job.workingDir == jobDir && job.logFile == LogFile(built.outputs, jobDir)
      && job.outputFiles == (if |built.outputs| > 0 then Some(built.outputs) else None)
    ensures WorldValid(w) ==> WorldValid(o.world)
  {
    match InsertJob(w.store, jobId, projectId, toolName, stepName, params, built.argv, jobDir,
                    Some(pid), Join(jobDir, "stdout.txt"), Join(jobDir, "stderr.txt"),
                    LogFile(built.outputs, jobDir), now)
    case Err(e) => Outcome(w, Err(Insert(e)))
    case Ok((s, job)) =>
      var s' := StoreOutputs(s, job, built.outputs);
      Outcome(w.(store := s', registry := Register(w.registry, Entry(jobId, projectId, stepName))), Ok(jobId))
  }

  /** The part of `submit_job` after validation: make the job directory,
      build the command (which can still raise), start it (which raises for
      a positional argument that is not a string) and record it. */
  function StartJob(cfg: Config, w: World, t: ToolSpec, toolName: string, params: Params,
                    projectId: Option<string>, stepName: Option<string>,
                    jobId: string, pid: int, now: Time): (o: Outcome<string>)
    ensures o.world.dirs == w.dirs + {JobDir(cfg.workspaceRoot, projectId, jobId)}
    ensures BuildCommand(cfg.launcher, t, params, JobDir(cfg.workspaceRoot, projectId, jobId)).Err? ==>
      && o.result == Err(Build(BuildCommand(cfg.launcher, t, params, JobDir(cfg.workspaceRoot, projectId, jobId)).error))
      && o.world == w.(dirs := w.dirs + {JobDir(cfg.workspaceRoot, projectId, jobId)})
    ensures BuildCommand(cfg.launcher, t, params, JobDir(cfg.workspaceRoot, projectId, jobId)).Ok? &&
            PositionalNotStr(t, params) ==>
      && o.result == Err(Launch(t.subparserParam))
      && o.world == w.(dirs := w.dirs + {JobDir(cfg.workspaceRoot, projectId, jobId)})
    ensures BuildCommand(cfg.launcher, t, params, JobDir(cfg.workspaceRoot, projectId, jobId)).Ok? &&
            !PositionalNotStr(t, params) ==>
      var built := BuildCommand(cfg.launcher, t, params, JobDir(cfg.workspaceRoot, projectId, jobId)).value;
      && o.world.launched == w.launched + [built.argv]
      && (o.result.Ok? ==> GetJob(o.world.store, jobId).Some? && GetJob(o.world.store, jobId).value.command == built.argv)
    ensures o.result.Ok? ==>
      && o.result.value == jobId
      && Entry(jobId, projectId, stepName) in o.world.registry
      && GetJob(o.world.store, jobId).Some?
      && JobStarted(GetJob(o.world.store, jobId).value, toolName, params, projectId, stepName,
                    JobDir(cfg.workspaceRoot, projectId, jobId))
    ensures o.result.Ok? ==> JobAdded(w, o.world, Entry(jobId, projectId, stepName))
    ensures WorldValid(w) ==> WorldValid(o.world)
  {
    var jobDir := JobDir(cfg.workspaceRoot, projectId, jobId);
    var w1 := w.(dirs := w.dirs + {jobDir});
    match BuildCommand(cfg.launcher, t, params, jobDir)
    case Err(e) => Outcome(w1, Err(Build(e)))
    case Ok(built) =>
      if PositionalNotStr(t, params) then Outcome(w1, Err(Launch(t.subparserParam)))
      else LaunchJob(w1, jobId, projectId, toolName, stepName, params, built, jobDir, pid, now)
  }

  /** Start the built command line and record the job. */
  function LaunchJob(w: World, jobId: string, projectId: Option<string>, toolName: string,
                     stepName: Option<string>, params: Params, built: Built, jobDir: string,
                     pid: int, now: Time): (o: Outcome<string>)
    ensures o.world.dirs == w.dirs && o.world.launched == w.launched + [built.argv]
    ensures o.result.Ok? ==>
      && o.result.value == jobId
      && Entry(jobId, projectId, stepName) in o.world.registry
      && GetJob(o.world.store, jobId).Some?
      && GetJob(o.world.store, jobId).value.command == built.argv
      && JobStarted(GetJob(o.world.store, jobId).value, toolName, params, projectId, stepName, jobDir)
    ensures o.result.Ok? ==> JobAdded(w, o.world, Entry(jobId, projectId, stepName))
    ensures WorldValid(w) ==> WorldValid(o.world)
  {
    RecordJob(w.(launched := w.launched + [built.argv]), jobId, projectId, toolName, stepName,
              params, built, jobDir, pid, now)
  }

  /** A freshly recorded job: running in `jobDir`, for the tool, parameters,
      project and step it was submitted with. */
  predicate JobStarted(job: Job, toolName: string, params: Params, projectId: Option<string>,
                       stepName: Option<string>, jobDir: string) {
    && job.status == Running && job.workingDir == jobDir && job.toolName == toolName
    && job.params == params && job.projectId == projectId && job.stepName == stepName
  }

  /** `submit_job`. `jobId` is the fresh identifier and `pid` the process id
      the operating system hands out; `now` is the clock. A rejected
      submission changes nothing; any later failure leaves the job
      directory behind. */
  function SubmitJob(cfg: Config, w: World, toolName: string, params: Params,
                     projectId: Option<string>, stepName: Option<string>,
                     jobId: string, pid: int, now: Time): (o: Outcome<string>)
    ensures Validate(cfg.tools, toolName, params).Err? ==>
      o == Outcome(w, Err(Validate(cfg.tools, toolName, params).error))
    ensures Validate(cfg.tools, toolName, params).Ok? ==>
      && o.world.dirs == w.dirs + {JobDir(cfg.workspaceRoot, projectId, jobId)}
      && (o.result.Err? ==> o.result.error.Build? || o.result.error.Launch? || o.result.error.Insert?)
    ensures o.result.Ok? ==>
      && o.result.value == jobId
      && |o.world.launched| == |w.launched| + 1
      && Entry(jobId, projectId, stepName) in o.world.registry
      && GetJob(o.world.store, jobId).Some?
      && JobStarted(GetJob(o.world.store, jobId).value, toolName, params, projectId, stepName,
                    JobDir(cfg.workspaceRoot, projectId, jobId))
    ensures o.result.Ok? ==> JobAdded(w, o.world, Entry(jobId, projectId, stepName))
    ensures WorldValid(w) ==> WorldValid(o.world)
  {
    match Validate(cfg.tools, toolName, params)
    case Err(e) => Outcome(w, Err(e))
    case Ok(t) => StartJob(cfg, w, t, toolName, params, projectId, stepName, jobId, pid, now)
  }

  /** The two positional checks disagree: validation asks only that the
      positional key be present, while `build_command` wants a truthy value.
      An empty `sequencer` therefore passes validation and fails only after
      the job directory has been created, with no job recorded. */
  lemma EmptyPositionalFailsAfterDir(cfg: Config, w: World, toolName: string, params: Params,
                                     projectId: Option<string>, stepName: Option<string>,
                                     jobId: string, pid: int, now: Time)
    requires FindTool(cfg.tools, toolName).Some?
    requires var t := FindTool(cfg.tools, toolName).value;
      t.hasSubparser && FirstMissing(t, params, 0).None?
      && t.subparserParam in params && params[t.subparserParam] == Str("")
    ensures var o := SubmitJob(cfg, w, toolName, params, projectId, stepName, jobId, pid, now);
      && Validate(cfg.tools, toolName, params).Ok?
      && o.result.Err? && o.result.error.Build? && o.result.error.buildErr.MissingPositional?
      && JobDir(cfg.workspaceRoot, projectId, jobId) in o.world.dirs
      && o.world.store == w.store && o.world.launched == w.launched && o.world.registry == w.registry
  {
    var t := FindTool(cfg.tools, toolName).value;
    var jobDir := JobDir(cfg.workspaceRoot, projectId, jobId);
    assert Validate(cfg.tools, toolName, params) == Ok(t);
    assert SubmitJob(cfg, w, toolName, params, projectId, stepName, jobId, pid, now)
        == StartJob(cfg, w, t, toolName, params, projectId, stepName, jobId, pid, now);
    assert PositionalMissing(t, params);
    assert BuildCommand(cfg.launcher, t, params, jobDir).Err?;
  }

  /** A positional value that is truthy but not a string (an integer, say)
      passes validation and `build_command`, and makes starting the process
      fail: the job directory is left behind and nothing is launched or
      recorded. */
  lemma NonStringPositionalNotLaunched(cfg: Config, w: World, toolName: string, params: Params,
                                       projectId: Option<string>, stepName: Option<string>,
                                       jobId: string, pid: int, now: Time)
    requires FindTool(cfg.tools, toolName).Some?
    requires var t := FindTool(cfg.tools, toolName).value;
      t.hasSubparser && FirstMissing(t, params, 0).None?
      && t.subparserParam in params && Truthy(params[t.subparserParam]) && !params[t.subparserParam].Str?
    ensures var o := SubmitJob(cfg, w, toolName, params, projectId, stepName, jobId, pid, now);
      var t := FindTool(cfg.tools, toolName).value;
      && o.result.Err? && (o.result.error.Launch? || o.result.error.Build?)
      && (o.result.error.Launch? <==> BuildCommand(cfg.launcher, t, params, JobDir(cfg.workspaceRoot, projectId, jobId)).Ok?)
      && JobDir(cfg.workspaceRoot, projectId, jobId) in o.world.dirs
      && o.world.store == w.store && o.world.launched == w.launched && o.world.registry == w.registry
  {
    var t := FindTool(cfg.tools, toolName).value;
    assert Validate(cfg.tools, toolName, params) == Ok(t);
    assert SubmitJob(cfg, w, toolName, params, projectId, stepName, jobId, pid, now)
        == StartJob(cfg, w, t, toolName, params, projectId, stepName, jobId, pid, now);
  }

  // ---------------------------------------------------------------------
  // One poller tick
  // ---------------------------------------------------------------------

  /** The status a finished process is recorded with. */
  function ExitStatus(rc: int): (r: Status)
    ensures r == Completed <==> rc == 0
    ensures r == Completed || r == Failed
  {
    if rc == 0 then Completed else Failed
  }

  /** The entries of an output map whose path is an existing file. */
  function Existing(outputs: map<string, string>, files: set<string>): (r: map<string, string>)
    ensures forall k :: k in r <==> k in outputs && outputs[k] in files
    ensures forall k :: k in r ==> r[k] == outputs[k]
  {
    map k | k in outputs && outputs[k] in files :: outputs[k]
  }

  /** The poller reports an entry to the pipeline-step table: both its
      project id and its step name are set and non-empty. */
  predicate Reports(e: Entry) {
    e.projectId.Some? && e.projectId.value != "" && e.stepName.Some? && e.stepName.value != ""
  }

  /** The step update fails its foreign-key check: the entry's job id names
      no job while a row for the step exists. */
  predicate StepUpdateRefused(s: Store, e: Entry)
    requires Reports(e)
  {
    e.jobId != "" && !HasJob(s, e.jobId) && HasStep(s.steps, e.projectId.value, e.stepName.value)
  }

  /** `after` is `before` with the entry's step rows set to `status` and to
      the entry's job id, and every other row unchanged. */
  predicate StepsReported(before: seq<StepRow>, after: seq<StepRow>, e: Entry, status: Status)
    requires Reports(e)
  {
    && |after| == |before|
    && (forall i :: 0 <= i < |before| && IsStep(before[i], e.projectId.value, e.stepName.value) ==>
          after[i] == before[i].(status := status,
                                 jobId := if e.jobId != "" then Some(e.jobId) else before[i].jobId))
    && (forall i :: 0 <= i < |before| && !IsStep(before[i], e.projectId.value, e.stepName.value) ==>
          after[i] == before[i])
  }

  /** The entry reports to the pipeline-step table and names `row`'s
      project and step, so its finish may rewrite that row. */
  predicate Names(e: Entry, row: StepRow) {
    Reports(e) && IsStep(row, e.projectId.value, e.stepName.value)
  }

  /** Reports to the pipeline-step table only when both the project id and
      the step name are set and non-empty; a failing update is swallowed. */
  function ReportStep(s: Store, e: Entry, status: Status): (r: Store)
    ensures r.projects == s.projects && r.jobs == s.jobs
    ensures !Reports(e) ==> r == s
    ensures Reports(e) && StepUpdateRefused(s, e) ==> r == s
    ensures Reports(e) && !StepUpdateRefused(s, e) ==> StepsReported(s.steps, r.steps, e, status)
    ensures Valid(s) ==> Valid(r)
  {
    if Reports(e) then
      match UpdatePipelineStep(s, e.projectId.value, e.stepName.value, status, Some(e.jobId))
      case Ok(s') => s'
      case Err(_) => s
    else s
  }

  /** A stored output map after the existence scan: a non-empty map keeps
      the entries whose file exists; an empty or missing one is left alone. */
  function Shrunk(outputs: Option<map<string, string>>, files: set<string>): (r: Option<map<string, string>>)
    ensures outputs.None? ==> r.None?
    ensures outputs.Some? && |outputs.value| == 0 ==> r == outputs
    ensures outputs.Some? && |outputs.value| > 0 ==> r == Some(Existing(outputs.value, files))
  {
    match outputs
    case Some(m) => if |m| > 0 then Some(Existing(m, files)) else outputs
    case None => None
  }

  /** The existence scan: a job whose non-empty output map names files that
      do not exist gets the map of those that do; the map is written only
      when it changes. */
  function ShrinkOutputs(s: Store, id: string, files: set<string>): (r: Store)
    ensures r.projects == s.projects && r.steps == s.steps && |r.jobs| == |s.jobs|
    ensures forall i :: 0 <= i < |s.jobs| ==> r.jobs[i].jobId == s.jobs[i].jobId
    ensures forall i :: 0 <= i < |s.jobs| && s.jobs[i].jobId != id ==> r.jobs[i] == s.jobs[i]
    ensures Valid(s) ==> Valid(r)
    ensures UniqueJobIds(s.jobs) ==> forall i :: 0 <= i < |s.jobs| && s.jobs[i].jobId == id ==>
      r.jobs[i] == s.jobs[i].(outputFiles := Shrunk(s.jobs[i].outputFiles, files))
  {
    match GetJob(s, id)
    case None => s
    case Some(job) =>
      assert UniqueJobIds(s.jobs) ==> forall i :: 0 <= i < |s.jobs| && s.jobs[i].jobId == id ==> s.jobs[i] == job by {
        if UniqueJobIds(s.jobs) {
          forall i | 0 <= i < |s.jobs| && s.jobs[i].jobId == id ensures s.jobs[i] == job {
            GetJobAt(s, i);
          }
        }
      }
      if job.outputFiles.Some? && |job.outputFiles.value| > 0 then
        var existing := Existing(job.outputFiles.value, files);
        if existing != job.outputFiles.value then UpdateJobOutputFiles(s, id, existing) else s
      else s
  }

  /** The store work the poller does for one finished process: record the
      status and exit code, scan the output files, then report the step. */
  function Finish(s: Store, e: Entry, rc: int, files: set<string>, now: Time): (r: Store)
    ensures r.projects == s.projects && |r.jobs| == |s.jobs|
    ensures forall i :: 0 <= i < |s.jobs| ==> r.jobs[i].jobId == s.jobs[i].jobId
    ensures forall i :: 0 <= i < |s.jobs| && s.jobs[i].jobId != e.jobId ==> r.jobs[i] == s.jobs[i]
    ensures Valid(s) ==> Valid(r)
    ensures !Reports(e) ==> r.steps == s.steps
    ensures Reports(e) && HasJob(s, e.jobId) ==> StepsReported(s.steps, r.steps, e, ExitStatus(rc))
    ensures |r.steps| == |s.steps|
    ensures forall i :: 0 <= i < |s.steps| && !Names(e, s.steps[i]) ==> r.steps[i] == s.steps[i]
  {
    var s2 := RecordExit(s, e.jobId, rc, files, now);
    ReportStep(s2, e, ExitStatus(rc))
  }

  /** The job-table part of `Finish`: the status and exit code, then the
      output scan. Neither touches another job's row or the step table. */
  function RecordExit(s: Store, id: string, rc: int, files: set<string>, now: Time): (r: Store)
    ensures r.projects == s.projects && r.steps == s.steps && |r.jobs| == |s.jobs|
    ensures forall i :: 0 <= i < |s.jobs| ==> r.jobs[i].jobId == s.jobs[i].jobId
    ensures forall i :: 0 <= i < |s.jobs| && s.jobs[i].jobId != id ==> r.jobs[i] == s.jobs[i]
    ensures HasJob(r, id) <==> HasJob(s, id)
    ensures Valid(s) ==> Valid(r)
  {
    var s1 := UpdateJobStatus(s, id, ExitStatus(rc), Some(rc), now);
    var s2 := ShrinkOutputs(s1, id, files);
    SameJobIds(s, s2, id);
    s2
  }

  /** Rewriting job rows in place keeps the set of job ids. */
  lemma SameJobIds(s: Store, s': Store, id: string)
    requires |s'.jobs| == |s.jobs| && forall i :: 0 <= i < |s.jobs| ==> s'.jobs[i].jobId == s.jobs[i].jobId
    ensures HasJob(s', id) <==> HasJob(s, id)
  {
    if HasJob(s, id) {
      var i :| 0 <= i < |s.jobs| && s.jobs[i].jobId == id;
      assert s'.jobs[i].jobId == id;
    }
    if HasJob(s', id) {
      var i :| 0 <= i < |s'.jobs| && s'.jobs[i].jobId == id;
      assert s.jobs[i].jobId == id;
    }
  }

  /** The finished job's row: its status and exit code follow the exit
      code, it has ended `now`, and its output map is the scanned one. */
  lemma FinishRow(s: Store, e: Entry, rc: int, files: set<string>, now: Time, i: nat)
    requires UniqueJobIds(s.jobs) && i < |s.jobs| && s.jobs[i].jobId == e.jobId
    ensures Finish(s, e, rc, files, now).jobs[i] ==
      s.jobs[i].(status := ExitStatus(rc), exitCode := Some(rc), endTime := Some(now),
                 outputFiles := Shrunk(s.jobs[i].outputFiles, files))
  {
    var s1 := UpdateJobStatus(s, e.jobId, ExitStatus(rc), Some(rc), now);
    assert UniqueJobIds(s1.jobs);
    var s2 := ShrinkOutputs(s1, e.jobId, files);
    assert s2.jobs[i] == s1.jobs[i].(outputFiles := Shrunk(s1.jobs[i].outputFiles, files));
  }

  /** The registry entries whose process has exited (`exitedOnes`) or is
      still running (otherwise), in registry order. */
  function Select(reg: seq<Entry>, exited: map<string, int>, exitedOnes: bool): (r: seq<Entry>)
    ensures forall x :: x in r <==> x in reg && ((x.jobId in exited) == exitedOnes)
    ensures RegistryValid(reg) ==> RegistryValid(r)
  {
    if reg == [] then []
    else
      var rest := Select(reg[1..], exited, exitedOnes);
      TailValid(reg);
      assert reg == [reg[0]] + reg[1..];
      if (reg[0].jobId in exited) == exitedOnes then
        assert RegistryValid(reg) ==> RegistryValid([reg[0]] + rest) by {
          if RegistryValid(reg) {
            ConsValid(reg[0], rest);
          }
        }
        [reg[0]] + rest
      else rest
  }

  /** Runs `Finish` for each entry of `done`, in order. */
  function FinishAll(s: Store, done: seq<Entry>, exited: map<string, int>, files: set<string>, now: Time): (r: Store)
    requires forall x :: x in done ==> x.jobId in exited
    decreases |done|
    ensures r.projects == s.projects && |r.jobs| == |s.jobs|
    ensures forall i :: 0 <= i < |s.jobs| ==> r.jobs[i].jobId == s.jobs[i].jobId
    ensures forall i :: 0 <= i < |s.jobs| && s.jobs[i].jobId !in Ids(done) ==> r.jobs[i] == s.jobs[i]
    ensures Valid(s) ==> Valid(r)
    ensures |r.steps| == |s.steps|
    ensures forall i :: 0 <= i < |s.steps| && (forall x :: x in done ==> !Names(x, s.steps[i])) ==>
      r.steps[i] == s.steps[i]
  {
    if done == [] then s
    else
      var s1 := Finish(s, done[0], exited[done[0].jobId], files, now);
      assert forall x :: x in done[1..] ==> x in done;
      var r := FinishAll(s1, done[1..], exited, files, now);
      assert forall i :: 0 <= i < |s.steps| && (forall x :: x in done ==> !Names(x, s.steps[i])) ==>
        r.steps[i] == s.steps[i] by {
        forall i | 0 <= i < |s.steps| && (forall x :: x in done ==> !Names(x, s.steps[i]))
          ensures r.steps[i] == s.steps[i]
        {
          assert done[0] in done;
          assert s1.steps[i] == s.steps[i];
        }
      }
      r
  }

  /** One pass of the poller: every registered process that has exited
      (its id is in `exited`, with its exit code) leaves the registry and has
      its job finished; the others stay, in order. */
  function Tick(w: World, exited: map<string, int>, files: set<string>, now: Time): (r: World)
    ensures forall x :: x in r.registry <==> x in w.registry && x.jobId !in exited
    ensures r.dirs == w.dirs && r.launched == w.launched
    ensures r.store.projects == w.store.projects && |r.store.jobs| == |w.store.jobs|
    ensures forall i :: 0 <= i < |w.store.jobs| && w.store.jobs[i].jobId !in Ids(w.registry) ==>
      r.store.jobs[i] == w.store.jobs[i]
    ensures forall i :: 0 <= i < |w.store.jobs| && w.store.jobs[i].jobId !in exited ==>
      r.store.jobs[i] == w.store.jobs[i]
    ensures |r.store.steps| == |w.store.steps|
    ensures forall i :: 0 <= i < |w.store.steps|
                        && (forall x :: x in w.registry && x.jobId in exited ==> !Names(x, w.store.steps[i])) ==>
      r.store.steps[i] == w.store.steps[i]
    ensures WorldValid(w) ==> WorldValid(r)
  {
    var done := Select(w.registry, exited, true);
    var s := FinishAll(w.store, done, exited, files, now);
    assert forall id :: id in Ids(done) ==> id in exited;
    World(s, Select(w.registry, exited, false), w.dirs, w.launched)
  }

  /** Within a run of finishes, the job of an entry is finished exactly once:
      afterwards it holds the status of its exit code. */
  lemma {:induction false} FinishAllRecords(s: Store, done: seq<Entry>, exited: map<string, int>,
                                            files: set<string>, now: Time, k: nat, i: nat)
    requires forall x :: x in done ==> x.jobId in exited
    requires UniqueJobIds(s.jobs) && RegistryValid(done)
    requires k < |done| && i < |s.jobs| && s.jobs[i].jobId == done[k].jobId
    ensures FinishAll(s, done, exited, files, now).jobs[i] ==
      s.jobs[i].(status := ExitStatus(exited[done[k].jobId]), exitCode := Some(exited[done[k].jobId]),
                 endTime := Some(now), outputFiles := Shrunk(s.jobs[i].outputFiles, files))
    decreases |done|, 1
  {
    if k == 0 {
      FinishAllFirst(s, done, exited, files, now, i);
    } else {
      FinishAllLater(s, done, exited, files, now, k, i);
    }
  }

  /** `FinishAllRecords` for an entry after the first: the first finish
      leaves the job ids in place, and the rest of the run records it. */
  lemma {:induction false} FinishAllLater(s: Store, done: seq<Entry>, exited: map<string, int>,
                                          files: set<string>, now: Time, k: nat, i: nat)
    requires forall x :: x in done ==> x.jobId in exited
    requires UniqueJobIds(s.jobs) && RegistryValid(done)
    requires 0 < k < |done| && i < |s.jobs| && s.jobs[i].jobId == done[k].jobId
    ensures FinishAll(s, done, exited, files, now).jobs[i] ==
      s.jobs[i].(status := ExitStatus(exited[done[k].jobId]), exitCode := Some(exited[done[k].jobId]),
                 endTime := Some(now), outputFiles := Shrunk(s.jobs[i].outputFiles, files))
    decreases |done|, 0
  {
    TailValid(done);
    var s1 := FinishAllUnfold(s, done, exited, files, now);
    assert done[1..][k - 1] == done[k];
    FinishAllRecords(s1, done[1..], exited, files, now, k - 1, i);
  }

  /** A run of finishes is the first finish, giving `s1`, followed by the
      rest. */
  lemma FinishAllUnfold(s: Store, done: seq<Entry>, exited: map<string, int>, files: set<string>, now: Time)
    returns (s1: Store)
    requires forall x :: x in done ==> x.jobId in exited
    requires UniqueJobIds(s.jobs) && done != []
    ensures UniqueJobIds(s1.jobs) && |s1.jobs| == |s.jobs|
    ensures forall i :: 0 <= i < |s.jobs| ==> s1.jobs[i].jobId == s.jobs[i].jobId
    ensures forall i :: 0 <= i < |s.jobs| && s.jobs[i].jobId != done[0].jobId ==> s1.jobs[i] == s.jobs[i]
    ensures forall x :: x in done[1..] ==> x.jobId in exited
    ensures FinishAll(s, done, exited, files, now) == FinishAll(s1, done[1..], exited, files, now)
  {
    s1 := Finish(s, done[0], exited[done[0].jobId], files, now);
    assert forall x :: x in done[1..] ==> x in done;
  }

  /** The first entry's job is finished by the first step and untouched by
      the rest. */
  lemma FinishAllFirst(s: Store, done: seq<Entry>, exited: map<string, int>,
                       files: set<string>, now: Time, i: nat)
    requires forall x :: x in done ==> x.jobId in exited
    requires UniqueJobIds(s.jobs) && RegistryValid(done)
    requires 0 < |done| && i < |s.jobs| && s.jobs[i].jobId == done[0].jobId
    ensures FinishAll(s, done, exited, files, now).jobs[i] ==
      s.jobs[i].(status := ExitStatus(exited[done[0].jobId]), exitCode := Some(exited[done[0].jobId]),
                 endTime := Some(now), outputFiles := Shrunk(s.jobs[i].outputFiles, files))
  {
    FinishRow(s, done[0], exited[done[0].jobId], files, now, i);
    TailValid(done);
  }

  /** After a tick, every registered job whose process exited holds
      `completed` when its exit code is 0 and `failed` otherwise, with that
      exit code. */
  lemma TickRecordsExit(w: World, exited: map<string, int>, files: set<string>, now: Time, id: string)
    requires WorldValid(w) && HasJob(w.store, id)
    requires id in exited && id in Ids(w.registry)
    ensures var r := Tick(w, exited, files, now);
      GetJob(r.store, id).Some?
      && GetJob(r.store, id).value.status == ExitStatus(exited[id])
      && GetJob(r.store, id).value.exitCode == Some(exited[id])
      && GetJob(r.store, id).value.outputFiles == Shrunk(GetJob(w.store, id).value.outputFiles, files)
      && id !in Ids(r.registry)
  {
    var done := Select(w.registry, exited, true);
    var x :| x in w.registry && x.jobId == id;
    assert x in done;
    var k :| 0 <= k < |done| && done[k] == x;
    var i :| 0 <= i < |w.store.jobs| && w.store.jobs[i].jobId == id;
    FinishAllRecords(w.store, done, exited, files, now, k, i);
    GetJobAt(w.store, i);
    var r := Tick(w, exited, files, now);
    assert r.store.jobs[i] == w.store.jobs[i].(status := ExitStatus(exited[id]), exitCode := Some(exited[id]),
      endTime := Some(now), outputFiles := Shrunk(w.store.jobs[i].outputFiles, files));
    assert UniqueJobIds(r.store.jobs);
    GetJobAt(r.store, i);
  }

  // ---------------------------------------------------------------------
  // cancel_job
  // ---------------------------------------------------------------------

  /** What `os.kill(pid, SIGTERM)` does. */
  datatype KillOutcome = Signalled | NoSuchProcess | NotPermitted

  datatype CancelError = JobNotFound(jobId: string) | PermissionDenied(pid: int)

  /** The exit code recorded for a cancelled job (minus `SIGTERM`). */
  const CancelledExitCode: int := -15

  /** `cancel_job`: `kill` is what signalling the job's process would do.
      The job stays in the poller's registry. */
  function Cancel(w: World, jobId: string, kill: KillOutcome, now: Time): (r: (World, Result<bool, CancelError>))
    ensures r.0.registry == w.registry && r.0.dirs == w.dirs && r.0.launched == w.launched
    ensures r.1.Err? && r.1.error.JobNotFound? <==> !HasJob(w.store, jobId)
    ensures HasJob(w.store, jobId) && (GetJob(w.store, jobId).value.pid.None? || GetJob(w.store, jobId).value.pid == Some(0))
      ==> r == (w, Ok(false))
    ensures r.1 == Ok(true) <==>
      && HasJob(w.store, jobId) && GetJob(w.store, jobId).value.pid.Some?
      && GetJob(w.store, jobId).value.pid != Some(0) && kill == Signalled
    ensures r.1 == Ok(true) ==> r.0.store == UpdateJobStatus(w.store, jobId, Cancelled, Some(CancelledExitCode), now)
    ensures r.1 != Ok(true) ==> r.0 == w
    ensures r.1.Err? && r.1.error.PermissionDenied? <==>
      && HasJob(w.store, jobId) && GetJob(w.store, jobId).value.pid.Some?
      && GetJob(w.store, jobId).value.pid != Some(0) && kill == NotPermitted
    ensures WorldValid(w) ==> WorldValid(r.0)
  {
    match GetJob(w.store, jobId)
    case None => (w, Err(JobNotFound(jobId)))
    case Some(job) =>
      if job.pid.None? || job.pid.value == 0 then (w, Ok(false))
      else
        match kill
        case Signalled => (w.(store := UpdateJobStatus(w.store, jobId, Cancelled, Some(CancelledExitCode), now)), Ok(true))
        case NoSuchProcess => (w, Ok(false))
        case NotPermitted => (w, Err(PermissionDenied(job.pid.value)))
  }

  /** Statuses are not monotone: a job cancelled while registered whose
      process then exits with a non-zero code is recorded as `failed` by the
      next tick, overwriting `cancelled`. */
  lemma CancelledJobOverwrittenByTick(w: World, id: string, now: Time, later: Time, rc: int, files: set<string>)
    requires WorldValid(w) && HasJob(w.store, id)
    requires id in Ids(w.registry)
    requires var p := GetJob(w.store, id).value.pid; p.Some? && p != Some(0)
    requires rc != 0
    ensures var (w1, res) := Cancel(w, id, Signalled, now);
      && res == Ok(true)
      && GetJob(w1.store, id).value.status == Cancelled
      && GetJob(Tick(w1, map[id := rc], files, later).store, id).value.status == Failed
  {
    var (w1, res) := Cancel(w, id, Signalled, now);
    StatusReadBack(w.store, id, Cancelled, Some(CancelledExitCode), now);
    assert HasJob(w1.store, id);
    TickRecordsExit(w1, map[id := rc], files, later, id);
  }
}

=== FILE: paths.dfy ===
/** POSIX path strings as `os.path.isabs` and `os.path.join` treat them. */
module Paths {

  predicate IsAbs(p: string) {
    |p| > 0 && p[0] == '/'
  }

  /** `os.path.join(a, b)`: an absolute `b` replaces `a`; otherwise a single
      `/` is inserted unless `a` is empty or already ends with one. */
  function Join(a: string, b: string): (r: string)
    ensures IsAbs(b) ==> r == b
    ensures !IsAbs(b) && a != [] && a[|a| - 1] != '/' ==> r == a + "/" + b
    ensures !IsAbs(b) && (a == [] || a[|a| - 1] == '/') ==> r == a + b
    ensures IsAbs(a) ==> IsAbs(r)
  {
    if IsAbs(b) then b
    else if a == [] || a[|a| - 1] == '/' then
      a + b
    else a + "/" + b
  }
}

=== FILE: pipeline.dfy ===
/** Pipeline data flow (`pipeline.py`): which outputs of earlier completed
    jobs feed the input-file parameters of a step, and which main step comes
    next. The flow-rule table is a parameter here; the table the server uses
    is `FlowRules.Rules()`. */
module Pipeline {
  import opened Wrappers
  import opened Values
  import opened Catalogue
  import opened Sorting
  import opened Store

  /** One entry of `FLOW_RULES`: output `outKey` of step `src` feeds
      parameter `tgtParam` of step `tgt`. */
  datatype Rule = Rule(src: string, outKey: string, tgt: string, tgtParam: string)

  /** One entry of `_RULES_BY_TARGET[tgt]`. */
  datatype Feed = Feed(src: string, outKey: string, tgtParam: string)

  /** `_RULES_BY_TARGET.get(tgt, [])`: the rules aimed at `tgt`, in table
      order, without their target. */
  function RulesByTarget(rules: seq<Rule>, tgt: string): (r: seq<Feed>)
    ensures |r| <= |rules|
    ensures forall f :: f in r <==> exists x :: x in rules && x.tgt == tgt && f == Feed(x.src, x.outKey, x.tgtParam)
    decreases |rules|
  {
    if rules == [] then []
    else
      var x := rules[|rules| - 1];
      var rest := RulesByTarget(rules[..|rules| - 1], tgt);
      assert forall y :: y in rules <==> y in rules[..|rules| - 1] || y == x by {
        assert rules == rules[..|rules| - 1] + [x];
      }
      if x.tgt == tgt then rest + [Feed(x.src, x.outKey, x.tgtParam)] else rest
  }

  /** Adding rules for other targets does not change a target's feeds, and
      the feeds of a concatenation are the concatenated feeds: the table
      keeps its order per target. */
  lemma {:induction false} RulesByTargetAppend(a: seq<Rule>, b: seq<Rule>, tgt: string)
    ensures RulesByTarget(a + b, tgt) == RulesByTarget(a, tgt) + RulesByTarget(b, tgt)
    decreases |b|
  {
    if b != [] {
      var ab := a + b;
      assert ab[..|ab| - 1] == a + b[..|b| - 1];
      assert ab[|ab| - 1] == b[|b| - 1];
      RulesByTargetAppend(a, b[..|b| - 1], tgt);
    } else {
      assert a + b == a;
    }
  }

  /** An entry of `_OUTPUT_KEY_TO_INPUT_PARAM`. */
  datatype GenericName = GenericName(outKey: string, param: string)

  /** `_OUTPUT_KEY_TO_INPUT_PARAM`, in insertion order. */
  function GenericNames(): seq<GenericName> {
    [GenericName("fasta", "input_fasta"), GenericName("biom", "input_biom"),
     GenericName("rdata", "phyloseq_rdata"), GenericName("tree", "tree_nwk"),
     GenericName("tsv", "input_tsv"), GenericName("compo", "input_compo")]
  }

  // ---------------------------------------------------------------------
  // Completed jobs and the two indexes
  // ---------------------------------------------------------------------

  /** A job that can feed later steps: completed, with a non-empty output
      map. */
  predicate Contributing(j: Job) {
    j.status == Completed && j.outputFiles.Some? && |j.outputFiles.value| > 0
  }

  function Filter(js: seq<Job>): (r: seq<Job>)
    ensures forall j :: j in r <==> j in js && Contributing(j)
    ensures forall j :: multiset(r)[j] == if Contributing(j) then multiset(js)[j] else 0
  {
    if js == [] then []
    else
      assert js == [js[0]] + js[1..];
      (if Contributing(js[0]) then [js[0]] else []) + Filter(js[1..])
  }

  /** `_get_completed_jobs_for_project`: the contributing jobs among
      `list_jobs(project_id)`, which for an empty id is every job. */
  function Contributors(s: Store, pid: string): (r: seq<Job>)
    ensures forall j :: j in r <==>
      j in s.jobs && Contributing(j) && (pid == "" || j.projectId == Some(pid))
  {
    var listed := ListJobs(s, Some(pid));
    assert forall j :: j in listed <==> j in s.jobs && (pid == "" || j.projectId == Some(pid)) by {
      forall j ensures j in listed <==> j in s.jobs && (pid == "" || j.projectId == Some(pid)) {
        assert j in listed <==> multiset(listed)[j] > 0;
        assert j in s.jobs <==> multiset(s.jobs)[j] > 0;
      }
    }
    Filter(listed)
  }

  /** How a job's step name is spelled inside a full key: Python formats a
      missing name as `None`. */
  function StepLabel(j: Job): string {
    if j.stepName.Some? then j.stepName.value else "None"
  }

  /** `f"{src_step}.{out_key}"`. */
  function FullKey(src: string, outKey: string): string {
    src + "." + outKey
  }

  lemma FullKeyInjective(src: string, a: string, b: string)
    requires FullKey(src, a) == FullKey(src, b)
    ensures a == b
  {
    assert a == FullKey(src, a)[|src| + 1..];
    assert b == FullKey(src, b)[|src| + 1..];
  }

  /** The outputs of a job the indexes take: non-empty paths only. */
  function Good(j: Job): (r: map<string, string>)
    ensures forall k :: k in r <==> j.outputFiles.Some? && k in j.outputFiles.value && j.outputFiles.value[k] != ""
    ensures forall k :: k in r ==> r[k] == j.outputFiles.value[k] && r[k] != ""
  {
    var outs := if j.outputFiles.Some? then j.outputFiles.value else map[];
    map k | k in outs && outs[k] != "" :: outs[k]
  }

  /** The job's entries of the full index. */
  function GoodFull(j: Job): (r: map<string, string>)
    ensures forall fk :: fk in r <==> exists k :: k in Good(j) && fk == FullKey(StepLabel(j), k)
    ensures forall k :: k in Good(j) ==> FullKey(StepLabel(j), k) in r && r[FullKey(StepLabel(j), k)] == Good(j)[k]
  {
    var g := Good(j);
    var tag := StepLabel(j);
    assert forall a, b :: a in g && b in g && FullKey(tag, a) == FullKey(tag, b) ==> g[a] == g[b] by {
      forall a, b | a in g && b in g && FullKey(tag, a) == FullKey(tag, b) ensures g[a] == g[b] {
        FullKeyInjective(tag, a, b);
      }
    }
    map k | k in g :: FullKey(tag, k) := g[k]
  }

  /** `full_index` (step-qualified keys) and `key_index` (bare keys). */
  datatype Indexes = Indexes(full: map<string, string>, loose: map<string, string>)

  /** The maps of `ms` applied in order with `dict.update`: a later map
      overwrites an earlier one's entry. */
  function Overlay(ms: seq<map<string, string>>): map<string, string>
    decreases |ms|
  {
    if ms == [] then map[] else Overlay(ms[..|ms| - 1]) + ms[|ms| - 1]
  }

  /** An overlay holds a key exactly when some map does, with the value of
      the last map that holds it. */
  lemma {:induction false} OverlayLastWriter(ms: seq<map<string, string>>, k: string)
    ensures k in Overlay(ms) <==> exists m :: 0 <= m < |ms| && k in ms[m]
    ensures k in Overlay(ms) ==>
      exists m :: 0 <= m < |ms| && k in ms[m] && Overlay(ms)[k] == ms[m][k]
        && forall n :: m < n < |ms| ==> k !in ms[n]
    decreases |ms|
  {
    if ms != [] {
      var pre := ms[..|ms| - 1];
      var last := |ms| - 1;
      OverlayLastWriter(pre, k);
      assert forall m :: 0 <= m < last ==> pre[m] == ms[m];
      assert k in Overlay(ms) <==> k in Overlay(pre) || k in ms[last];
      if k in ms[last] {
        assert Overlay(ms)[k] == ms[last][k];
      } else if k in Overlay(pre) {
        var m :| 0 <= m < |pre| && k in pre[m] && Overlay(pre)[k] == pre[m][k]
          && forall n :: m < n < |pre| ==> k !in pre[n];
        assert ms[m] == pre[m] && Overlay(ms)[k] == Overlay(pre)[k];
        forall n | m < n < |ms| ensures k !in ms[n] {
          if n < last { assert pre[n] == ms[n]; }
        }
      } else {
        forall m | 0 <= m < |ms| ensures k !in ms[m] {
          if m < last { assert pre[m] == ms[m]; }
        }
      }
    }
  }

  /** The contribution of each job to the full index. */
  function FullMaps(jobs: seq<Job>): (r: seq<map<string, string>>)
    ensures |r| == |jobs| && forall i :: 0 <= i < |jobs| ==> r[i] == GoodFull(jobs[i])
  {
    seq(|jobs|, i requires 0 <= i < |jobs| => GoodFull(jobs[i]))
  }

  /** The contribution of each job to the bare-key index. */
  function LooseMaps(jobs: seq<Job>): (r: seq<map<string, string>>)
    ensures |r| == |jobs| && forall i :: 0 <= i < |jobs| ==> r[i] == Good(jobs[i])
  {
    seq(|jobs|, i requires 0 <= i < |jobs| => Good(jobs[i]))
  }

  /** The indexes after the jobs of `jobs`, in order. */
  function BuildIndexes(jobs: seq<Job>): Indexes {
    Indexes(Overlay(FullMaps(jobs)), Overlay(LooseMaps(jobs)))
  }

  /** With the jobs in ascending start-time order, the bare-key entry comes
      from a job that started no earlier than any other job with that
      output. */
  lemma LatestStartWins(jobs: seq<Job>, k: string)
    requires SortedBy(jobs, (j: Job) => j.startTime as int)
    requires k in BuildIndexes(jobs).loose
    ensures exists m :: (0 <= m < |jobs| && k in Good(jobs[m]) && BuildIndexes(jobs).loose[k] == Good(jobs[m])[k]
      && forall n :: 0 <= n < |jobs| && k in Good(jobs[n]) ==> jobs[n].startTime <= jobs[m].startTime)
  {
    var ms := LooseMaps(jobs);
    OverlayLastWriter(ms, k);
    var m :| 0 <= m < |ms| && k in ms[m] && Overlay(ms)[k] == ms[m][k]
      && forall n :: m < n < |ms| ==> k !in ms[n];
    assert ms[m] == Good(jobs[m]);
    assert forall n :: m < n < |jobs| ==> k !in Good(jobs[n]) by {
      forall n | m < n < |jobs| ensures k !in Good(jobs[n]) {
        assert ms[n] == Good(jobs[n]);
      }
    }
    LastIsLatest(jobs, k, m);
  }

  lemma LastIsLatest(jobs: seq<Job>, k: string, m: int)
    requires SortedBy(jobs, (j: Job) => j.startTime as int)
    requires 0 <= m < |jobs| && forall n :: m < n < |jobs| ==> k !in Good(jobs[n])
    ensures forall n :: 0 <= n < |jobs| && k in Good(jobs[n]) ==> jobs[n].startTime <= jobs[m].startTime
  {
    forall n | 0 <= n < |jobs| && k in Good(jobs[n]) ensures jobs[n].startTime <= jobs[m].startTime {
      if n < m {
        assert (jobs[n].startTime as int) <= (jobs[m].startTime as int);
      }
    }
  }

  // ---------------------------------------------------------------------
  // Applying the rules and the generic fallback
  // ---------------------------------------------------------------------

  /** What one rule finds: the step-qualified entry if present, otherwise
      the bare-key entry, otherwise nothing. */
  function Lookup(f: Feed, ix: Indexes): (r: Option<string>)
    ensures FullKey(f.src, f.outKey) in ix.full ==> r == Some(ix.full[FullKey(f.src, f.outKey)])
    ensures FullKey(f.src, f.outKey) !in ix.full && f.outKey in ix.loose ==> r == Some(ix.loose[f.outKey])
    ensures FullKey(f.src, f.outKey) !in ix.full && f.outKey !in ix.loose ==> r.None?
  {
    var fk := FullKey(f.src, f.outKey);
    if fk in ix.full then Some(ix.full[fk])
    else if f.outKey in ix.loose then Some(ix.loose[f.outKey])
    else None
  }

  /** A rule's lookup against the indexes of `jobs` (in the order they are
      applied): the last job that wrote the step-qualified key supplies the
      path; only when no job wrote it does the last job that wrote the bare
      key supply it; otherwise the rule finds nothing. */
  lemma LookupFromJobs(jobs: seq<Job>, f: Feed)
    ensures Lookup(f, BuildIndexes(jobs)).Some? <==>
      exists m :: 0 <= m < |jobs| && (FullKey(f.src, f.outKey) in GoodFull(jobs[m]) || f.outKey in Good(jobs[m]))
    ensures var fk := FullKey(f.src, f.outKey);
      (exists m :: 0 <= m < |jobs| && fk in GoodFull(jobs[m])) ==>
        exists m :: 0 <= m < |jobs| && fk in GoodFull(jobs[m])
          && Lookup(f, BuildIndexes(jobs)) == Some(GoodFull(jobs[m])[fk])
          && forall n :: m < n < |jobs| ==> fk !in GoodFull(jobs[n])
    ensures (forall m :: 0 <= m < |jobs| ==> FullKey(f.src, f.outKey) !in GoodFull(jobs[m])) &&
            Lookup(f, BuildIndexes(jobs)).Some? ==>
      exists m :: 0 <= m < |jobs| && f.outKey in Good(jobs[m])
        && Lookup(f, BuildIndexes(jobs)) == Some(Good(jobs[m])[f.outKey])
        && forall n :: m < n < |jobs| ==> f.outKey !in Good(jobs[n])
  {
    var fk := FullKey(f.src, f.outKey);
    var fm, lm := FullMaps(jobs), LooseMaps(jobs);
    OverlayLastWriter(fm, fk);
    OverlayLastWriter(lm, f.outKey);
    assert forall m :: 0 <= m < |jobs| ==> fm[m] == GoodFull(jobs[m]) && lm[m] == Good(jobs[m]);
  }

  /** The rule loop over `feeds`: a rule whose parameter is an input file
      of the target and whose lookup succeeds sets that parameter. */
  function ApplyRules(feeds: seq<Feed>, inputs: set<string>, ix: Indexes): (r: map<string, string>)
    ensures r.Keys <= inputs
    ensures forall p :: p in r ==> r[p] in ix.full.Values || r[p] in ix.loose.Values
    decreases |feeds|
  {
    if feeds == [] then map[]
    else
      var prev := ApplyRules(feeds[..|feeds| - 1], inputs, ix);
      var f := feeds[|feeds| - 1];
      if f.tgtParam !in inputs then prev
      else match Lookup(f, ix)
        case Some(path) => prev[f.tgtParam := path]
        case None => prev
  }

  /** A rule "succeeds" for `p`: it targets `p`, `p` is an input file, and
      its lookup finds a path. */
  predicate Succeeds(f: Feed, p: string, inputs: set<string>, ix: Indexes) {
    f.tgtParam == p && p in inputs && Lookup(f, ix).Some?
  }

  /** When several rules target one parameter, the last one that succeeds
      determines its value; a parameter no rule succeeds for stays unset. */
  lemma {:induction false} LastSuccessfulRuleWins(feeds: seq<Feed>, inputs: set<string>, ix: Indexes, p: string)
    ensures p in ApplyRules(feeds, inputs, ix) <==> exists i :: 0 <= i < |feeds| && Succeeds(feeds[i], p, inputs, ix)
    ensures p in ApplyRules(feeds, inputs, ix) ==>
      exists i :: 0 <= i < |feeds| && Succeeds(feeds[i], p, inputs, ix)
        && ApplyRules(feeds, inputs, ix)[p] == Lookup(feeds[i], ix).value
        && forall n :: i < n < |feeds| ==> !Succeeds(feeds[n], p, inputs, ix)
    decreases |feeds|
  {
    if feeds != [] {
      var pre := feeds[..|feeds| - 1];
      var last := |feeds| - 1;
      LastSuccessfulRuleWins(pre, inputs, ix, p);
      if !Succeeds(feeds[last], p, inputs, ix) {
        assert ApplyRules(feeds, inputs, ix).Keys == ApplyRules(pre, inputs, ix).Keys + (if feeds[last].tgtParam in inputs && Lookup(feeds[last], ix).Some? then {feeds[last].tgtParam} else {});
        if exists i :: 0 <= i < |feeds| && Succeeds(feeds[i], p, inputs, ix) {
          var i :| 0 <= i < |feeds| && Succeeds(feeds[i], p, inputs, ix);
          assert pre[i] == feeds[i];
        }
        if p in ApplyRules(feeds, inputs, ix) {
          var i :| 0 <= i < |pre| && Succeeds(pre[i], p, inputs, ix)
            && ApplyRules(pre, inputs, ix)[p] == Lookup(pre[i], ix).value
            && forall n :: i < n < |pre| ==> !Succeeds(pre[n], p, inputs, ix);
          assert feeds[i] == pre[i];
          assert forall n :: i < n < |feeds| ==> !Succeeds(feeds[n], p, inputs, ix) by {
            forall n | i < n < |feeds| ensures !Succeeds(feeds[n], p, inputs, ix) {
              if n < last { assert feeds[n] == pre[n]; }
            }
          }
        }
      }
    }
  }

  /** The generic fallback for parameter `p`: the path under the first
      output key whose generic input name is `p` and that the bare-key index
      holds. */
  function GenericFor(table: seq<GenericName>, p: string, loose: map<string, string>): (r: Option<string>)
    ensures r.None? <==> forall i :: 0 <= i < |table| ==> !(table[i].param == p && table[i].outKey in loose)
    ensures r.Some? ==> exists i :: (0 <= i < |table| && table[i].param == p && table[i].outKey in loose
      && r.value == loose[table[i].outKey]
      && forall j :: 0 <= j < i ==> !(table[j].param == p && table[j].outKey in loose))
  {
    if table == [] then None
    else if table[0].param == p && table[0].outKey in loose then Some(loose[table[0].outKey])
    else
      var r := GenericFor(table[1..], p, loose);
      assert forall i :: 1 <= i < |table| ==> table[1..][i - 1] == table[i];
      r
  }

  /** The generic loop: fills each input parameter the rules left unset
      that has a generic source; resolved parameters are left alone. */
  function Fallback(resolved: map<string, string>, inputs: set<string>, table: seq<GenericName>,
                    loose: map<string, string>): (r: map<string, string>)
    ensures forall p :: p in resolved ==> p in r && r[p] == resolved[p]
    ensures forall p :: p in r && p !in resolved <==> p in inputs && p !in resolved && GenericFor(table, p, loose).Some?
    ensures forall p :: p in r && p !in resolved ==> r[p] == GenericFor(table, p, loose).value
  {
    resolved + map p | p in inputs && p !in resolved && GenericFor(table, p, loose).Some? :: GenericFor(table, p, loose).value
  }

  /** `resolve_inputs_for_step` for the catalogue `tools` and flow rules
      `rules`: the contributing jobs in ascending start order build the
      indexes, the rules aimed at the step fill its input parameters, and
      the generic names fill what is left. */
  function ResolveInputs(tools: seq<ToolSpec>, rules: seq<Rule>, s: Store, pid: string, step: string): (r: map<string, string>)
    ensures FindTool(tools, step).None? ==> r == map[]
    ensures Contributors(s, pid) == [] ==> r == map[]
    ensures FindTool(tools, step).Some? ==> r.Keys <= InputParamNames(FindTool(tools, step).value)
  {
    match FindTool(tools, step)
    case None => map[]
    case Some(t) =>
      var done := Contributors(s, pid);
      if done == [] then map[]
      else
        var ix := BuildIndexes(SortBy(done, (j: Job) => j.startTime as int));
        var inputs := InputParamNames(t);
        var resolved := ApplyRules(RulesByTarget(rules, step), inputs, ix);
        Fallback(resolved, inputs, GenericNames(), ix.loose)
  }

  /** Every index entry is a non-empty output path of one of the jobs. */
  lemma IndexValuesFromJobs(jobs: seq<Job>, v: string)
    requires v in BuildIndexes(jobs).full.Values || v in BuildIndexes(jobs).loose.Values
    ensures v != "" && exists j, k :: j in jobs && k in Good(j) && Good(j)[k] == v
  {
    var ix := BuildIndexes(jobs);
    if v in ix.loose.Values {
      var k :| k in ix.loose && ix.loose[k] == v;
      OverlayLastWriter(LooseMaps(jobs), k);
      var m :| 0 <= m < |jobs| && k in LooseMaps(jobs)[m] && ix.loose[k] == LooseMaps(jobs)[m][k];
      assert jobs[m] in jobs;
    } else {
      var fk :| fk in ix.full && ix.full[fk] == v;
      OverlayLastWriter(FullMaps(jobs), fk);
      var m :| 0 <= m < |jobs| && fk in FullMaps(jobs)[m] && ix.full[fk] == FullMaps(jobs)[m][fk];
      var k :| k in Good(jobs[m]) && fk == FullKey(StepLabel(jobs[m]), k);
      assert jobs[m] in jobs;
    }
  }

  /** Every resolved value is a non-empty path from the output map of a
      completed job of the project. */
  lemma ResolvedFromContributors(tools: seq<ToolSpec>, rules: seq<Rule>, s: Store, pid: string, step: string, p: string)
    requires p in ResolveInputs(tools, rules, s, pid, step)
    ensures var v := ResolveInputs(tools, rules, s, pid, step)[p];
      v != "" && exists j, k :: j in Contributors(s, pid) && k in Good(j) && Good(j)[k] == v
  {
    var t := FindTool(tools, step).value;
    var done := Contributors(s, pid);
    var sorted := SortBy(done, (j: Job) => j.startTime as int);
    var ix := BuildIndexes(sorted);
    var inputs := InputParamNames(t);
    var resolved := ApplyRules(RulesByTarget(rules, step), inputs, ix);
    var v := ResolveInputs(tools, rules, s, pid, step)[p];
    if p in resolved {
      IndexValuesFromJobs(sorted, v);
    } else {
      var i :| 0 <= i < |GenericNames()| && GenericNames()[i].param == p && GenericNames()[i].outKey in ix.loose
        && v == ix.loose[GenericNames()[i].outKey];
      IndexValuesFromJobs(sorted, v);
    }
    var j, k :| j in sorted && k in Good(j) && Good(j)[k] == v;
    assert multiset(sorted)[j] > 0;
  }

  // ---------------------------------------------------------------------
  // Status summary and next step
  // ---------------------------------------------------------------------

  /** `{s["step_name"]: s for s in steps}.get(name)`: the status of the last
      row with that name. */
  function StatusOf(steps: seq<StepView>, name: string): (r: Option<Status>)
    ensures r.None? <==> forall i :: 0 <= i < |steps| ==> steps[i].row.stepName != name
    ensures r.Some? ==> exists i :: (0 <= i < |steps| && steps[i].row.stepName == name
      && r.value == steps[i].row.status && forall n :: i < n < |steps| ==> steps[n].row.stepName != name)
    decreases |steps|
  {
    if steps == [] then None
    else if steps[|steps| - 1].row.stepName == name then Some(steps[|steps| - 1].row.status)
    else
      var r := StatusOf(steps[..|steps| - 1], name);
      assert forall i :: 0 <= i < |steps| - 1 ==> steps[..|steps| - 1][i] == steps[i];
      r
  }

  /** A step still to run: pending, or with no row at all. */
  predicate Open(steps: seq<StepView>, name: string) {
    StatusOf(steps, name).None? || StatusOf(steps, name) == Some(Pending)
  }

  /** The next-step choice: the first step of `order` that is open. */
  function NextStep(order: seq<string>, steps: seq<StepView>): (r: Option<string>)
    ensures r.None? <==> forall i :: 0 <= i < |order| ==> !Open(steps, order[i])
    ensures r.Some? ==> exists i :: (0 <= i < |order| && order[i] == r.value && Open(steps, r.value)
      && forall n :: 0 <= n < i ==> !Open(steps, order[n]))
  {
    if order == [] then None
    else if Open(steps, order[0]) then Some(order[0])
    else
      var r := NextStep(order[1..], steps);
      assert forall i :: 1 <= i < |order| ==> order[1..][i - 1] == order[i];
      if r.Some? then
        var i :| 0 <= i < |order[1..]| && order[1..][i] == r.value && Open(steps, r.value)
          && forall n :: 0 <= n < i ==> !Open(steps, order[1..][n]);
        assert order[i + 1] == r.value;
        assert forall n :: 0 <= n < i + 1 ==> !Open(steps, order[n]) by {
          forall n | 0 <= n < i + 1 ensures !Open(steps, order[n]) {
            if n > 0 { assert order[n] == order[1..][n - 1]; }
          }
        }
        r
      else r
  }

  /** The number of rows with status `st`. */
  function Count(steps: seq<StepView>, st: Status): (r: nat)
    ensures r <= |steps|
    decreases |steps|
  {
    if steps == [] then 0
    else Count(steps[..|steps| - 1], st) + (if steps[|steps| - 1].row.status == st then 1 else 0)
  }

  /** The four counts never add up to more than the number of rows. */
  lemma {:induction false} CountsBounded(steps: seq<StepView>)
    ensures Count(steps, Completed) + Count(steps, Failed) + Count(steps, Running) + Count(steps, Pending) <= |steps|
    decreases |steps|
  {
    if steps != [] {
      CountsBounded(steps[..|steps| - 1]);
    }
  }

  datatype Summary = Summary(
    steps: seq<StepView>,
    completed: nat,
    failed: nat,
    running: nat,
    pending: nat,
    total: nat,
    next: Option<string>)

  /** `get_pipeline_status_summary` with main-step list `order`. */
  function StatusSummary(s: Store, pid: string, order: seq<string>): (r: Summary)
    ensures r.steps == GetPipelineSteps(s, pid) && r.total == |r.steps|
    ensures r.completed + r.failed + r.running + r.pending <= r.total
    ensures r.completed == Count(r.steps, Completed) && r.failed == Count(r.steps, Failed)
    ensures r.running == Count(r.steps, Running) && r.pending == Count(r.steps, Pending)
    ensures r.next == NextStep(order, r.steps)
    ensures r.next.Some? ==> exists i :: (0 <= i < |order| && order[i] == r.next.value && Open(r.steps, r.next.value)
      && forall n :: 0 <= n < i ==> !Open(r.steps, order[n]))
    ensures r.next.None? <==> forall i :: 0 <= i < |order| ==> !Open(r.steps, order[i])
  {
    var steps := GetPipelineSteps(s, pid);
    CountsBounded(steps);
    Summary(steps, Count(steps, Completed), Count(steps, Failed), Count(steps, Running),
            Count(steps, Pending), |steps|, NextStep(order, steps))
  }

  /** The names of `names` that are open, in order: the optional steps the
      recommendation lists once the main pipeline is done. */
  function OpenSteps(names: seq<string>, steps: seq<StepView>): (r: seq<string>)
    ensures forall x :: x in r <==> x in names && Open(steps, x)
    ensures |r| <= |names|
  {
    if names == [] then []
    else (if Open(steps, names[0]) then [names[0]] else []) + OpenSteps(names[1..], steps)
  }

  /** The parameters the caller must still supply: required, not resolved,
      and not output files, in declaration order. */
  function StillRequired(t: ToolSpec, resolved: map<string, string>): (r: seq<string>)
    ensures |r| <= |t.params|
    ensures forall x :: x in r <==> exists k :: (0 <= k < |t.params| && t.params[k].name == x
      && t.params[k].required && x !in resolved && !t.params[k].isOutputFile)
    decreases |t.params|
  {
    if t.params == [] then []
    else
      var p := t.params[0];
      var rest := StillRequired(t.(params := t.params[1..]), resolved);
      assert forall k :: 1 <= k < |t.params| ==> t.params[1..][k - 1] == t.params[k];
      (if p.required && p.name !in resolved && !p.isOutputFile then [p.name] else []) + rest
  }

  /** What `get_pipeline_recommendations` reports, without its markdown. */
  datatype Recommendation =
    | ProjectNotFound
    | NoSteps
    | MainComplete(optional: seq<string>)
    | Proceed(step: string, resolved: map<string, string>, stillRequired: seq<string>)

  /** `get_pipeline_recommendations` with main steps `order` and optional
      steps `optional`. */
  function Recommend(tools: seq<ToolSpec>, rules: seq<Rule>, s: Store, pid: string,
                     order: seq<string>, optional: seq<string>): (r: Recommendation)
    ensures r == ProjectNotFound <==> !HasProject(s, pid)
    ensures r == NoSteps <==> HasProject(s, pid) && GetPipelineSteps(s, pid) == []
    ensures r.MainComplete? ==> forall i :: 0 <= i < |order| ==> !Open(GetPipelineSteps(s, pid), order[i])
    ensures r.MainComplete? ==> forall x :: x in r.optional <==> x in optional && Open(GetPipelineSteps(s, pid), x)
    ensures r.Proceed? ==> NextStep(order, GetPipelineSteps(s, pid)) == Some(r.step)
    ensures r.Proceed? ==> r.step in order && Open(GetPipelineSteps(s, pid), r.step)
    ensures r.Proceed? ==> r == Advise(tools, rules, s, pid, r.step)
  {
    match GetProject(s, pid)
    case None => ProjectNotFound
    case Some(_) =>
      var steps := GetPipelineSteps(s, pid);
      if steps == [] then NoSteps
      else match NextStep(order, steps)
        case None => MainComplete(OpenSteps(optional, steps))
        case Some(step) => Advise(tools, rules, s, pid, step)
  }

  /** The advice for the chosen next step: its resolved inputs and the
      required parameters they leave open. */
  function Advise(tools: seq<ToolSpec>, rules: seq<Rule>, s: Store, pid: string, step: string): (r: Recommendation)
    ensures r.Proceed? && r.step == step
    ensures r.resolved == ResolveInputs(tools, rules, s, pid, step)
    ensures FindTool(tools, step).None? ==> r.stillRequired == []
    ensures forall x :: x in r.stillRequired ==> x !in r.resolved
  {
    var resolved := ResolveInputs(tools, rules, s, pid, step);
    var missing := match FindTool(tools, step)
      case None => []
      case Some(t) => StillRequired(t, resolved);
    Proceed(step, resolved, missing)
  }

  /** The recommendation and the status summary pick the same next step:
      the recommendation proceeds exactly when the project has steps and the
      summary names a next step, and then with that step. */
  lemma RecommendAgreesWithSummary(tools: seq<ToolSpec>, rules: seq<Rule>, s: Store, pid: string,
                                   order: seq<string>, optional: seq<string>)
    requires HasProject(s, pid) && GetPipelineSteps(s, pid) != []
    ensures Recommend(tools, rules, s, pid, order, optional).Proceed? <==> StatusSummary(s, pid, order).next.Some?
    ensures Recommend(tools, rules, s, pid, order, optional).Proceed? ==>
      Recommend(tools, rules, s, pid, order, optional).step == StatusSummary(s, pid, order).next.value
  {
  }
}

=== FILE: server.dfy ===
/** The server's own logic (`server.py`): the step list a new project is
    given, the guards and parameter merge of `submit_pipeline_step`, the
    category filter of `list_tools` and the step counts of `list_projects`.
    The server's constants travel in a `Setup`; `Deployed` is the one the
    server uses. */
module Server {
  import opened Wrappers
  import opened Values
  import opened Paths
  import opened Catalogue
  import opened CatalogueFacts
  import opened CatalogueChecks
  import opened Store
  import opened Jobs
  import opened Pipeline
  import FlowRules
  import Command

  /** The server's constants: the job configuration, the flow rules, and
      the main and optional step lists. */
  datatype Setup = Setup(jobs: Config, rules: seq<Rule>, main: seq<string>, optional: seq<string>)

  /** The setup `server.py` runs with. */
  function Deployed(launcher: Command.Launcher, workspaceRoot: string): Setup {
    Setup(Config(launcher, workspaceRoot, Tools()), FlowRules.Rules(), PipelineOrder(), OptionalSteps())
  }

  // ---------------------------------------------------------------------
  // _all_steps_ordered
  // ---------------------------------------------------------------------

  /** `_all_steps_ordered`: the main steps numbered from 1, then the
      optional steps numbered on from there. */
  function AllStepsOrdered(main: seq<string>, optional: seq<string>): (r: seq<StepInit>)
    ensures |r| == |main| + |optional|
    ensures forall i :: 0 <= i < |r| ==> r[i].stepName == (main + optional)[i]
    ensures forall i :: 0 <= i < |r| ==> r[i].stepOrder == i + 1
    ensures forall i :: 0 <= i < |r| ==> (r[i].isOptional <==> i >= |main|)
  {
    var names := main + optional;
    seq(|names|, i requires 0 <= i < |names| => StepInit(names[i], i + 1, i >= |main|))
  }

  /** For the deployed lists: 28 steps, one per catalogue entry and in
      catalogue order, with distinct names and strictly increasing orders;
      the first 12 are the mandatory ones. */
  lemma AllStepsOrderedCoversCatalogue()
    ensures var r := AllStepsOrdered(PipelineOrder(), OptionalSteps());
      && |r| == 28
      && (forall i :: 0 <= i < 28 ==> r[i].stepName == ListToolNames()[i])
      && (forall i, j :: 0 <= i < j < 28 ==> r[i].stepName != r[j].stepName && r[i].stepOrder < r[j].stepOrder)
      && (forall i :: 0 <= i < 28 ==> (r[i].isOptional <==> 12 <= i))
  {
    StepListsPartitionCatalogue();
    PipelineOrderDistinct();
    OptionalStepsDistinct();
  }

  // ---------------------------------------------------------------------
  // create_project
  // ---------------------------------------------------------------------

  /** The project directory: the one given, or `<workspace>/<project id>`
      when none (or an empty one) is given. */
  function ProjectDir(workspaceRoot: string, projectId: string, workingDir: Option<string>): (r: string)
    ensures workingDir.Some? && workingDir.value != "" ==> r == workingDir.value
    ensures workingDir.None? || workingDir.value == "" ==> r == Join(workspaceRoot, projectId)
  {
    if workingDir.Some? && workingDir.value != "" then workingDir.value else Join(workspaceRoot, projectId)
  }

  /** `create_project` with the fresh id `projectId` (the source's truncated
      uuid): creates the directory, records the project and gives it every
      step of `AllStepsOrdered`. Reusing an id is the store's key violation. */
  function CreateProjectWithSteps(setup: Setup, w: World, projectId: string, name: string, description: string,
                         workingDir: Option<string>, now: Time): (r: (World, Result<Project, StoreError>))
    ensures r.1.Err? <==> HasProject(w.store, projectId)
    ensures r.0.dirs == w.dirs + {ProjectDir(setup.jobs.workspaceRoot, projectId, workingDir)}
    ensures r.0.registry == w.registry && r.0.launched == w.launched
    ensures r.1.Err? ==> r.0.store == w.store
    ensures r.1.Ok? ==>
      && GetProject(r.0.store, projectId) == Some(r.1.value)
      && r.1.value.workingDir == ProjectDir(setup.jobs.workspaceRoot, projectId, workingDir)
      && r.0.store.jobs == w.store.jobs
      && forall m :: 0 <= m < |setup.main| + |setup.optional| ==>
           HasStep(r.0.store.steps, projectId, (setup.main + setup.optional)[m])
    ensures WorldValid(w) ==> WorldValid(r.0)
  {
    var dir := ProjectDir(setup.jobs.workspaceRoot, projectId, workingDir);
    var w1 := w.(dirs := w.dirs + {dir});
    match CreateProject(w.store, projectId, name, description, dir, map[], now)
    case Err(e) => (w1, Err(e))
    case Ok((s1, p)) =>
      var inits := AllStepsOrdered(setup.main, setup.optional);
      assert HasProject(s1, projectId);
      var s2 := InitializePipelineSteps(s1, projectId, inits).value;
      assert forall m :: 0 <= m < |inits| ==> inits[m].stepName == (setup.main + setup.optional)[m];
      assert GetProject(s2, projectId) == GetProject(s1, projectId);
      (w1.(store := s2), Ok(p))
  }

  /** Every step row of a project that did not exist before its creation is
      pending: the store's step rows all belong to existing projects. */
  lemma NewProjectRowsPending(setup: Setup, w: World, projectId: string, name: string, description: string,
                              workingDir: Option<string>, now: Time)
    requires WorldValid(w) && !HasProject(w.store, projectId)
    ensures var s := CreateProjectWithSteps(setup, w, projectId, name, description, workingDir, now).0.store;
      forall k :: 0 <= k < |s.steps| && s.steps[k].projectId == projectId ==> s.steps[k].status == Pending
  {
    var dir := ProjectDir(setup.jobs.workspaceRoot, projectId, workingDir);
    var (s1, p) := CreateProject(w.store, projectId, name, description, dir, map[], now).value;
    assert forall k :: 0 <= k < |s1.steps| ==> s1.steps[k].projectId != projectId by {
      forall k | 0 <= k < |s1.steps| ensures s1.steps[k].projectId != projectId {
        assert HasProject(w.store, w.store.steps[k].projectId);
      }
    }
    InitFreshPending(s1, projectId, AllStepsOrdered(setup.main, setup.optional));
  }

  /** Initialising the steps of a project that had no rows leaves only
      pending rows for it. */
  lemma InitFreshPending(s: Store, pid: string, inits: seq<StepInit>)
    requires forall k :: 0 <= k < |s.steps| ==> s.steps[k].projectId != pid
    requires InitializePipelineSteps(s, pid, inits).Ok?
    ensures var s' := InitializePipelineSteps(s, pid, inits).value;
      forall k :: 0 <= k < |s'.steps| && s'.steps[k].projectId == pid ==> s'.steps[k].status == Pending
  {
    var s' := InitializePipelineSteps(s, pid, inits).value;
    forall k | 0 <= k < |s'.steps| && s'.steps[k].projectId == pid ensures s'.steps[k].status == Pending {
      if k < |s.steps| {
        assert false;
      }
    }
  }

  /** A new project's recommended next step is the first main step. */
  lemma NewProjectStartsAtFirstStep(setup: Setup, w: World, projectId: string, name: string,
                                    description: string, workingDir: Option<string>, now: Time)
    requires WorldValid(w) && !HasProject(w.store, projectId) && setup.main != []
    ensures var s := CreateProjectWithSteps(setup, w, projectId, name, description, workingDir, now).0.store;
      StatusSummary(s, projectId, setup.main).next == Some(setup.main[0])
  {
    var s := CreateProjectWithSteps(setup, w, projectId, name, description, workingDir, now).0.store;
    NewProjectRowsPending(setup, w, projectId, name, description, workingDir, now);
    ViewsPending(s, projectId);
    PendingIsOpen(GetPipelineSteps(s, projectId), setup.main[0]);
  }

  /** When every step row of a project is pending, so is every entry of its
      pipeline view. */
  lemma ViewsPending(s: Store, pid: string)
    requires forall k :: 0 <= k < |s.steps| && s.steps[k].projectId == pid ==> s.steps[k].status == Pending
    ensures forall i :: 0 <= i < |GetPipelineSteps(s, pid)| ==> GetPipelineSteps(s, pid)[i].row.status == Pending
  {
    var steps := GetPipelineSteps(s, pid);
    forall i | 0 <= i < |steps| ensures steps[i].row.status == Pending {
      assert RowsOf(steps)[i] == steps[i].row;
      assert multiset(RowsOf(steps))[steps[i].row] > 0;
      assert steps[i].row in s.steps;
    }
  }

  lemma PendingIsOpen(steps: seq<StepView>, name: string)
    requires forall i :: 0 <= i < |steps| ==> steps[i].row.status == Pending
    ensures Open(steps, name)
  {
  }

  // ---------------------------------------------------------------------
  // submit_pipeline_step
  // ---------------------------------------------------------------------

  datatype StepError =
    | NoSuchProject(projectId: string)
    | UnknownStep(step: string)
    | Submit(submitErr: SubmitError)

  /** The resolved paths as parameter values. */
  function AsValues(resolved: map<string, string>): (r: Params)
    ensures r.Keys == resolved.Keys
    ensures forall k :: k in r ==> r[k] == Str(resolved[k])
  {
    map k | k in resolved :: Str(resolved[k])
  }

  /** `{**resolved_inputs, **params}`: the caller's parameters override the
      resolved ones. */
  function MergeResolved(resolved: map<string, string>, params: Params): (r: Params)
    ensures r.Keys == resolved.Keys + params.Keys
    ensures forall k :: k in params ==> r[k] == params[k]
    ensures forall k :: k in resolved && k !in params ==> r[k] == Str(resolved[k])
  {
    AsValues(resolved) + params
  }

  /** What `submit_pipeline_step` reports on success. */
  datatype StepSubmitted = StepSubmitted(jobId: string, resolved: map<string, string>)

  /** `submit_pipeline_step`: the project must exist and the step must be a
      catalogued tool; then the resolved inputs (none when `autoResolve` is
      off) are merged under the caller's parameters and the job is
      submitted with the project and step recorded. */
  function SubmitPipelineStep(setup: Setup, w: World, projectId: string, step: string, params: Params,
                              autoResolve: bool, jobId: string, pid: int, now: Time): (r: (World, Result<StepSubmitted, StepError>))
    ensures !HasProject(w.store, projectId) ==> r == (w, Err(NoSuchProject(projectId)))
    ensures HasProject(w.store, projectId) && FindTool(setup.jobs.tools, step).None? ==>
      r == (w, Err(UnknownStep(step)))
    ensures r.1.Ok? ==> HasProject(w.store, projectId) && FindTool(setup.jobs.tools, step).Some?
    ensures HasProject(w.store, projectId) && FindTool(setup.jobs.tools, step).Some? ==>
      r == SubmitStepJob(setup, w, projectId, step, ResolvedFor(setup, w, projectId, step, autoResolve),
                         params, jobId, pid, now)
  {
    if GetProject(w.store, projectId).None? then (w, Err(NoSuchProject(projectId)))
    else if FindTool(setup.jobs.tools, step).None? then (w, Err(UnknownStep(step)))
    else SubmitStepJob(setup, w, projectId, step, ResolvedFor(setup, w, projectId, step, autoResolve),
                       params, jobId, pid, now)
  }

  /** The inputs `submit_pipeline_step` resolves before merging. */
  function ResolvedFor(setup: Setup, w: World, projectId: string, step: string, autoResolve: bool): (r: map<string, string>)
    ensures !autoResolve ==> r == map[]
    ensures autoResolve ==> r == ResolveInputs(setup.jobs.tools, setup.rules, w.store, projectId, step)
  {
    if autoResolve then ResolveInputs(setup.jobs.tools, setup.rules, w.store, projectId, step) else map[]
  }

  /** The submission after the guards: the merged parameters go to
      `submit_job` with the project and step; the job is registered under
      both and starts running. */
  function SubmitStepJob(setup: Setup, w: World, projectId: string, step: string, resolved: map<string, string>,
                         params: Params, jobId: string, pid: int, now: Time): (r: (World, Result<StepSubmitted, StepError>))
    ensures r.1.Ok? ==>
      && r.1.value == StepSubmitted(jobId, resolved)
      && Entry(jobId, Some(projectId), Some(step)) in r.0.registry
      && GetJob(r.0.store, jobId).Some? && GetJob(r.0.store, jobId).value.status == Running
      && GetJob(r.0.store, jobId).value.params == MergeResolved(resolved, params)
    ensures r.1.Ok? ==> JobAdded(w, r.0, Entry(jobId, Some(projectId), Some(step)))
    ensures r.1.Err? ==> r.1.error.Submit?
    ensures WorldValid(w) ==> WorldValid(r.0)
  {
    var o := SubmitJob(setup.jobs, w, step, MergeResolved(resolved, params), Some(projectId), Some(step), jobId, pid, now);
    match o.result
    case Err(e) => (o.world, Err(Submit(e)))
    case Ok(id) => (o.world, Ok(StepSubmitted(id, resolved)))
  }

  // ---------------------------------------------------------------------
  // list_tools and list_projects
  // ---------------------------------------------------------------------

  /** `list_tools(category)`: the tools, in catalogue order, whose category
      equals `category` ignoring case; no category (or an empty one) lists
      them all. */
  function ListTools(tools: seq<ToolSpec>, category: Option<string>): (r: seq<ToolSpec>)
    ensures category.None? || category.value == "" ==> r == tools
    ensures category.Some? && category.value != "" ==>
      forall t :: t in r <==> t in tools && Lower(t.category) == Lower(category.value)
    ensures |r| <= |tools|
  {
    if tools == [] then []
    else
      var keep := category.None? || category.value == "" || Lower(tools[0].category) == Lower(category.value);
      (if keep then [tools[0]] else []) + ListTools(tools[1..], category)
  }

  lemma LowerIdempotent(s: string)
    ensures Lower(Lower(s)) == Lower(s)
  {
  }

  /** The filter ignores the case of the category asked for. */
  lemma {:induction false} ListToolsIgnoresCase(tools: seq<ToolSpec>, category: string)
    requires category != ""
    ensures ListTools(tools, Some(category)) == ListTools(tools, Some(Lower(category)))
  {
    LowerIdempotent(category);
    assert Lower(category) != "";
    if tools != [] {
      ListToolsIgnoresCase(tools[1..], category);
    }
  }

  /** One entry of `list_projects`. */
  datatype ProjectListing = ProjectListing(project: Project, stepsCompleted: nat, stepsTotal: nat)

  /** One project's entry: its completed steps and all its steps. */
  function Listing(s: Store, p: Project): (r: ProjectListing)
    ensures r.project == p
    ensures r.stepsTotal == |GetPipelineSteps(s, p.projectId)|
    ensures r.stepsCompleted == Count(GetPipelineSteps(s, p.projectId), Completed)
    ensures r.stepsCompleted <= r.stepsTotal
  {
    var steps := GetPipelineSteps(s, p.projectId);
    ProjectListing(p, Count(steps, Completed), |steps|)
  }

  /** The entries for the projects `ps`, in order. */
  function Listings(s: Store, ps: seq<Project>): (r: seq<ProjectListing>)
    ensures |r| == |ps|
    ensures forall i :: 0 <= i < |r| ==> r[i] == Listing(s, ps[i])
  {
    seq(|ps|, i requires 0 <= i < |ps| => Listing(s, ps[i]))
  }

  /** The projects of a listing, in order. */
  function ProjectsOf(ls: seq<ProjectListing>): (r: seq<Project>)
    ensures |r| == |ls| && forall i :: 0 <= i < |ls| ==> r[i] == ls[i].project
  {
    seq(|ls|, i requires 0 <= i < |ls| => ls[i].project)
  }

  /** `list_projects`: every project, newest first, with its step counts. */
  function ListProjectsWithSteps(s: Store): (r: seq<ProjectListing>)
    ensures |r| == |s.projects|
    ensures multiset(ProjectsOf(r)) == multiset(s.projects)
    ensures forall i :: 0 <= i < |r| ==> r[i].project in s.projects
    ensures forall i, j :: 0 <= i < j < |r| ==> r[i].project.createdAt >= r[j].project.createdAt
    ensures forall i :: 0 <= i < |r| ==> r[i] == Listing(s, r[i].project)
  {
    var ps := ListProjects(s);
    SameMembers(ps, s.projects);
    var r := Listings(s, ps);
    assert ProjectsOf(r) == ps;
    r
  }

  /** Two sequences with the same elements counted with multiplicity have
      the same length and the same members. */
  lemma SameMembers<T>(a: seq<T>, b: seq<T>)
    requires multiset(a) == multiset(b)
    ensures |a| == |b|
    ensures forall x :: x in a <==> x in b
  {
    assert |multiset(a)| == |multiset(b)|;
    forall x ensures x in a <==> x in b {
      assert x in a <==> multiset(a)[x] > 0;
      assert x in b <==> multiset(b)[x] > 0;
    }
  }
}

=== FILE: sorting.dfy ===
/** Ordering of result rows. SQL `ORDER BY` over a key is modelled as an
    insertion sort on an integer key; a descending order sorts on the
    negated key. */
module Sorting {

  /** `s` is in ascending `key` order. */
  predicate SortedBy<T>(s: seq<T>, key: T -> int) {
    forall i, j :: 0 <= i < j < |s| ==> key(s[i]) <= key(s[j])
  }

  /** Puts `x` in front of the first element of the sorted `s` whose key is
      not smaller. */
  function Insert<T>(x: T, s: seq<T>, key: T -> int): (r: seq<T>)
    requires SortedBy(s, key)
    ensures SortedBy(r, key)
    ensures multiset(r) == multiset(s) + multiset{x}
    ensures |r| == |s| + 1
  {
    if s == [] then [x]
    else if key(x) <= key(s[0]) then [x] + s
    else
      var rest := Insert(x, s[1..], key);
      assert s == [s[0]] + s[1..];
      HeadBelowRest(x, s, rest, key);
      ConsSorted(s[0], rest, key);
      [s[0]] + rest
  }

  /** Every element of the tail, and `x` when it is not smaller, is at
      least the head of the sorted `s`. */
  lemma HeadBelowRest<T>(x: T, s: seq<T>, rest: seq<T>, key: T -> int)
    requires SortedBy(s, key) && s != [] && key(s[0]) < key(x)
    requires multiset(rest) == multiset(s[1..]) + multiset{x}
    ensures forall k :: 0 <= k < |rest| ==> key(s[0]) <= key(rest[k])
  {
    forall k | 0 <= k < |rest| ensures key(s[0]) <= key(rest[k]) {
      assert rest[k] in multiset(rest);
      if rest[k] != x {
        assert rest[k] in multiset(s[1..]);
        var i :| 0 <= i < |s[1..]| && s[1..][i] == rest[k];
        assert s[i + 1] == rest[k];
      }
    }
  }

  lemma ConsSorted<T>(h: T, rest: seq<T>, key: T -> int)
    requires SortedBy(rest, key) && forall k :: 0 <= k < |rest| ==> key(h) <= key(rest[k])
    ensures SortedBy([h] + rest, key)
  {
    var r := [h] + rest;
    forall i, j | 0 <= i < j < |r| ensures key(r[i]) <= key(r[j]) {
      if i > 0 {
        assert r[i] == rest[i - 1] && r[j] == rest[j - 1];
      } else {
        assert r[j] == rest[j - 1];
      }
    }
  }

  /** `s` in ascending `key` order: the same elements, each as many times. */
  function SortBy<T>(s: seq<T>, key: T -> int): (r: seq<T>)
    ensures SortedBy(r, key)
    ensures multiset(r) == multiset(s)
    ensures |r| == |s|
  {
    if s == [] then []
    else
      assert s == [s[0]] + s[1..];
      Insert(s[0], SortBy(s[1..], key), key)
  }
}

=== FILE: store.dfy ===
/** The persistent job store (`database.py`) as an immutable value: the
    three tables `projects`, `jobs` and `pipeline_steps` as sequences of
    rows in insertion order, and every store operation as a function from
    the old store to the new one. SQL constraints that the source relies on
    (primary keys, `UNIQUE(project_id, step_name)`, foreign keys switched on
    for every connection) become explicit error results. */
module Store {
  import opened Wrappers
  import opened Values
  import opened Sorting

  /** Job and step status. The columns hold text; these are the values the
      server ever writes or counts. */
  datatype Status = Pending | Running | Completed | Failed | Cancelled

  /** A timestamp. The source stores ISO-8601 UTC strings of one fixed
      format, which compare in time order; a natural number stands for one. */
  type Time = nat

  datatype Project = Project(
    projectId: string,
    name: string,
    description: string,
    workingDir: string,
    createdAt: Time,
    metadata: Params)

  datatype Job = Job(
    jobId: string,
    projectId: Option<string>,
    toolName: string,
    stepName: Option<string>,
    params: Params,
    command: seq<string>,
    status: Status,
    pid: Option<int>,
    startTime: Time,
    endTime: Option<Time>,
    exitCode: Option<int>,
    stdoutFile: string,
    stderrFile: string,
    logFile: string,
    outputFiles: Option<map<string, string>>,
    workingDir: string,
    createdAt: Time)

  /** A row of `pipeline_steps`. */
  datatype StepRow = StepRow(
    projectId: string,
    stepName: string,
    stepOrder: int,
    jobId: Option<string>,
    status: Status,
    isOptional: bool)

  /** One entry of the list `initialize_pipeline_steps` receives. */
  datatype StepInit = StepInit(stepName: string, stepOrder: int, isOptional: bool)

  /** A row of `get_pipeline_steps`: the step joined with its job, if any. */
  datatype StepView = StepView(
    row: StepRow,
    jobStatus: Option<Status>,
    startTime: Option<Time>,
    endTime: Option<Time>,
    exitCode: Option<int>)

  datatype Store = Store(projects: seq<Project>, jobs: seq<Job>, steps: seq<StepRow>)

  /** The SQLite integrity errors the operations can raise. */
  datatype StoreError = DuplicateKey | ForeignKey

  function Empty(): (r: Store)
    ensures Valid(r) && r.projects == [] && r.jobs == [] && r.steps == []
  {
    Store([], [], [])
  }

  // ---------------------------------------------------------------------
  // Keys and constraints
  // ---------------------------------------------------------------------

  predicate HasProject(s: Store, id: string) {
    exists i :: 0 <= i < |s.projects| && s.projects[i].projectId == id
  }

  predicate HasJob(s: Store, id: string) {
    exists i :: 0 <= i < |s.jobs| && s.jobs[i].jobId == id
  }

  /** Row `i` is the step `name` of project `pid`. */
  predicate IsStep(r: StepRow, pid: string, name: string) {
    r.projectId == pid && r.stepName == name
  }

  predicate HasStep(steps: seq<StepRow>, pid: string, name: string) {
    exists i :: 0 <= i < |steps| && IsStep(steps[i], pid, name)
  }

  /** No two job rows share an id. */
  predicate UniqueJobIds(js: seq<Job>) {
    forall i, j :: 0 <= i < j < |js| ==> js[i].jobId != js[j].jobId
  }

  /** The constraints of the schema: primary keys, the unique step key, and
      the foreign keys of jobs and steps. */
  predicate Valid(s: Store) {
    && (forall i, j :: 0 <= i < j < |s.projects| ==> s.projects[i].projectId != s.projects[j].projectId)
    && UniqueJobIds(s.jobs)
    && (forall i, j :: 0 <= i < j < |s.steps| ==>
          !IsStep(s.steps[j], s.steps[i].projectId, s.steps[i].stepName))
    && (forall i :: 0 <= i < |s.jobs| && s.jobs[i].projectId.Some? ==>
          HasProject(s, s.jobs[i].projectId.value))
    && (forall i :: 0 <= i < |s.steps| ==> HasProject(s, s.steps[i].projectId))
    && (forall i :: 0 <= i < |s.steps| && s.steps[i].jobId.Some? ==>
          HasJob(s, s.steps[i].jobId.value))
  }

  // ---------------------------------------------------------------------
  // Projects
  // ---------------------------------------------------------------------

  function FindProject(ps: seq<Project>, id: string): (r: Option<Project>)
    ensures r.None? <==> forall i :: 0 <= i < |ps| ==> ps[i].projectId != id
    ensures r.Some? ==> r.value in ps && r.value.projectId == id
  {
    if ps == [] then None
    else if ps[0].projectId == id then Some(ps[0])
    else FindProject(ps[1..], id)
  }

  /** `get_project`: the row of that id, or `None`. */
  function GetProject(s: Store, id: string): (r: Option<Project>)
    ensures r.None? <==> !HasProject(s, id)
    ensures r.Some? ==> r.value in s.projects && r.value.projectId == id
  {
    FindProject(s.projects, id)
  }

  /** `create_project`: appends a project created at `now`; a taken id is a
      primary-key violation. The source returns `get_project` of the new id,
      which is the new row. */
  function CreateProject(s: Store, id: string, name: string, description: string,
                         workingDir: string, metadata: Params, now: Time): (r: Result<(Store, Project), StoreError>)
    ensures r.Err? <==> HasProject(s, id)
    ensures r.Err? ==> r.error == DuplicateKey
    ensures r.Ok? ==> var (s', p) := r.value;
      && p == Project(id, name, description, workingDir, now, metadata)
      && s'.projects == s.projects + [p] && s'.jobs == s.jobs && s'.steps == s.steps
      && GetProject(s', id) == Some(p)
    ensures r.Ok? && Valid(s) ==> Valid(r.value.0)
  {
    if HasProject(s, id) then Err(DuplicateKey)
    else
      var p := Project(id, name, description, workingDir, now, metadata);
      var s' := s.(projects := s.projects + [p]);
      assert s'.projects[|s.projects|] == p;
      assert forall q :: HasProject(s, q) ==> HasProject(s', q) by {
        forall q | HasProject(s, q) ensures HasProject(s', q) {
          var i :| 0 <= i < |s.projects| && s.projects[i].projectId == q;
          assert s'.projects[i].projectId == q;
        }
      }
      Ok((s', p))
  }

  /** `list_projects`: every project, newest first. */
  function ListProjects(s: Store): (r: seq<Project>)
    ensures multiset(r) == multiset(s.projects)
    ensures forall i, j :: 0 <= i < j < |r| ==> r[i].createdAt >= r[j].createdAt
  {
    SortBy(s.projects, (p: Project) => -(p.createdAt as int))
  }

  // ---------------------------------------------------------------------
  // Jobs
  // ---------------------------------------------------------------------

  function FindJob(js: seq<Job>, id: string): (r: Option<Job>)
    ensures r.None? <==> forall i :: 0 <= i < |js| ==> js[i].jobId != id
    ensures r.Some? ==> r.value in js && r.value.jobId == id
  {
    if js == [] then None
    else if js[0].jobId == id then Some(js[0])
    else FindJob(js[1..], id)
  }

  /** `get_job`: the row of that id, or `None`. */
  function GetJob(s: Store, id: string): (r: Option<Job>)
    ensures r.None? <==> !HasJob(s, id)
    ensures r.Some? ==> r.value in s.jobs && r.value.jobId == id
  {
    FindJob(s.jobs, id)
  }

  /** With unique job ids the job of an id is the row at its index. */
  lemma GetJobAt(s: Store, i: nat)
    requires UniqueJobIds(s.jobs) && i < |s.jobs|
    ensures GetJob(s, s.jobs[i].jobId) == Some(s.jobs[i])
  {
    var r := GetJob(s, s.jobs[i].jobId);
    var k :| 0 <= k < |s.jobs| && s.jobs[k] == r.value;
    assert k == i;
  }

  /** `insert_job`: appends a `running` job whose start time is its creation
      time `now`. A taken id violates the primary key; a project id that
      names no project violates the foreign key (a missing one is NULL). */
  function InsertJob(s: Store, jobId: string, projectId: Option<string>, toolName: string,
                     stepName: Option<string>, params: Params, command: seq<string>,
                     workingDir: string, pid: Option<int>, stdoutFile: string,
                     stderrFile: string, logFile: string, now: Time): (r: Result<(Store, Job), StoreError>)
    ensures r.Err? <==> HasJob(s, jobId) || (projectId.Some? && !HasProject(s, projectId.value))
    ensures r.Err? ==> (r.error == DuplicateKey <==> HasJob(s, jobId))
    ensures r.Ok? ==> var (s', j) := r.value;
      && s'.jobs == s.jobs + [j] && s'.projects == s.projects && s'.steps == s.steps
      && j.jobId == jobId && j.projectId == projectId && j.toolName == toolName
      && j.stepName == stepName && j.params == params && j.command == command
      && j.status == Running && j.pid == pid
      && j.startTime == now && j.createdAt == now
      && j.endTime.None? && j.exitCode.None? && j.outputFiles.None?
      && j.stdoutFile == stdoutFile && j.stderrFile == stderrFile && j.logFile == logFile
      && j.workingDir == workingDir
      && GetJob(s', jobId) == Some(j)
    ensures r.Ok? && Valid(s) ==> Valid(r.value.0)
  {
    if HasJob(s, jobId) then Err(DuplicateKey)
    else if projectId.Some? && !HasProject(s, projectId.value) then Err(ForeignKey)
    else
      var j := Job(jobId, projectId, toolName, stepName, params, command, Running, pid,
                   now, None, None, stdoutFile, stderrFile, logFile, None, workingDir, now);
      var s' := s.(jobs := s.jobs + [j]);
      AppendJob(s, j);
      Ok((s', j))
  }

  /** Appending a job with a fresh id and an existing (or no) project keeps
      every constraint, and the new row is the job of its id. */
  lemma AppendJob(s: Store, j: Job)
    requires !HasJob(s, j.jobId) && (j.projectId.Some? ==> HasProject(s, j.projectId.value))
    ensures GetJob(s.(jobs := s.jobs + [j]), j.jobId) == Some(j)
    ensures Valid(s) ==> Valid(s.(jobs := s.jobs + [j]))
  {
    var s' := s.(jobs := s.jobs + [j]);
    assert s'.jobs[|s.jobs|] == j;
    assert forall q :: HasJob(s, q) ==> HasJob(s', q) by {
      forall q | HasJob(s, q) ensures HasJob(s', q) {
        var i :| 0 <= i < |s.jobs| && s.jobs[i].jobId == q;
        assert s'.jobs[i].jobId == q;
      }
    }
  }

  /** Replaces every job row of id `id` by `f` of it. */
  function MapJob(js: seq<Job>, id: string, f: Job -> Job): (r: seq<Job>)
    ensures |r| == |js|
    ensures forall i :: 0 <= i < |js| ==> r[i] == (if js[i].jobId == id then f(js[i]) else js[i])
  {
    seq(|js|, i requires 0 <= i < |js| => if js[i].jobId == id then f(js[i]) else js[i])
  }

  /** `update_job_status`: the job's status, exit code and end time are
      overwritten whatever they were before; nothing else changes, and an
      unknown id changes nothing at all. */
  function UpdateJobStatus(s: Store, id: string, status: Status, exitCode: Option<int>, now: Time): (r: Store)
    ensures r.projects == s.projects && r.steps == s.steps && |r.jobs| == |s.jobs|
    ensures forall i :: 0 <= i < |s.jobs| && s.jobs[i].jobId != id ==> r.jobs[i] == s.jobs[i]
    ensures forall i :: 0 <= i < |s.jobs| && s.jobs[i].jobId == id ==>
      r.jobs[i] == s.jobs[i].(status := status, exitCode := exitCode, endTime := Some(now))
    ensures !HasJob(s, id) ==> r == s
    ensures Valid(s) ==> Valid(r)
  {
    var r := s.(jobs := MapJob(s.jobs, id, (j: Job) => j.(status := status, exitCode := exitCode, endTime := Some(now))));
    SameJobIds(s, r);
    assert !HasJob(s, id) ==> r.jobs == s.jobs;
    r
  }

  /** `update_job_output_files`: the job's output map is replaced as a whole;
      nothing else changes. */
  function UpdateJobOutputFiles(s: Store, id: string, outputs: map<string, string>): (r: Store)
    ensures r.projects == s.projects && r.steps == s.steps && |r.jobs| == |s.jobs|
    ensures forall i :: 0 <= i < |s.jobs| && s.jobs[i].jobId != id ==> r.jobs[i] == s.jobs[i]
    ensures forall i :: 0 <= i < |s.jobs| && s.jobs[i].jobId == id ==>
      r.jobs[i] == s.jobs[i].(outputFiles := Some(outputs))
    ensures !HasJob(s, id) ==> r == s
    ensures Valid(s) ==> Valid(r)
  {
    var r := s.(jobs := MapJob(s.jobs, id, (j: Job) => j.(outputFiles := Some(outputs))));
    SameJobIds(s, r);
    assert !HasJob(s, id) ==> r.jobs == s.jobs;
    r
  }

  /** Rewriting job rows in place without touching their ids or project
      ids keeps the store valid. */
  lemma SameJobIds(s: Store, r: Store)
    requires r.projects == s.projects && r.steps == s.steps && |r.jobs| == |s.jobs|
    requires forall i :: 0 <= i < |s.jobs| ==>
      r.jobs[i].jobId == s.jobs[i].jobId && r.jobs[i].projectId == s.jobs[i].projectId
    ensures forall q :: HasJob(r, q) <==> HasJob(s, q)
    ensures Valid(s) ==> Valid(r)
  {
    forall q ensures HasJob(r, q) <==> HasJob(s, q) {
      if HasJob(r, q) {
        var i :| 0 <= i < |r.jobs| && r.jobs[i].jobId == q;
        assert s.jobs[i].jobId == q;
      }
      if HasJob(s, q) {
        var i :| 0 <= i < |s.jobs| && s.jobs[i].jobId == q;
        assert r.jobs[i].jobId == q;
      }
    }
  }

  /** The jobs of project `pid`, in table order. */
  function JobsOf(js: seq<Job>, pid: string): (r: seq<Job>)
    ensures forall j :: multiset(r)[j] == if j.projectId == Some(pid) then multiset(js)[j] else 0
  {
    if js == [] then []
    else
      assert js == [js[0]] + js[1..];
      (if js[0].projectId == Some(pid) then [js[0]] else []) + JobsOf(js[1..], pid)
  }

  /** `list_jobs`: the jobs of the project when a non-empty id is given and
      all jobs otherwise, newest first. */
  function ListJobs(s: Store, projectId: Option<string>): (r: seq<Job>)
    ensures projectId.Some? && projectId.value != "" ==>
      forall j :: multiset(r)[j] == if j.projectId == projectId then multiset(s.jobs)[j] else 0
    ensures projectId.None? || projectId.value == "" ==> multiset(r) == multiset(s.jobs)
    ensures forall i, j :: 0 <= i < j < |r| ==> r[i].createdAt >= r[j].createdAt
  {
    var rows := if projectId.Some? && projectId.value != "" then JobsOf(s.jobs, projectId.value) else s.jobs;
    SortBy(rows, (j: Job) => -(j.createdAt as int))
  }

  // ---------------------------------------------------------------------
  // Pipeline steps
  // ---------------------------------------------------------------------

  /** A table that extends `mid`, which extends `a`, extends `a`, and a
      step `mid` has is still there. */
  lemma PrefixKeepsStep(a: seq<StepRow>, mid: seq<StepRow>, b: seq<StepRow>, pid: string, name: string)
    requires |a| <= |mid| && mid[..|a|] == a
    requires |mid| <= |b| && b[..|mid|] == mid
    requires HasStep(mid, pid, name)
    ensures |a| <= |b| && b[..|a|] == a
    ensures HasStep(b, pid, name)
  {
    assert b[..|mid|][..|a|] == mid[..|a|];
    var n :| 0 <= n < |mid| && IsStep(mid[n], pid, name);
    assert b[n] == mid[n];
  }

  /** Inserts `inits[i..]` one by one, skipping any whose (project, step)
      key is already present (`INSERT OR IGNORE`). */
  function InsertSteps(steps: seq<StepRow>, pid: string, inits: seq<StepInit>, i: nat): (r: seq<StepRow>)
    requires i <= |inits|
    ensures |steps| <= |r| && r[..|steps|] == steps
    ensures forall k :: |steps| <= k < |r| ==>
      && r[k].projectId == pid && r[k].status == Pending && r[k].jobId.None?
      && exists m :: i <= m < |inits| && r[k] == StepRow(pid, inits[m].stepName, inits[m].stepOrder, None, Pending, inits[m].isOptional)
    ensures forall m :: i <= m < |inits| ==> HasStep(r, pid, inits[m].stepName)
    ensures forall k, n :: |steps| <= k < |r| && 0 <= n < k ==> !IsStep(r[n], r[k].projectId, r[k].stepName)
    decreases |inits| - i
  {
    if i == |inits| then steps
    else
      var st := inits[i];
      var next := if HasStep(steps, pid, st.stepName) then steps
                  else steps + [StepRow(pid, st.stepName, st.stepOrder, None, Pending, st.isOptional)];
      assert HasStep(next, pid, st.stepName) by {
        if !HasStep(steps, pid, st.stepName) {
          assert IsStep(next[|steps|], pid, st.stepName);
        } else {
          var n :| 0 <= n < |steps| && IsStep(steps[n], pid, st.stepName);
          assert IsStep(next[n], pid, st.stepName);
        }
      }
      var r := InsertSteps(next, pid, inits, i + 1);
      PrefixKeepsStep(steps, next, r, pid, st.stepName);
      forall k | |steps| <= k < |next|
        ensures r[k] == StepRow(pid, st.stepName, st.stepOrder, None, Pending, st.isOptional)
        ensures forall n :: 0 <= n < k ==> !IsStep(r[n], r[k].projectId, r[k].stepName)
      {
        assert r[..|next|][k] == next[k];
        forall n | 0 <= n < k ensures !IsStep(r[n], pid, st.stepName) {
          assert r[..|next|][n] == next[n] == steps[n];
        }
      }
      r
  }

  /** `initialize_pipeline_steps`: inserts a `pending` row per listed step
      that the project does not have yet and leaves every existing row as it
      is. Steps of a project that does not exist violate the foreign key;
      the whole batch is then rolled back. */
  function InitializePipelineSteps(s: Store, pid: string, inits: seq<StepInit>): (r: Result<Store, StoreError>)
    ensures r.Err? <==> inits != [] && !HasProject(s, pid)
    ensures r.Err? ==> r.error == ForeignKey
    ensures r.Ok? ==> var s' := r.value;
      && s'.projects == s.projects && s'.jobs == s.jobs
      && |s.steps| <= |s'.steps| && s'.steps[..|s.steps|] == s.steps
      && (forall m :: 0 <= m < |inits| ==> HasStep(s'.steps, pid, inits[m].stepName))
      && (forall k :: |s.steps| <= k < |s'.steps| ==>
            s'.steps[k].projectId == pid && s'.steps[k].status == Pending && s'.steps[k].jobId.None?
            && exists m :: 0 <= m < |inits| && s'.steps[k] == StepRow(pid, inits[m].stepName, inits[m].stepOrder, None, Pending, inits[m].isOptional))
    ensures r.Ok? && Valid(s) ==> Valid(r.value)
  {
    if inits == [] then Ok(s)
    else if !HasProject(s, pid) then Err(ForeignKey)
    else
      var s' := s.(steps := InsertSteps(s.steps, pid, inits, 0));
      assert Valid(s) ==> Valid(s') by {
        if Valid(s) {
          forall i, j | 0 <= i < j < |s'.steps|
            ensures !IsStep(s'.steps[j], s'.steps[i].projectId, s'.steps[i].stepName)
          {
            if j < |s.steps| {
              assert s'.steps[i] == s.steps[i] && s'.steps[j] == s.steps[j];
            }
          }
          forall i | 0 <= i < |s'.steps| ensures HasProject(s', s'.steps[i].projectId) {
            if i < |s.steps| {
              assert s'.steps[i] == s.steps[i];
            }
          }
          forall i | 0 <= i < |s'.steps| && s'.steps[i].jobId.Some?
            ensures HasJob(s', s'.steps[i].jobId.value)
          {
            assert i < |s.steps| && s'.steps[i] == s.steps[i];
          }
        }
      }
      Ok(s')
  }

  /** `update_pipeline_step`: sets the status of the project's row for the
      step, and its job id only when a non-empty one is given. No row is
      ever created. A job id that names no job violates the foreign key when
      a row would take it. */
  function UpdatePipelineStep(s: Store, pid: string, name: string, status: Status, jobId: Option<string>): (r: Result<Store, StoreError>)
    ensures r.Err? <==> jobId.Some? && jobId.value != "" && !HasJob(s, jobId.value) && HasStep(s.steps, pid, name)
    ensures r.Err? ==> r.error == ForeignKey
    ensures r.Ok? ==> var s' := r.value;
      && s'.projects == s.projects && s'.jobs == s.jobs && |s'.steps| == |s.steps|
      && (forall i :: 0 <= i < |s.steps| && !IsStep(s.steps[i], pid, name) ==> s'.steps[i] == s.steps[i])
      && (forall i :: 0 <= i < |s.steps| && IsStep(s.steps[i], pid, name) ==>
            s'.steps[i] == s.steps[i].(status := status,
                                       jobId := if jobId.Some? && jobId.value != "" then jobId else s.steps[i].jobId))
    ensures r.Ok? && Valid(s) ==> Valid(r.value)
  {
    var setJob := jobId.Some? && jobId.value != "";
    if setJob && !HasJob(s, jobId.value) && HasStep(s.steps, pid, name) then Err(ForeignKey)
    else
      var steps := seq(|s.steps|, i requires 0 <= i < |s.steps| =>
        if IsStep(s.steps[i], pid, name)
        then s.steps[i].(status := status, jobId := if setJob then jobId else s.steps[i].jobId)
        else s.steps[i]);
      var s' := s.(steps := steps);
      assert forall i :: 0 <= i < |steps| && steps[i].jobId.Some? && steps[i].jobId != s.steps[i].jobId ==>
        HasJob(s, steps[i].jobId.value) by {
        forall i | 0 <= i < |steps| && steps[i].jobId.Some? && steps[i].jobId != s.steps[i].jobId
          ensures HasJob(s, steps[i].jobId.value)
        {
          assert HasStep(s.steps, pid, name) by { assert IsStep(s.steps[i], pid, name); }
        }
      }
      RewriteStepsValid(s, s');
      Ok(s')
  }

  /** Changing the status and job id of step rows in place, to job ids that
      exist, keeps the store valid. */
  lemma RewriteStepsValid(s: Store, s': Store)
    requires s'.projects == s.projects && s'.jobs == s.jobs && |s'.steps| == |s.steps|
    requires forall i :: 0 <= i < |s.steps| ==>
      s'.steps[i].projectId == s.steps[i].projectId && s'.steps[i].stepName == s.steps[i].stepName
    requires forall i :: 0 <= i < |s.steps| && s'.steps[i].jobId.Some? && s'.steps[i].jobId != s.steps[i].jobId ==>
      HasJob(s, s'.steps[i].jobId.value)
    ensures Valid(s) ==> Valid(s')
  {
    if Valid(s) {
      forall i | 0 <= i < |s'.steps| && s'.steps[i].jobId.Some?
        ensures HasJob(s', s'.steps[i].jobId.value)
      {
        if s'.steps[i].jobId == s.steps[i].jobId {
          assert HasJob(s, s.steps[i].jobId.value);
        }
      }
      forall i | 0 <= i < |s'.steps| ensures HasProject(s', s'.steps[i].projectId) {
        assert HasProject(s, s.steps[i].projectId);
      }
    }
  }

  /** The steps of project `pid`, in table order. */
  function StepsOf(steps: seq<StepRow>, pid: string): (r: seq<StepRow>)
    ensures forall x :: multiset(r)[x] == if x.projectId == pid then multiset(steps)[x] else 0
  {
    if steps == [] then []
    else
      assert steps == [steps[0]] + steps[1..];
      (if steps[0].projectId == pid then [steps[0]] else []) + StepsOf(steps[1..], pid)
  }

  /** A step row joined with its job (`LEFT JOIN jobs`): the job's status
      and times when the row names an existing job, nothing otherwise. */
  function Joined(s: Store, row: StepRow): (r: StepView)
    ensures r.row == row
    ensures r.jobStatus.Some? <==> row.jobId.Some? && HasJob(s, row.jobId.value)
    ensures r.jobStatus.Some? ==> var job := GetJob(s, row.jobId.value).value;
      r.jobStatus == Some(job.status) && r.startTime == Some(job.startTime)
      && r.endTime == job.endTime && r.exitCode == job.exitCode
    ensures r.jobStatus.None? ==> r.startTime.None? && r.endTime.None? && r.exitCode.None?
  {
    var j := if row.jobId.Some? then GetJob(s, row.jobId.value) else None;
    match j
    case None => StepView(row, None, None, None, None)
    case Some(job) => StepView(row, Some(job.status), Some(job.startTime), job.endTime, job.exitCode)
  }

  /** `get_pipeline_steps`: the project's rows in ascending step order, each
      joined with its job. */
  function GetPipelineSteps(s: Store, pid: string): (r: seq<StepView>)
    ensures forall x :: multiset(RowsOf(r))[x] == if x.projectId == pid then multiset(s.steps)[x] else 0
    ensures forall i, j :: 0 <= i < j < |r| ==> r[i].row.stepOrder <= r[j].row.stepOrder
    ensures forall i :: 0 <= i < |r| ==> r[i] == Joined(s, r[i].row)
  {
    var rows := SortBy(StepsOf(s.steps, pid), (x: StepRow) => x.stepOrder);
    var r := seq(|rows|, i requires 0 <= i < |rows| => Joined(s, rows[i]));
    assert RowsOf(r) == rows;
    r
  }

  /** The step rows of a joined listing. */
  function RowsOf(vs: seq<StepView>): (r: seq<StepRow>)
    ensures |r| == |vs| && forall i :: 0 <= i < |vs| ==> r[i] == vs[i].row
  {
    seq(|vs|, i requires 0 <= i < |vs| => vs[i].row)
  }

  // ---------------------------------------------------------------------
  // Properties
  // ---------------------------------------------------------------------

  /** In a valid store a status update is read back by `get_job` whatever
      the previous status was: a finished or cancelled job can be set back to
      any status, so statuses are not monotone. */
  lemma StatusReadBack(s: Store, id: string, status: Status, exitCode: Option<int>, now: Time)
    requires Valid(s) && HasJob(s, id)
    ensures var before := GetJob(s, id).value;
      GetJob(UpdateJobStatus(s, id, status, exitCode, now), id)
        == Some(before.(status := status, exitCode := exitCode, endTime := Some(now)))
  {
    var r := UpdateJobStatus(s, id, status, exitCode, now);
    var i :| 0 <= i < |s.jobs| && s.jobs[i] == GetJob(s, id).value;
    GetJobAt(s, i);
    GetJobAt(r, i);
  }

  /** `get_job` after `update_job_output_files` yields the new map. */
  lemma OutputFilesReadBack(s: Store, id: string, outputs: map<string, string>)
    requires Valid(s) && HasJob(s, id)
    ensures GetJob(UpdateJobOutputFiles(s, id, outputs), id)
        == Some(GetJob(s, id).value.(outputFiles := Some(outputs)))
  {
    var r := UpdateJobOutputFiles(s, id, outputs);
    var i :| 0 <= i < |s.jobs| && s.jobs[i] == GetJob(s, id).value;
    GetJobAt(s, i);
    GetJobAt(r, i);
  }

  /** Inserting steps the project already has changes nothing. */
  lemma {:induction false} InsertPresentSteps(steps: seq<StepRow>, pid: string, inits: seq<StepInit>, i: nat)
    requires i <= |inits|
    requires forall m :: i <= m < |inits| ==> HasStep(steps, pid, inits[m].stepName)
    ensures InsertSteps(steps, pid, inits, i) == steps
    decreases |inits| - i
  {
    if i < |inits| {
      InsertPresentSteps(steps, pid, inits, i + 1);
    }
  }

  /** `initialize_pipeline_steps` is idempotent: a second call with the same
      list leaves the store as the first call left it. */
  lemma InitializeIdempotent(s: Store, pid: string, inits: seq<StepInit>)
    requires InitializePipelineSteps(s, pid, inits).Ok?
    ensures var s' := InitializePipelineSteps(s, pid, inits).value;
      InitializePipelineSteps(s', pid, inits) == Ok(s')
  {
    var s' := InitializePipelineSteps(s, pid, inits).value;
    if inits != [] {
      assert HasProject(s', pid);
      InsertPresentSteps(s'.steps, pid, inits, 0);
    }
  }
}

=== FILE: values.dfy ===
/** Dynamically typed parameter values as the server receives them (decoded
    JSON), with the parts of Python's object protocol the core relies on:
    truthiness, `str()`, and `str.split()` with no separator. */
module Values {

  /** A parameter value. `Null` is Python's `None`. Floats are not modelled. */
  datatype Value =
    | Str(s: string)
    | Int(i: int)
    | Bool(b: bool)
    | List(items: seq<Value>)
    | Null

  /** A parameter dictionary: parameter name to value. */
  type Params = map<string, Value>

  /** Python truthiness: empty strings and lists, zero, False and None are false. */
  predicate Truthy(v: Value) {
    match v
    case Str(s) => s != ""
    case Int(i) => i != 0
    case Bool(b) => b
    case List(items) => |items| > 0
    case Null => false
  }

  function DigitChar(d: nat): (c: char)
    requires d < 10
    ensures '0' <= c <= '9'
  {
    ['0', '1', '2', '3', '4', '5', '6', '7', '8', '9'][d]
  }

  /** Decimal digits of a natural number, most significant first. */
  function Digits(n: nat): (r: string)
    ensures |r| > 0
    ensures forall k :: 0 <= k < |r| ==> '0' <= r[k] <= '9'
    decreases n
  {
    if n < 10 then [DigitChar(n)] else Digits(n / 10) + [DigitChar(n % 10)]
  }

  /** `str(i)` for an integer. */
  function IntToString(i: int): string {
    if i < 0 then "-" + Digits(-i) else Digits(i)
  }

  /** `str(v)`. A list prints as its repr; string items are quoted with single
      quotes and no escaping (Python's quote choice and escapes are not modelled). */
  function StrOf(v: Value): string
    decreases v, 1
  {
    match v
    case Str(s) => s
    case Int(i) => IntToString(i)
    case Bool(b) => if b then "True" else "False"
    case Null => "None"
    case List(items) => "[" + ReprItems(v, 0) + "]"
  }

  /** The comma-separated reprs of `v.items[from..]`. */
  function ReprItems(v: Value, from: nat): string
    requires v.List? && from <= |v.items|
    decreases v, 0, |v.items| - from
  {
    if from == |v.items| then ""
    else
      var x := v.items[from];
      var repr := if x.Str? then "'" + x.s + "'" else StrOf(x);
      (if from == 0 then "" else ", ") + repr + ReprItems(v, from + 1)
  }

  /** The characters `str.split()` treats as separators: Python's whitespace
      (bidirectional class WS, B or S, or general category Zs). */
  predicate IsSpace(c: char) {
    || c == ' ' || c == '\t' || c == '\n' || c == '\r' || c == '\U{0B}' || c == '\U{0C}'
    || c == '\U{1C}' || c == '\U{1D}' || c == '\U{1E}' || c == '\U{1F}'
    || c == '\U{85}' || c == '\U{A0}' || c == '\U{1680}'
    || ('\U{2000}' <= c <= '\U{200A}')
    || c == '\U{2028}' || c == '\U{2029}' || c == '\U{202F}' || c == '\U{205F}' || c == '\U{3000}'
  }

  /** A token `split()` can return: non-empty, no separator inside. */
  predicate IsWord(w: string) {
    w != [] && forall k :: 0 <= k < |w| ==> !IsSpace(w[k])
  }

  /** `s` without its leading separators. */
  function SkipSpaces(s: string): (r: string)
    ensures |r| <= |s| && r == s[|s| - |r|..]
    ensures r == [] || !IsSpace(r[0])
    ensures forall k :: 0 <= k < |s| - |r| ==> IsSpace(s[k])
  {
    if s != [] && IsSpace(s[0]) then SkipSpaces(s[1..]) else s
  }

  /** The longest prefix of `s` without a separator. */
  function Word(s: string): (w: string)
    ensures |w| <= |s| && w == s[..|w|]
    ensures forall k :: 0 <= k < |w| ==> !IsSpace(w[k])
    ensures |w| < |s| ==> IsSpace(s[|w|])
  {
    if s == [] || IsSpace(s[0]) then [] else [s[0]] + Word(s[1..])
  }

  /** `s.split()`: the maximal runs of non-separators, left to right; empty
      tokens never appear. */
  function Split(s: string): (r: seq<string>)
    ensures forall k :: 0 <= k < |r| ==> IsWord(r[k])
    decreases |s|
  {
    var t := SkipSpaces(s);
    if t == [] then []
    else
      var w := Word(t);
      [w] + Split(t[|w|..])
  }

  /** Every character of `g` is a separator (`g` may be empty). */
  predicate Blank(g: string) {
    forall k :: 0 <= k < |g| ==> IsSpace(g[k])
  }

  /** `gaps[0] + ws[0] + gaps[1] + ... + ws[n - 1] + gaps[n]`. */
  function Interleave(gaps: seq<string>, ws: seq<string>): string
    requires |gaps| == |ws| + 1
    decreases |ws|
  {
    if ws == [] then gaps[0] else gaps[0] + ws[0] + Interleave(gaps[1..], ws[1..])
  }

  /** `s` is the words `ws` separated by runs of separators: blank gaps
      around them, the inner ones non-empty. This is the shape `split()`
      takes apart. */
  predicate RunsOf(s: string, gaps: seq<string>, ws: seq<string>) {
    && |gaps| == |ws| + 1
    && s == Interleave(gaps, ws)
    && (forall k :: 0 <= k < |ws| ==> IsWord(ws[k]))
    && (forall k :: 0 <= k < |gaps| ==> Blank(gaps[k]))
    && (forall k :: 0 < k < |ws| ==> gaps[k] != [])
  }

  /** A blank prefix does not change how a string splits. */
  lemma {:induction false} SplitAfterBlank(g: string, x: string)
    requires Blank(g)
    ensures SkipSpaces(g + x) == SkipSpaces(x)
    ensures Split(g + x) == Split(x)
    decreases |g|
  {
    if g != [] {
      assert (g + x)[1..] == g[1..] + x;
      SplitAfterBlank(g[1..], x);
    } else {
      assert g + x == x;
    }
  }

  /** A decomposition with at least one word is its first gap, its first
      word, and a decomposition of the rest, which starts with a separator
      unless it is empty. */
  lemma RunsOfTail(s: string, gaps: seq<string>, ws: seq<string>) returns (rest: string)
    requires RunsOf(s, gaps, ws) && ws != []
    ensures s == gaps[0] + (ws[0] + rest)
    ensures RunsOf(rest, gaps[1..], ws[1..])
    ensures rest == [] || IsSpace(rest[0])
  {
    rest := Interleave(gaps[1..], ws[1..]);
    if |ws| > 1 {
      assert rest == gaps[1] + (ws[1] + Interleave(gaps[2..], ws[2..]));
      assert rest[0] == gaps[1][0];
    }
  }

  /** A blank gap, a word, and a rest that splits into `ws[1..]` split into
      `ws`. */
  lemma SplitOfRunsStep(s: string, g: string, rest: string, ws: seq<string>)
    requires ws != [] && s == g + (ws[0] + rest) && Blank(g) && IsWord(ws[0])
    requires rest == [] || IsSpace(rest[0])
    requires Split(rest) == ws[1..]
    ensures Split(s) == ws
  {
    calc {
      Split(s);
    == { SplitAfterBlank(g, ws[0] + rest); }
      Split(ws[0] + rest);
    == { SplitWordThen(ws[0], rest); }
      [ws[0]] + Split(rest);
    ==
      [ws[0]] + ws[1..];
    == { ConsTail(ws); }
      ws;
    }
  }

  lemma ConsTail<T>(xs: seq<T>)
    requires xs != []
    ensures [xs[0]] + xs[1..] == xs
  {
  }

  /** `split()` returns the words of any decomposition of its argument into
      words and separator runs. */
  lemma {:induction false} SplitOfRuns(s: string, gaps: seq<string>, ws: seq<string>)
    requires RunsOf(s, gaps, ws)
    ensures Split(s) == ws
    decreases |ws|
  {
    if ws == [] {
      SplitAfterBlank(gaps[0], "");
      assert gaps[0] + "" == s;
    } else {
      var rest := RunsOfTail(s, gaps, ws);
      SplitOfRuns(rest, gaps[1..], ws[1..]);
      SplitOfRunsStep(s, gaps[0], rest, ws);
    }
  }

  /** Prefixing a blank gap and a word to a decomposition gives a
      decomposition of `s`, provided the old one starts with a separator or
      is empty. */
  lemma RunsOfCons(s: string, g: string, w: string, rest: string, gaps: seq<string>, ws: seq<string>, ws': seq<string>)
    requires s == g + w + rest && ws' == [w] + ws
    requires Blank(g) && IsWord(w) && RunsOf(rest, gaps, ws)
    requires rest == [] || IsSpace(rest[0])
    ensures exists gs :: RunsOf(s, gs, ws')
  {
    var gs := [g] + gaps;
    assert gs[1..] == gaps && ws'[1..] == ws;
    assert Interleave(gs, ws') == g + w + rest;
    if ws != [] {
      assert rest == gaps[0] + ws[0] + Interleave(gaps[1..], ws[1..]);
    }
    assert RunsOf(s, gs, ws');
  }

  /** The separators `SkipSpaces` drops form a blank prefix. */
  lemma BlankPrefix(s: string) returns (g0: string)
    ensures s == g0 + SkipSpaces(s) && Blank(g0)
  {
    var t := SkipSpaces(s);
    g0 := s[..|s| - |t|];
    forall k | 0 <= k < |g0| ensures IsSpace(g0[k]) {
      assert g0[k] == s[k];
    }
  }

  /** A string that starts with a non-separator is its first word followed
      by a rest that starts with a separator or is empty. */
  lemma FirstWord(t: string)
    requires t != [] && !IsSpace(t[0])
    ensures IsWord(Word(t)) && t == Word(t) + t[|Word(t)|..]
    ensures t[|Word(t)|..] == [] || IsSpace(t[|Word(t)|..][0])
  {
    assert Word(t) == [t[0]] + Word(t[1..]);
  }

  /** `split()` on a string that is not blank takes off its first word. */
  lemma SplitUnfold(s: string)
    requires SkipSpaces(s) != []
    ensures Split(s) == [Word(SkipSpaces(s))] + Split(SkipSpaces(s)[|Word(SkipSpaces(s))|..])
  {
  }

  /** Every string decomposes into the words `split()` returns and the
      separator runs between them: the tokens are exactly the maximal runs
      of non-separators, and nothing but separators is dropped. */
  lemma {:induction false} SplitRuns(s: string)
    ensures exists gaps :: RunsOf(s, gaps, Split(s))
    decreases |s|
  {
    if SkipSpaces(s) == [] {
      BlankRuns(s);
    } else {
      var g0, w, rest := SplitStep(s);
      SplitRuns(rest);
      var gaps' :| RunsOf(rest, gaps', Split(rest));
      RunsOfCons(s, g0, w, rest, gaps', Split(rest), Split(s));
    }
  }

  /** A blank string is one gap and no words. */
  lemma BlankRuns(s: string)
    requires SkipSpaces(s) == []
    ensures RunsOf(s, [s], Split(s))
  {
    var g0 := BlankPrefix(s);
    assert s == g0 && Split(s) == [];
    assert Interleave([s], []) == s;
  }

  /** A string that is not blank is a blank prefix, its first word and a
      rest that starts with a separator or is empty; `split()` returns the
      word and then the words of the rest. */
  lemma SplitStep(s: string) returns (g0: string, w: string, rest: string)
    requires SkipSpaces(s) != []
    ensures s == g0 + w + rest && |rest| < |s|
    ensures Blank(g0) && IsWord(w) && (rest == [] || IsSpace(rest[0]))
    ensures Split(s) == [w] + Split(rest)
  {
    g0 := BlankPrefix(s);
    var t := SkipSpaces(s);
    FirstWord(t);
    w := Word(t);
    rest := t[|w|..];
    calc {
      s;
    ==
      g0 + t;
    == { assert t == w + rest; }
      g0 + (w + rest);
    == { ConcatAssoc(g0, w, rest); }
      g0 + w + rest;
    }
    SplitUnfold(s);
  }

  lemma ConcatAssoc<T>(a: seq<T>, b: seq<T>, c: seq<T>)
    ensures a + (b + c) == a + b + c
  {
  }

  /** `" ".join(ws)`. */
  function JoinWords(ws: seq<string>): string {
    if ws == [] then ""
    else if |ws| == 1 then ws[0]
    else ws[0] + " " + JoinWords(ws[1..])
  }

  /** The `str` of every item of a list, in order. */
  function StrAll(xs: seq<Value>): (r: seq<string>)
    ensures |r| == |xs|
    ensures forall k :: 0 <= k < |xs| ==> r[k] == StrOf(xs[k])
  {
    if xs == [] then [] else [StrOf(xs[0])] + StrAll(xs[1..])
  }

  /** A string made only of separators splits to nothing, and a leading
      separator is ignored. */
  lemma SplitLeadingSpace(x: string)
    ensures Split(" " + x) == Split(x)
  {
    assert (" " + x)[1..] == x;
  }

  lemma WordOfPrefix(w: string, rest: string)
    requires IsWord(w)
    requires rest == [] || IsSpace(rest[0])
    ensures Word(w + rest) == w
    decreases |w|
  {
    if |w| > 1 {
      assert (w + rest)[1..] == w[1..] + rest;
      WordOfPrefix(w[1..], rest);
    } else {
      assert (w + rest)[1..] == rest;
    }
  }

  /** A word followed by a separator (or nothing) is split off as the first token. */
  lemma SplitWordThen(w: string, rest: string)
    requires IsWord(w)
    requires rest == [] || IsSpace(rest[0])
    ensures Split(w + rest) == [w] + Split(rest)
  {
    var s := w + rest;
    WordOfPrefix(w, rest);
    assert SkipSpaces(s) == s;
    assert s[|w|..] == rest;
  }

  /** `split()` undoes `" ".join` on words: the round trip the command builder
      relies on when a list parameter arrives as one space-separated string. */
  lemma {:induction false} SplitJoinWords(ws: seq<string>)
    requires forall k :: 0 <= k < |ws| ==> IsWord(ws[k])
    ensures Split(JoinWords(ws)) == ws
  {
    if ws == [] {
    } else if |ws| == 1 {
      SplitWordThen(ws[0], "");
      assert ws[0] + "" == ws[0];
    } else {
      SplitJoinWords(ws[1..]);
      SplitJoinStep(ws);
    }
  }

  /** The inductive step of `SplitJoinWords`. */
  lemma SplitJoinStep(ws: seq<string>)
    requires |ws| > 1 && IsWord(ws[0])
    requires Split(JoinWords(ws[1..])) == ws[1..]
    ensures Split(JoinWords(ws)) == ws
  {
    var tail := JoinWords(ws[1..]);
    JoinWordsCons(ws);
    SplitWordThen(ws[0], " " + tail);
    SplitLeadingSpace(tail);
    assert ws == [ws[0]] + ws[1..];
  }

  lemma JoinWordsCons(ws: seq<string>)
    requires |ws| > 1
    ensures JoinWords(ws) == ws[0] + (" " + JoinWords(ws[1..]))
  {
  }

  /** `str.lower()` on ASCII letters (other case mappings are not modelled). */
  function Lower(s: string): (r: string)
    ensures |r| == |s|
    ensures forall k :: 0 <= k < |s| ==>
      r[k] == if 'A' <= s[k] <= 'Z' then (s[k] as int + 32) as char else s[k]
  {
    if s == [] then []
    else [if 'A' <= s[0] <= 'Z' then (s[0] as int + 32) as char else s[0]] + Lower(s[1..])
  }
}

=== FILE: wrappers.dfy ===
/** Failure-compatible result types shared by every module of the model. */
module Wrappers {

  /** Python's `None` / a present value. */
  datatype Option<+T> = None | Some(value: T) {
    function GetOr(default: T): T {
      match this
      case Some(v) => v
      case None => default
    }
  }

  /** The value of an operation, or the exception it raises. */
  datatype Result<+R, +E> = Ok(value: R) | Err(error: E) {
    predicate IsFailure() {
      Err?
    }

    function PropagateFailure<U>(): Result<U, E>
      requires Err?
    {
      Err(error)
    }

    function Extract(): R
      requires Ok?
    {
      value
    }
  }
}
